=== FILE: README.md ===
# Pathfinder server event pipeline, modelled in Dafny

This project models the event pipeline of the pathfinder server. That is
the actor system that watches the Circles chain and keeps pathfinder
processes up to date:

- **Clocks.** A real-time clock publishes second, minute and hour ticks. A
  block clock turns the chain height it polls each second into `NextBlock`
  announcements.
- **Event sources.** Two generations of event sources query the chain for
  new events in block ranges. Each range is fetched by a one-shot
  `BlockchainEventQuery` worker, and the results are published.
- **Buffers.** Two generations of event buffers collect the events keyed by
  (block number, log index) in a sorted list. They answer stats queries,
  dump themselves, and serve a pull-based feed.
- **Feed protocol.** A feed and a consumer shake hands on a `FeedMode`
  (Finite, Infinite, or both as flags), then move one item per `Next`, each
  item through the consumer's sink.
- **Feeders.** Three feeders translate events into `RpcMessage` commands
  for the pathfinder. The ids of those messages come from a process-wide
  `uint` counter.
  - `Actors/Pathfinder/Feeder.cs` has no catch-up phase. It brackets one
    feed of the buffer with `delayEdgeUpdates` and `performEdgeUpdates`.
  - `Actors/PathfinderFeeder.cs` catches up from a start block. It then
    unrolls the buffer into the pathfinder with no bracketing calls.
  - `Actors/Pathfinder/PathfinderFeeder.cs` does both: it catches up, then
    brackets every feeding cycle with the two calls.

Every actor is a pure step function `Step(state, message) -> (state,
outputs)`:

- An output is a message the actor sends, an actor it spawns, or an
  asynchronous call whose answer comes back as a later message.
- A thrown exception is a terminal `Failed`/`Closed` phase.
- A message the current behaviour has no handler for changes nothing.
- Timers, the clock, the chain RPC (Nethereum) and the pathfinder process
  are inputs: their answers are messages given to `Step`.

The buffer is a strictly key-sorted sequence of entries (`SortedEntries`).
Its `ToMap`/`KeySet` views give the `SortedList`/`SortedDictionary`
semantics.

`Session` composes a feed and a consumer over one FIFO mailbox and proves
the end-to-end properties of a feed session. `FeedDrain` does the same for
a feed served by the buffer's cursor handlers.

Behaviour worth noting:

- **First block-clock observation.** The block clock announces the first
  height it sees, since `_lastBlock` starts null.
- **Tock range in `Actors/EventSource.cs`.** The range starts at the
  previous height itself.
- **Overlapping ranges in `Actors/BlockchainEventSource.cs`.** Consecutive
  ranges overlap in one block.
- **A falling height in `Actors/Chain/BlockchainEventSource.cs`.** The
  block clock only promises that a new height differs from the last one.
  A height below the watermark gives an empty query range, and when the
  buffer holds events the watermark drops to that height, so the next
  round publishes blocks again. With rising heights the published ranges
  tile the chain.
- **The buffer count in `Actors/Chain/BlockchainEventSource.cs`.** The
  source moves its watermark when its buffer reports a non-zero count. The
  `Publish` request it then sends matches no case of the buffer, so the
  count never drops. After the first stored event, a failed query moves
  the watermark past its blocks; see "Findings".
- **`FindNext` / `RemoveAndFindNext`.** The buffer's cursor handlers are
  modelled as written. Their intended behaviour is a separate definition;
  see "Findings".

## Model

All source paths are under `Pathfinder.Server/`.

| member | source | states |
|---|---|---|
| Common.LessIsStrictTotalOrder | Pathfinder.Server/Actors/Chain/BlockchainEventSource.cs:50-53 | The (block, log index) tuple key compares lexicographically and is a strict total order (irreflexive, transitive, total) |
| Common.NotLessEq | Pathfinder.Server/Actors/EventBuffer.cs:129-132 | The buffer's `CompareTo(...) <= 0` and `> 0` tests are exact complements in terms of the key order |
| SortedEntries.ValuesAt | Pathfinder.Server/Actors/EventBuffer.cs:99 | `Values` of the sorted list lists each entry's value at that entry's position |
| SortedEntries.ToMapKeys | Pathfinder.Server/Actors/EventBuffer.cs:99 | The key-to-value view of the sorted list has exactly the stored keys |
| SortedEntries.ToMapAt | Pathfinder.Server/Actors/EventBuffer.cs:99 | In a sorted list, each stored key maps to the value stored with it |
| SortedEntries.CountIsKeyCount | Pathfinder.Server/Actors/EventBuffer.cs:155-158 | `Count` of a sorted list equals the number of distinct stored keys |
| SortedEntries.Insert | Pathfinder.Server/Actors/EventBuffer.cs:140 | `Add` of a fresh key keeps the list sorted and adds exactly that key-value pair to the mapping |
| SortedEntries.RemoveKey | Pathfinder.Server/Actors/EventBuffer.cs:178 | `Remove(k)` keeps the list sorted, drops one entry when `k` is stored and changes nothing otherwise |
| SortedEntries.RemoveKeyMap | Pathfinder.Server/Actors/EventBuffer.cs:178 | `Remove(k)` removes exactly key `k` from the mapping and keeps every other pair |
| SortedEntries.RemoveKeySet | Pathfinder.Server/Actors/EventBuffer.cs:178 | `Remove(k)` removes exactly `k` from the stored keys |
| SortedEntries.IndexOf | Pathfinder.Server/Actors/EventBuffer.cs:172 | `IndexOfKey` returns the position of the key's entry, or -1 exactly when the key is not stored |
| SortedEntries.IndexOfSorted | Pathfinder.Server/Actors/EventBuffer.cs:172 | In a sorted list, `IndexOfKey` of the i-th key is i |
| FeedProtocol.ToBits | Pathfinder.Server/Actors/Feed/FeedMode.cs:5-11 | Every mode's enum value is 1, 2 or 3 |
| FeedProtocol.ThreeModes | Pathfinder.Server/Actors/Feed/FeedMode.cs:5-11 | A feed mode is one of exactly three flag combinations |
| FeedProtocol.BitsRoundTrip | Pathfinder.Server/Actors/Feed/FeedMode.cs:5-11 | Decoding the enum value of a mode gives the mode back; 1, 2 and 3 are the only values that decode, and each decodes to the mode whose value it is |
| FeedProtocol.HasFlagIsBitTest | Pathfinder.Server/Actors/Feed/Feed.cs:124-127 | The set-inclusion `HasFlag` agrees with the C# bit test `(m & flag) == flag` |
| Decimal.ParseInt32 | Pathfinder.Server/Actors/Pathfinder/Feeder.cs:94 | Whatever `Int32.Parse` returns lies in the signed 32-bit range |
| Decimal.NatDigitsRoundTrip | Pathfinder.Server/Actors/Pathfinder/Feeder.cs:94 | Reading back the digits of a natural number gives the number |
| Decimal.ParseRender | Pathfinder.Server/Actors/Pathfinder/Feeder.cs:94 | `Int32.Parse(n.ToString())` returns n exactly when n fits in 32 bits and fails otherwise |
| RpcMessage.SetPropLookup | Pathfinder.Server/RpcMessage.cs:22-29 | Assigning a property through `dynamic` sets that property, keeps every other one, and adds only the assigned name |
| RpcMessage.LoadDbFor | Pathfinder.Server/RpcMessage.cs:31-36 | `LoadDb` ignores its file name: every file name gives the same command |
| RpcMessage.IdsCount | Pathfinder.Server/RpcMessage.cs:9-17 | The i-th of n new messages gets id last+i+1 modulo 2^32, so from a fresh counter ids are 1, 2, 3, … |
| RpcMessage.FirstIdAndWrap | Pathfinder.Server/RpcMessage.cs:9-17 | The first id is 1, and the id after 2^32-1 wraps to 0 |
| RpcMessage.SerializeFields | Pathfinder.Server/RpcMessage.cs:22-29 | The written form holds `id`, `cmd` and every argument unchanged, and no other property |
| RpcMessage.DecodeReadsArgNames | Pathfinder.Server/RpcMessage.cs:45-111 | A command is determined by the argument names its factory writes and nothing else |
| RpcMessage.DecodeArgs | Pathfinder.Server/RpcMessage.cs:45-111 | Each factory's command name and argument object identify the command and all its arguments (round trip) |
| RpcMessage.DecodeSerialized | Pathfinder.Server/RpcMessage.cs:22-111 | A serialized message decodes back to the command that made it |
| RpcMessage.EdgeCommandsCarryNothing | Pathfinder.Server/RpcMessage.cs:80-93 | `edgeCount`, `delayEdgeUpdates` and `performEdgeUpdates` send an empty argument object |
| EventBuffer.Stats | Pathfinder.Server/Actors/EventBuffer.cs:144-159 | `GetStats` returns defaults on an empty buffer; otherwise it returns the smallest and largest stored keys and the key count |
| EventBuffer.RemoveAndFindNextIn | Pathfinder.Server/Actors/EventBuffer.cs:160-186 | The handler keeps the buffer sorted; an EOF answer reports no removal; a reported removal took out exactly the current stored key, and without one nothing changes |
| EventBuffer.Step | Pathfinder.Server/Actors/EventBuffer.cs:122-298 | Every handler keeps the buffer sorted and the boundary set only while a feed is open |
| EventBuffer.StepKeepsWellKeyed | Pathfinder.Server/Actors/EventBuffer.cs:127-211 | Every value is filed under the key the extractor gives it, and every cursor reply answers an entry under its value's own key |
| EventBuffer.WellKeyedMap | Pathfinder.Server/Actors/EventBuffer.cs:127-141 | On a sorted buffer, every entry being under its value's key is the same as every key of the stored mapping being its value's key |
| EventBuffer.FactoryAnswer | Pathfinder.Server/Actors/EventBuffer.cs:250-272 | The feed's factory returns end of data on EOF or on a key past the boundary; otherwise it returns the item and advances the cursor to its key |
| EventBuffer.AddDuplicateIgnored | Pathfinder.Server/Actors/EventBuffer.cs:133-138 | Adding an item whose key is stored changes nothing |
| EventBuffer.AddFreshKey | Pathfinder.Server/Actors/EventBuffer.cs:140 | Adding a fresh key adds exactly that key and value; nothing else changes |
| EventBuffer.AddAtOrBelowBoundaryFails | Pathfinder.Server/Actors/EventBuffer.cs:129-132 | While a feed boundary is set, any key at or below it throws, duplicates included |
| EventBuffer.FindNextFromStoredKey | Pathfinder.Server/Actors/EventBuffer.cs:187-211 | With a stored cursor key, `FindNext` returns exactly the smallest stored key above it, or EOF |
| EventBuffer.FindNextUnsetCursorSkipsSmallest | Pathfinder.Server/Actors/EventBuffer.cs:195-203 | With the cursor unset, `FindNext` answers the second entry: the smallest entry is skipped |
| EventBuffer.FindNextAbsentCursorGivesSmallest | Pathfinder.Server/Actors/EventBuffer.cs:199-203 | With an unstored cursor key, `IndexOfKey` is -1 and the first entry is answered |
| EventBuffer.FindNextReadOnly | Pathfinder.Server/Actors/EventBuffer.cs:187-211 | `FindNext` never changes the buffer and replies to the asker |
| EventBuffer.RemoveAndFindNextAtLastKey | Pathfinder.Server/Actors/EventBuffer.cs:176-184 | At the last key, reading `Values[idx+1]` throws, so EOF is answered with `Removed = false` and nothing is removed |
| EventBuffer.RemoveAndFindNextBelowLastKey | Pathfinder.Server/Actors/EventBuffer.cs:172-178 | Below the last key, exactly the cursor entry is removed and its successor is answered |
| EventBuffer.RemoveAtIndex | Pathfinder.Server/Actors/EventBuffer.cs:178 | Removing a stored key splices out exactly its entry |
| EventBuffer.RemoveAndFindNextRemovesCurrent | Pathfinder.Server/Actors/EventBuffer.cs:160-186 | Whatever `RemoveAndFindNext` removes is the current key, and only when it reports `Removed` |
| EventBuffer.DumpEmitsAllInOrderThenClears | Pathfinder.Server/Actors/EventBuffer.cs:212-229 | Both dumps emit every value in key order and clear the buffer, whatever the consume flag says |
| EventBuffer.FeedToActorStartsOneFeed | Pathfinder.Server/Actors/EventBuffer.cs:230-289 | A Finite feed is refused while another is open; otherwise the boundary becomes the largest key and one feed child is started and watched |
| EventBuffer.TerminatedClearsOwnFeedOnly | Pathfinder.Server/Actors/EventBuffer.cs:290-296 | Only the open feed's termination closes it and clears the boundary |
| EventBuffer.SecondFeedFails | Pathfinder.Server/Actors/EventBuffer.cs:231-234 | A second `FeedToActor` before the first feed ends throws |
| LegacyBuffer.Stats | Pathfinder.Server/Actors/BlockchainEventBuffer.cs:64-78 | `GetStats` returns the (-1, -1) sentinel keys when empty; otherwise the first and last keys and the count |
| LegacyBuffer.Step | Pathfinder.Server/Actors/BlockchainEventBuffer.cs:79-121 | Every handler keeps the buffer sorted, well keyed and holding only known kinds |
| LegacyBuffer.StatsAgreeWithEventBuffer | Pathfinder.Server/Actors/BlockchainEventBuffer.cs:64-78 | The sentinel means empty and can never be a real key; otherwise the stats agree with the newer buffer's |
| LegacyBuffer.CollectStoresFreshKnownOnly | Pathfinder.Server/Actors/BlockchainEventBuffer.cs:97-121 | A log is stored under its key exactly when the key is fresh and its kind is known; otherwise nothing changes and nothing is sent |
| LegacyBuffer.CollectAgreesWithEventBuffer | Pathfinder.Server/Actors/BlockchainEventBuffer.cs:97-121 | For known kinds with no feed open, storing is exactly the newer buffer's `Add` |
| LegacyBuffer.EmptyingEmitsAllInOrder | Pathfinder.Server/Actors/BlockchainEventBuffer.cs:79-94 | `Unroll` and `Publish` emit every stored log in key order, exactly as the newer buffer's dumps, and empty the buffer |
| Feed.Start | Pathfinder.Server/Actors/Feed/Feed.cs:66-98 | The constructor throws exactly when a continue timeout is configured without Infinite support; the new feed satisfies the handshake invariant |
| Feed.Step | Pathfinder.Server/Actors/Feed/Feed.cs:100-279 | Every handler keeps the handshake invariant: the negotiated mode is one the feed supports, and the feed waits for `Continue` only under Infinite |
| Feed.StartSendsOneHello | Pathfinder.Server/Actors/Feed/Feed.cs:86-89 | A new feed has sent exactly its Hello, which heads the handshake |
| Feed.ConsumerHelloNegotiates | Pathfinder.Server/Actors/Feed/Feed.cs:114-138 | The consumer's Hello is accepted exactly when it comes from a receiver and picks a supported mode; rejection throws |
| Feed.FactoryOnlyOnDemand | Pathfinder.Server/Actors/Feed/Feed.cs:147-244 | The factory is called only on `Next` while connected or `Continue` while waiting, never while it is running |
| Feed.ItemForwarded | Pathfinder.Server/Actors/Feed/Feed.cs:199-207 | An item goes to the consumer once, the processed count rises by one, and the feed is connected again |
| Feed.EndOfDataBranches | Pathfinder.Server/Actors/Feed/Feed.cs:175-198 | At end of data the feed waits for `Continue` exactly when Infinite was negotiated; otherwise it says `Goodbye(Eof)` and closes |
| Feed.FiniteFeedClosesAtEndOfData | Pathfinder.Server/Actors/Feed/Feed.cs:192-197 | A Finite-only feed closes at every end of data |
| Feed.TimeoutsAreFatal | Pathfinder.Server/Actors/Feed/Feed.cs:110-112 | The connect timeout throws; the continue timeout sends `Goodbye(Error)` and throws |
| Feed.GoodbyeCloses | Pathfinder.Server/Actors/Feed/Feed.cs:140-261 | A consumer Goodbye closes the feed from every open phase; a factory failure throws |
| Consumer.Choose | Pathfinder.Server/Actors/Feed/Consumer.cs:61-63 | The feed accepts the consumer's answer exactly when it offers Finite or both sides support Infinite; the answer is one of the consumer's own modes exactly when the consumer supports Finite or both support Infinite |
| Consumer.Step | Pathfinder.Server/Actors/Feed/Consumer.cs:52-148 | Every handler keeps the feed known and both Hellos recorded once ready |
| Consumer.HelloAnsweredThenNext | Pathfinder.Server/Actors/Feed/Consumer.cs:56-72 | The feed's Hello is answered to its sender with the consumer's choice, both Hellos are recorded, and the first `Next` is sent |
| Consumer.NextOnlyOnEnteringReady | Pathfinder.Server/Actors/Feed/Consumer.cs:80-83 | A step sends one `Next`, to the feed, exactly when it enters `Ready` from another phase |
| Consumer.PayloadGoesToSink | Pathfinder.Server/Actors/Feed/Consumer.cs:85-93 | A payload while ready goes to the sink; a payload at any other time is unhandled |
| Consumer.SinkVerdicts | Pathfinder.Server/Actors/Feed/Consumer.cs:109-136 | A sink `true` asks for the next item; `false` cancels; a failure says `Goodbye(Error)` and throws |
| Consumer.FeedGoodbyeCloses | Pathfinder.Server/Actors/Feed/Consumer.cs:73-106 | A feed Goodbye closes the consumer before and between items |
| FeedDrain.NextAfter | Pathfinder.Server/Actors/EventBuffer.cs:187-211 | The intended cursor lookup answers the smallest key above the cursor, or the smallest key when the cursor is unset |
| FeedDrain.RemoveAndNextAfter | Pathfinder.Server/Actors/EventBuffer.cs:160-186 | The intended consuming lookup removes the cursor entry whenever it is stored and answers its successor |
| FeedDrain.SuccessorUnique | Pathfinder.Server/Actors/EventBuffer.cs:187-211 | In a sorted buffer a key has exactly one successor answer |
| FeedDrain.FindNextAgreesOnStoredCursor | Pathfinder.Server/Actors/EventBuffer.cs:187-211 | For a stored cursor key, the as-written and intended handlers give the same answer |
| FeedDrain.Serve | Pathfinder.Server/Actors/EventBuffer.cs:160-211 | Serving a factory request keeps the buffer sorted, and a non-consuming request leaves it unchanged |
| FeedDrain.ServeIsBufferStep | Pathfinder.Server/Actors/EventBuffer.cs:160-211 | Serving a request is exactly the buffer actor's step on the factory's request message |
| FeedDrain.ServeAtStoredKey | Pathfinder.Server/Actors/EventBuffer.cs:160-211 | The answer each handler gives for a stored cursor key |
| FeedDrain.HandlersReadSuccessors | Pathfinder.Server/Actors/EventBuffer.cs:187-211 | Both handler sets answer successors without touching the buffer |
| FeedDrain.HandlersConsumeSuccessors | Pathfinder.Server/Actors/EventBuffer.cs:160-186 | Both handler sets consume successors; only the as-written one keeps the last entry |
| FeedDrain.ReadOnlyDrain | Pathfinder.Server/Actors/EventBuffer.cs:250-272 | A non-consuming feed from a stored cursor sends every later entry in order and leaves the buffer untouched |
| FeedDrain.ConsumingDrain | Pathfinder.Server/Actors/EventBuffer.cs:250-272 | A consuming feed from the smallest key sends every later entry; the buffer keeps the last entry or is empty |
| FeedDrain.AsWrittenFeed | Pathfinder.Server/Actors/EventBuffer.cs:230-289 | The feed as written delivers every entry but the smallest, in key order. When consuming it leaves only the largest stored: the smallest is removed without ever being delivered |
| FeedDrain.StartAtSmallest | Pathfinder.Server/Actors/EventBuffer.cs:230-289 | A server that answers the unset cursor with the smallest entry delivers every entry |
| FeedDrain.IntendedFeed | Pathfinder.Server/Actors/EventBuffer.cs:230-289 | With the intended handlers the feed delivers every entry in key order and, when consuming, empties the buffer |
| FeedDrain.ScenarioBuffer | Pathfinder.Server/Actors/EventBuffer.cs:99 | A sorted three-event buffer |
| FeedDrain.ScenarioAsWritten | Pathfinder.Server/Actors/EventBuffer.cs:160-211 | On that buffer a consuming feed as written sends only the second and third events, and the third stays stored |
| FeedDrain.ScenarioIntended | Pathfinder.Server/Actors/EventBuffer.cs:160-211 | With the intended handlers the same feed sends all three events and empties the buffer |
| Session.Deliver | Pathfinder.Server/Actors/Feed/Feed.cs:100-279 | Delivering the oldest message keeps the session well formed |
| Session.Open | Pathfinder.Server/Actors/Feed/Feed.cs:66-98 | A session opened with a feed whose constructor does not throw is well formed |
| Session.DeliverFeedHello | Pathfinder.Server/Actors/Feed/Consumer.cs:56-72 | The consumer answers the feed's Hello with its own and a first `Next` |
| Session.DeliverConsumerHello | Pathfinder.Server/Actors/Feed/Feed.cs:114-138 | The feed accepts or rejects the consumer's Hello |
| Session.DeliverNext | Pathfinder.Server/Actors/Feed/Feed.cs:151-159 | A `Next` calls the factory, which answers with the next item or end of data |
| Session.DeliverItem | Pathfinder.Server/Actors/Feed/Feed.cs:199-207 | The feed passes an item to the consumer |
| Session.DeliverEndOfData | Pathfinder.Server/Actors/Feed/Feed.cs:175-198 | At end of data the feed says `Goodbye(Eof)` without Infinite, and waits for `Continue` with it |
| Session.DeliverPayload | Pathfinder.Server/Actors/Feed/Consumer.cs:85-93 | The consumer hands a payload to the sink |
| Session.DeliverSinkDone | Pathfinder.Server/Actors/Feed/Consumer.cs:113-124 | The sink's `true` makes the consumer ask for the next item |
| Session.DeliverFeedGoodbye | Pathfinder.Server/Actors/Feed/Consumer.cs:95-106 | The feed's Goodbye closes the consumer |
| Session.HandshakeSucceedsIff | Pathfinder.Server/Actors/Feed/Feed.cs:114-138 | The handshake succeeds exactly when the consumer's choice is offered by the feed; otherwise the feed fails |
| Session.OneItem | Pathfinder.Server/Actors/Feed/Feed.cs:147-207 | One item takes four deliveries and returns the session to the same point, with the item sunk and counted |
| Session.Drains | Pathfinder.Server/Actors/Feed/Feed.cs:147-207 | From between items, every listed item reaches the sink in order and is counted |
| Session.FiniteEnd | Pathfinder.Server/Actors/Feed/Feed.cs:192-197 | Without Infinite, end of data closes both the feed and the consumer |
| Session.InfiniteEndWaits | Pathfinder.Server/Actors/Feed/Feed.cs:177-191 | With Infinite, end of data leaves the feed waiting for a `Continue` the consumer never sends, with nothing in flight |
| Session.ContinueTimerFires | Pathfinder.Server/Actors/Feed/Feed.cs:246-252 | When the continue timer fires on the waiting feed, it sends `Goodbye(Error)` and fails, and the consumer closes on that goodbye |
| Session.FiniteSessionDeliversAll | Pathfinder.Server/Actors/Feed/Feed.cs:66-279 | A Finite session delivers exactly the factory's items in order to the sink, counts them, and closes both ends |
| Session.InfiniteSessionStalls | Pathfinder.Server/Actors/Feed/Consumer.cs:80-107 | With no continue timeout (the buffer passes none, `Actors/EventBuffer.cs`), an Infinite session delivers every item and then stalls with the feed waiting and nothing in flight |
| Session.InfiniteSessionTimesOut | Pathfinder.Server/Actors/Feed/Feed.cs:222-252 | With a continue timeout, an Infinite session delivers every item, waits, and when the timer fires ends with `Goodbye(Error)`: the feed fails and the consumer closes |
| BlockClock.Step | Pathfinder.Server/Actors/Chain/BlockClock.cs:33-47 | A second tick polls the height; a height is announced exactly when it differs from the last one, and is remembered |
| BlockClock.ObserveAnnouncesChanges | Pathfinder.Server/Actors/Chain/BlockClock.cs:38-47 | Over a series of heights the clock announces exactly the heights that differ from their predecessor, and remembers the last height |
| BlockClock.ChangesNeverRepeat | Pathfinder.Server/Actors/BlockClock.cs:44-51 | Announcements never repeat a height twice in a row, and the last one is the latest height |
| BlockClock.RepeatedHeightAnnouncedOnce | Pathfinder.Server/Actors/BlockClock.cs:44-51 | Heights 100, 100, 101 from a fresh clock announce 100 and 101 |
| RealTimeClock.Tick | Pathfinder.Server/Actors/System/RealTimeClock.cs:61-86 | After the first tick, each of second, minute and hour is published exactly when its field changed, in that order; the time is stored |
| RealTimeClock.TickKeepsValid | Pathfinder.Server/Actors/System/RealTimeClock.cs:52-54 | The -1 sentinel means exactly "no tick seen yet" |
| RealTimeClock.FirstTickOnlyRecords | Pathfinder.Server/Actors/System/RealTimeClock.cs:65 | The first tick publishes nothing, and a second tick in the same second publishes nothing either |
| RealTimeClock.NewHourPublishesAll | Pathfinder.Server/Actors/System/RealTimeClock.cs:67-80 | A tick in a new hour, minute and second publishes all three events, second first |
| EventSource.RemoveFirst | Pathfinder.Server/Actors/EventSource.cs:104-113 | `List.Remove` drops the first occurrence only and keeps the order of the rest |
| EventSource.Step | Pathfinder.Server/Actors/EventSource.cs:62-113 | Every handler keeps the running workers distinct and spawned by this source |
| EventSource.FirstTockIsBaseline | Pathfinder.Server/Actors/EventSource.cs:72-77 | The first height only becomes the baseline |
| EventSource.TockQueriesSinceLastHeight | Pathfinder.Server/Actors/EventSource.cs:81-95 | A changed height starts one worker per topic over [previous, new] and becomes the baseline; an equal height does nothing |
| EventSource.WorkerEndRemovesOnlyIt | Pathfinder.Server/Actors/EventSource.cs:104-113 | A finished or cancelled worker leaves the running list, and no other worker does |
| EventSource.LogFansOut | Pathfinder.Server/Actors/EventSource.cs:98-103 | A log reaches each subscriber once, in order, and nothing else changes |
| EventSource.ConsecutiveRangesShareABlock | Pathfinder.Server/Actors/EventSource.cs:87-95 | Two height changes in a row query ranges that share their boundary block |
| EventQuery.Start | Pathfinder.Server/Actors/Chain/BlockchainEventQuery.cs:31-42 | A new worker is fetching and has sent itself exactly one trigger |
| EventQuery.EmitRoundTrip | Pathfinder.Server/Actors/Chain/BlockchainEventQuery.cs:73-85 | The recipient collects exactly the fetched logs in order, and gets `Empty` exactly when there are none |
| EventQuery.OneShot | Pathfinder.Server/Actors/Chain/BlockchainEventQuery.cs:44-88 | On success a worker fetches its range once, sends the logs (or `Empty`), stops, and ignores everything later |
| EventQuery.FailureSendsNothing | Pathfinder.Server/Actors/Chain/BlockchainEventQuery.cs:62-66 | A failed fetch sends nothing and throws |
| ChainEventSource.Step | Pathfinder.Server/Actors/Chain/BlockchainEventSource.cs:62-126 | Every handler keeps the invariant: a worker is out exactly while publishing, and the watermark is set once a query has started. As written the buffer count never drops; with a clearing `Publish` an empty buffer stays empty |
| ChainEventSource.Decide | Pathfinder.Server/Actors/Chain/BlockchainEventSource.cs:29-43 | A failing query worker is stopped; a failing buffer escalates |
| ChainEventSource.Round | Pathfinder.Server/Actors/Chain/BlockchainEventSource.cs:62-126 | A round from `Wait` keeps the invariant and ends back in `Wait`. As written the buffer count never drops; with a clearing `Publish` an empty buffer stays empty |
| ChainEventSource.RoundQueriesAfterWatermark | Pathfinder.Server/Actors/Chain/BlockchainEventSource.cs:83-124 | From watermark w, height h starts a worker over exactly [w+1, h] unless h = w; the watermark moves to h, and the buffer is published, exactly when the buffer then reports a non-zero count, which includes what earlier rounds stored |
| ChainEventSource.FirstRoundQueriesOneBlock | Pathfinder.Server/Actors/Chain/BlockchainEventSource.cs:77-81 | With no watermark the first query covers block h alone |
| ChainEventSource.FailedQueryRetried | Pathfinder.Server/Actors/Chain/BlockchainEventSource.cs:104-124 | While the buffer is empty, a failed worker is stopped, nothing is published, the watermark stays, and the next round re-queries from the same block |
| ChainEventSource.FailedQueryAfterEventSkips | Pathfinder.Server/Actors/Chain/BlockchainEventSource.cs:108-118 | Once the buffer holds an event, a failed worker still moves the watermark to its height and publishes, and the next round starts after the failed blocks; the count is unchanged |
| ChainEventSource.Rounds | Pathfinder.Server/Actors/Chain/BlockchainEventSource.cs:62-126 | Any run of rounds keeps the invariant and ends in `Wait` |
| ChainEventSource.RoundsKeepCount | Pathfinder.Server/Actors/EventBuffer.cs:122-297 | The buffer has no case for `Publish`, so over any run of rounds its count never drops; with a clearing `Publish` an empty buffer is empty whenever the source waits |
| ChainEventSource.ClearingPublishRetriesFailures | Pathfinder.Server/Actors/Chain/BlockchainEventSource.cs:104-124 | With a `Publish` that clears the buffer, after any run of rounds from the start the buffer is empty and a failed query is retried from the same block |
| ChainEventSource.PublishedRangesTile | Pathfinder.Server/Actors/Chain/BlockchainEventSource.cs:83-124 | When no height falls below the starting watermark or an earlier height, the published ranges (those over which the watermark moves) are non-empty and tile the blocks after the starting watermark up to the final one: no gap, and no block published twice |
| ChainEventSource.TilesAscend | Pathfinder.Server/Actors/Chain/BlockchainEventSource.cs:83-124 | Tiling ranges lie in ascending order between the watermark and the last block, so no block is in two of them |
| ChainEventSource.FallingHeightRepublishes | Pathfinder.Server/Actors/Chain/BlockchainEventSource.cs:83-124 | From watermark 10, heights 15, 12 and 20 publish [11,15], the empty [16,12] and [13,20]: blocks 13 to 15 twice |
| LegacyEventSource.FetchQueriesFromWatermark | Pathfinder.Server/Actors/BlockchainEventSource.cs:61-69 | The query starts at the watermark itself, and the watermark moves to the new height before any result arrives |
| LegacyEventSource.ResultPublishedInOrder | Pathfinder.Server/Actors/BlockchainEventSource.cs:73-96 | A result is published log by log in order, and the source waits again |
| LegacyEventSource.ConsecutiveQueriesOverlap | Pathfinder.Server/Actors/BlockchainEventSource.cs:44-70 | Consecutive ranges overlap in one block |
| LegacyEventSource.FailureStalls | Pathfinder.Server/Actors/BlockchainEventSource.cs:66-94 | A failed query is never handled; the source ignores every later height while its watermark has passed unpublished blocks |
| LegacyEventSource.RetryingFailureRequeries | Pathfinder.Server/Actors/BlockchainEventSource.cs:61-75 | With a failure handler that restores the watermark the failed query started from, the source waits again at its old watermark and the next height queries the failed blocks again |
| CatchUp.NextBlockStartsFourWorkers | Pathfinder.Server/Actors/Pathfinder/PathfinderFeeder.cs:74-115 | The first block unsubscribes and starts four workers over [start, h], raising the count by 4; a missing gateway throws |
| CatchUp.BarrierOpensAtLastWorker | Pathfinder.Server/Actors/Pathfinder/PathfinderFeeder.cs:117-129 | With r workers out, the stats are requested once, at the r-th termination, and not before |
| CatchUp.CatchUpRound | Pathfinder.Server/Actors/Pathfinder/PathfinderFeeder.cs:67-140 | A whole catch-up: four workers, stats at the fourth end, then `CaughtUp` |
| EventToCall.LimitPercentage | Pathfinder.Server/Actors/Pathfinder/PathfinderFeeder.cs:206-207 | `Int32.Parse(limit.ToString())` returns the limit exactly when it fits in 32 bits, and overflows otherwise |
| EventToCall.ToCommandSucceedsIff | Pathfinder.Server/Actors/Pathfinder/PathfinderFeeder.cs:192-216 | The guarded mapping succeeds exactly on events whose guards hold; it overflows exactly on a guarded trust with an out-of-range limit; every other failure is the unknown-type exception |
| EventToCall.ToCommandKeepsEventData | Pathfinder.Server/Actors/Pathfinder/Feeder.cs:79-103 | A successful mapping's command gives back the event's data, and for a transfer the contract address too |
| EventToCall.LegacyAgreesWhereGuarded | Pathfinder.Server/Actors/PathfinderFeeder.cs:141-152 | The unguarded mapping agrees with the guarded one wherever the guarded one succeeds, overflows on the same limits, and skips unknown kinds |
| EventToCall.SinkNeverCancels | Pathfinder.Server/Actors/Pathfinder/Feeder.cs:47-55 | The sink accepts exactly the mappable events after sending their command, fails on all others, and never cancels |
| EventToCall.CommandsOfMappable | Pathfinder.Server/Actors/Pathfinder/Feeder.cs:47-55 | Mappable payloads produce one command each, in order, each the mapping of its payload |
| Feeder.Start | Pathfinder.Server/Actors/Pathfinder/Feeder.cs:33-41 | The feeder first asks the pathfinder for `delayEdgeUpdates` |
| Feeder.ReturnStartsFiniteFeed | Pathfinder.Server/Actors/Pathfinder/Feeder.cs:43-62 | The first answer starts one Finite-only consumer and asks the buffer for a Finite feed to it |
| Feeder.ConsumerNegotiatesFinite | Pathfinder.Server/Actors/Pathfinder/Feeder.cs:47-55 | The feeder's consumer settles on Finite whatever the feed offers |
| Feeder.SinkRunsSendCommands | Pathfinder.Server/Actors/Pathfinder/Feeder.cs:47-55 | Sink runs leave the feeder's state alone and send exactly the sink's commands |
| Feeder.FeedEnds | Pathfinder.Server/Actors/Pathfinder/Feeder.cs:64-77 | The consumer's end sends `performEdgeUpdates`, and the next answer stops the feeder |
| Feeder.FeedIsBracketed | Pathfinder.Server/Actors/Pathfinder/Feeder.cs:33-77 | The pathfinder sees `delayEdgeUpdates`, one command per event in feed order, then `performEdgeUpdates`, and the feeder stops |
| PathfinderFeeder.Init | Pathfinder.Server/Actors/Pathfinder/PathfinderFeeder.cs:57-64 | The feeder starts in catch-up exactly when given a start block, otherwise in `Ready` |
| PathfinderFeeder.StepKeepsValid | Pathfinder.Server/Actors/Pathfinder/PathfinderFeeder.cs:142-190 | While feeding, the target is always set, so the `Feeding` "WTF?" throw is unreachable; the `Ready` one happens exactly on a `Return` with no target |
| PathfinderFeeder.CatchUpIsolated | Pathfinder.Server/Actors/Pathfinder/PathfinderFeeder.cs:67-140 | During catch-up no pathfinder is called; the phase leaves only for `Ready` on the stats reply, or for failure |
| PathfinderFeeder.FeedingCycle | Pathfinder.Server/Actors/Pathfinder/PathfinderFeeder.cs:144-190 | Feed, answer, consumer end, answer: delay, spawn and feed a Finite consumer, perform on the same target, then `Ready` again with the target cleared |
| PathfinderFeeder.ConsumersAreFresh | Pathfinder.Server/Actors/Pathfinder/PathfinderFeeder.cs:158-165 | Each feeding cycle spawns a consumer no earlier cycle had |
| LegacyFeeder.Init | Pathfinder.Server/Actors/PathfinderFeeder.cs:44-51 | The feeder starts in catch-up exactly when given a start block, otherwise in `Ready` |
| LegacyFeeder.UnrollingEvent | Pathfinder.Server/Actors/PathfinderFeeder.cs:135-158 | A sendable event is called on the target, replying to the feeder; an unknown kind is skipped; an overflowing trust limit fails the feeder |
| LegacyFeeder.UnrollRequest | Pathfinder.Server/Actors/PathfinderFeeder.cs:125-133 | `Unroll` records the target and asks the buffer to unroll into the feeder; a second `Unroll` is ignored |
| LegacyFeeder.UnrollingForwardsInOrder | Pathfinder.Server/Actors/PathfinderFeeder.cs:135-158 | Sendable events are forwarded one call each, in arrival order |
| LegacyFeeder.UnrollForwardsBufferInKeyOrder | Pathfinder.Server/Actors/PathfinderFeeder.cs:125-158 | A whole unroll: the buffer tells every stored event in key order and empties, and the feeder calls the target once per event in that order |

## Left out

- **Chain and pathfinder I/O.** Nethereum RPC calls, HTTP, the `erc20`
  contract bindings and the pathfinder process are external I/O. Their
  answers are messages given to the step functions.
- **The Akka runtime.** Mailboxes, supervision restarts, `Context.Watch`
  delivery, the scheduler and the event stream are not modelled. A throw is
  a terminal phase. Timers and the scheduler's ticks are messages.
  `Session` fixes one FIFO delivery order for a feed session.
- **Logging.** It has no effect on the state.
- **JSON.** JSON text is abstracted to an ordered property list.
  `Formatting.None` rendering and JSON parsing are left out.
- **Process wiring.** `PathfinderProcess`, `Pathfinder`,
  `PathfinderInitializer`, `ProcessWrapper`, `Server`, `Program` and the
  HTTP API are outside the pipeline core.
- **Other actors.** The old `Actors/Feed.cs`, `Actors/Consumer.cs`,
  `Actors/Buffer.cs`, `TestFeed` and `Pipe` are not used by the modelled
  pipeline.
- **`EventQueryWorker`.** It is the chain paging worker of
  `Actors/EventSource.cs` and is not part of this model. Its
  `StartQuery`/`RunFinished`/`RunCancelled` protocol is kept as outputs and
  messages.
- **`Buffer.Feed` and `Buffer.Publish`.** These messages are sent by the
  newer feeder and the chain event source but are not declared in
  `MessageContracts/Buffer.cs`. The model takes `Buffer.Feed(to, mode)` as
  a Finite feed request. `Buffer.Publish` matches no case of
  `EventBuffer.OnReceive`, so the model's `PublishBuffer` leaves the
  buffer's entries and count as they are (`Dropped`). The clearing reading
  (`Clears`) is the corrected model.
- **Thread safety.** `Interlocked.Increment` is atomic; only the counter's
  arithmetic (`uint`, wrapping) is modelled.
- **Child names.** A second `NextBlock` during catch-up would start four
  more workers with the same child names, which Akka rejects. The model
  only counts them.
- **Supervision strategies.** The `AllForOne`/`Escalate` supervisor of
  `Pathfinder/Feeder.cs` decides nothing beyond "fail", which is the
  `Failed` phase.
- Feeder.FeedIsBracketed: assumes every event is mappable. A failing sink
  escalates through the supervisor, which is not modelled.
- EventToCall.LimitPercentage: `Int32.Parse` is modelled only on text that
  `BigInteger.ToString()` produces (an optional minus sign and digits).
- Feed.ItemForwarded: the `ulong` processed count is an unbounded natural.
  A wrap after 2^64 items is not modelled.
- BlockClock.Step: `HexBigInteger`'s `==`/`!=` is taken as value equality
  (the library type is not part of this model).
- ChainEventSource.Step: `message == _latestBlock`
  (`Actors/Chain/BlockchainEventSource.cs:83`) is taken as value equality
  too. So is the same test in `LegacyEventSource.Step`
  (`Actors/BlockchainEventSource.cs:54`).
- ChainEventSource.FailedQueryRetried: the retry holds only while the
  buffer is empty. Once it has stored an event, the source skips the failed
  blocks instead (`FailedQueryAfterEventSkips`).
- ChainEventSource.RoundsKeepCount: a worker's additions are counted once,
  at its end. A clearing `Publish` is taken to act before the next
  worker writes.
- Session.InfiniteSessionStalls: the consumer's sink is modelled as always
  answering `true`, as the feeders' sinks do.
- FeedDrain: the buffer is static during a drain. An `Add` above the
  boundary while the feed is open, which the buffer accepts, is not
  interleaved with the factory calls.
- Session.InfiniteSessionTimesOut: the timer is the `ContinueTimeout`
  message put in flight once the session is quiet; its duration, and a
  `Continue` racing it, are not modelled.

## Findings

| source | as written | input that shows it | evidently intended | confidence | as-written member | corrected member |
|---|---|---|---|---|---|---|
| Pathfinder.Server/Actors/EventBuffer.cs:195-203 | An unset cursor is replaced by the smallest key, and then the entry AFTER it is answered | A feed over a buffer holding keys (10,0), (10,1), (12,0) never delivers (10,0); a consuming feed removes (10,0) on its first call, so that event is lost | The first request answers the smallest entry | not executed | FeedDrain.ScenarioAsWritten | FeedDrain.IntendedFeed |
| Pathfinder.Server/Actors/EventBuffer.cs:176-184 | At the last key, `Values[idx + 1]` throws before `Remove`, so the last entry is never consumed | A consuming feed over (10,0), (10,1), (12,0) leaves (12,0) stored | A consuming feed empties the buffer | not executed | EventBuffer.RemoveAndFindNextAtLastKey | FeedDrain.ScenarioIntended |
| Pathfinder.Server/Actors/BlockchainEventSource.cs:66-75 | No handler takes the query's `Status.Failure`, and the watermark has already moved to the new height | One failed `GetAllChanges` at height h: the source stays in `Publish` forever, and the blocks up to h are never published | A failure puts the watermark back where the failed query started, and the next height queries those blocks again | not executed | LegacyEventSource.FailureStalls | LegacyEventSource.RetryingFailureRequeries |
| Pathfinder.Server/Actors/Chain/BlockchainEventSource.cs:108-118 | The watermark test reads the buffer's total count, and the `Buffer.Publish` sent next matches no case of `EventBuffer`, so the count never drops | From watermark 10 with an empty buffer, height 15 stores one event and the watermark moves to 15. At height 20 the query fails, the count is still 1, and the watermark moves to 20. Height 25 then queries from block 21, so blocks 16 to 20 are never queried again | `Publish` dumps the buffer to the event stream and clears it, as `DumpToStream` does, so the count is what this round's worker stored | not executed | ChainEventSource.FailedQueryAfterEventSkips | ChainEventSource.ClearingPublishRetriesFailures |

=== FILE: block_clock.dfy ===
/** The block clock (`Chain/BlockClock.cs`, and the older `BlockClock.cs`
    with the same handler): every elapsed second it polls the chain height,
    and it announces `NextBlock(h)` whenever an observed height differs
    from the previous observation.

    The height poll is the `PollHeight` output, answered by a `Height(h)`
    message (or `PollFailure`, which is only logged). Heights are compared
    by value. The last height starts unset, so the first observation is
    always announced. */
module BlockClock {
  import opened Common

  datatype State = State(last: Option<nat>)

  const Init: State := State(None)

  datatype Msg =
    | SecondElapsed
    | Height(h: nat)
    | PollFailure
    | Other

  datatype Out = PollHeight | NextBlock(h: nat)

  datatype Transition = Transition(state: State, out: seq<Out>)

  /** One handled message. Messages without a handler change nothing. */
  function Step(s: State, m: Msg): (t: Transition)
    ensures m.Height? ==> t.state.last == Some(m.h)
    ensures !m.Height? ==> t.state == s
    ensures m.Height? ==> (NextBlock(m.h) in t.out <==> s.last != Some(m.h))
    ensures m.SecondElapsed? <==> PollHeight in t.out
    ensures |t.out| <= 1
  {
    match m
    case SecondElapsed => Transition(s, [PollHeight])
    case Height(h) => Transition(State(Some(h)), if s.last != Some(h) then [NextBlock(h)] else [])
    case PollFailure => Transition(s, [])
    case Other => Transition(s, [])
  }

  /** Feeds a series of observed heights, in arrival order. */
  function Observe(s: State, hs: seq<nat>): (t: Transition)
    decreases |hs|
  {
    if hs == [] then Transition(s, [])
    else
      var first := Step(s, Height(hs[0]));
      var rest := Observe(first.state, hs[1..]);
      Transition(rest.state, first.out + rest.out)
  }

  // ---------------------------------------------------------------------
  // A reference definition, built from the end of the series.
  // ---------------------------------------------------------------------

  /** The most recent height known after seeing `hs` on top of `prev`. */
  function LastSeen(prev: Option<nat>, hs: seq<nat>): Option<nat>
  {
    if hs == [] then prev else Some(hs[|hs| - 1])
  }

  /** The announcements a series deserves: each height that differs from the
      one seen just before it. */
  function Changes(prev: Option<nat>, hs: seq<nat>): seq<Out>
    decreases |hs|
  {
    if hs == [] then []
    else
      var init := hs[..|hs| - 1];
      var x := hs[|hs| - 1];
      Changes(prev, init) + (if LastSeen(prev, init) == Some(x) then [] else [NextBlock(x)])
  }

  /** Changes seen from the front: the first height is announced unless it
      repeats `prev`, and the rest is judged against it. */
  lemma {:induction false} ChangesCons(prev: Option<nat>, x: nat, rest: seq<nat>)
    ensures Changes(prev, [x] + rest)
      == (if prev == Some(x) then [] else [NextBlock(x)]) + Changes(Some(x), rest)
    decreases |rest|
  {
    var hs := [x] + rest;
    if rest == [] {
      assert hs[..|hs| - 1] == [];
    } else {
      var init := rest[..|rest| - 1];
      assert hs[..|hs| - 1] == [x] + init;
      ChangesCons(prev, x, init);
      assert LastSeen(prev, [x] + init) == LastSeen(Some(x), init);
    }
  }

  /** The clock announces exactly the reference changes and ends up knowing
      the last height of the series. */
  lemma {:induction false} ObserveAnnouncesChanges(s: State, hs: seq<nat>)
    ensures Observe(s, hs).out == Changes(s.last, hs)
    ensures Observe(s, hs).state.last == LastSeen(s.last, hs)
    decreases |hs|
  {
    if hs != [] {
      ObserveAnnouncesChanges(State(Some(hs[0])), hs[1..]);
      ChangesCons(s.last, hs[0], hs[1..]);
      assert [hs[0]] + hs[1..] == hs;
      if hs[1..] != [] {
        assert hs[1..][|hs[1..]| - 1] == hs[|hs| - 1];
      }
    }
  }

  /** The announcements never repeat a height twice in a row, the first one
      differs from the height known before, and the last one is the most
      recent height; with no announcement the known height is unchanged. */
  lemma {:induction false} ChangesNeverRepeat(prev: Option<nat>, hs: seq<nat>)
    ensures var c := Changes(prev, hs);
      && (forall i :: 0 < i < |c| ==> c[i - 1] != c[i])
      && (|c| > 0 && prev.Some? ==> c[0] != NextBlock(prev.value))
      && (|c| > 0 ==> c[|c| - 1] == NextBlock(LastSeen(prev, hs).value))
      && (|c| == 0 ==> LastSeen(prev, hs) == prev)
      && (forall o | o in c :: o.NextBlock? && o.h in hs)
    decreases |hs|
  {
    if hs != [] {
      var init := hs[..|hs| - 1];
      ChangesNeverRepeat(prev, init);
      var c0 := Changes(prev, init);
      forall o | o in c0
        ensures o.h in hs
      {
        assert o.h in init;
      }
    }
  }

  /** The announced series for 100, 100, 101 from a fresh clock: 100 and 101. */
  lemma RepeatedHeightAnnouncedOnce()
    ensures Observe(Init, [100, 100, 101]).out == [NextBlock(100), NextBlock(101)]
  {
    ObserveAnnouncesChanges(Init, [100, 100, 101]);
    assert [100, 100, 101][..2] == [100, 100];
    assert [100, 100][..1] == [100];
    assert [100][..0] == [];
  }
}

=== FILE: catch_up.dfy ===
/** The catch-up phase both pathfinder feeders share (`CatchUp()` in
    `Pathfinder/PathfinderFeeder.cs` and in `PathfinderFeeder.cs`): at the
    first `NextBlock(h)` it stops listening for blocks and starts four query
    workers, one per event kind, over [start block, h] writing into its
    buffer; it counts them down as they terminate, asks the buffer for its
    stats when the count is exhausted, and on the stats reply tells its
    parent that it has caught up.

    The running count is the local `running` the handlers share, an `int`
    starting at 0. Unsubscribing, starting a worker, asking for stats and
    telling the parent are outputs. */
module CatchUp {
  import opened Common

  /** The four event types a worker is started for, in start order. */
  datatype EventKind = SignupKind | OrganizationSignupKind | TrustKind | TransferKind

  const Kinds: seq<EventKind> := [SignupKind, OrganizationSignupKind, TrustKind, TransferKind]

  /** The constructor arguments the phase reads; the gateway only matters
      as set or not. */
  datatype Config = Config(startAtBlock: Option<nat>, hasGateway: bool)

  datatype Msg = NextBlock(h: nat) | WorkerTerminated | StatsReply

  datatype Out = Unsubscribe | StartQuery(kind: EventKind, from: nat, to: nat) | RequestStats | CaughtUp

  /** Still catching up with a new count, done (the feeder becomes
      `Ready`), or the handler threw. */
  datatype Outcome = Continue(running: int, out: seq<Out>) | Done(out: seq<Out>) | Throw

  /** The feeder starts in catch-up exactly when it has a start block. */
  predicate StartsInCatchUp(c: Config)
  {
    c.startAtBlock.Some?
  }

  /** One worker per kind over [from, to]. */
  function Queries(from: nat, to: nat): (out: seq<Out>)
    ensures |out| == |Kinds|
    ensures forall i :: 0 <= i < |Kinds| ==> out[i] == StartQuery(Kinds[i], from, to)
  {
    seq(|Kinds|, i requires 0 <= i < |Kinds| => StartQuery(Kinds[i], from, to))
  }

  /** Catch-up's outputs carried in the output type of the actor that runs it. */
  function Lift<T>(out: seq<Out>, wrap: Out -> T): (r: seq<T>)
    ensures |r| == |out| && forall i :: 0 <= i < |out| ==> r[i] == wrap(out[i])
  {
    seq(|out|, i requires 0 <= i < |out| => wrap(out[i]))
  }

  /** One message of the catch-up behaviour. */
  function Step(c: Config, running: int, m: Msg): Outcome
  {
    match m
    case NextBlock(h) =>
      if c.startAtBlock.None? || !c.hasGateway then Throw
      else Continue(running + |Kinds|, [Unsubscribe] + Queries(c.startAtBlock.value, h))
    case WorkerTerminated =>
      Continue(running - 1, if running - 1 > 0 then [] else [RequestStats])
    case StatsReply => Done([CaughtUp])
  }

  /** The first block starts the four workers over [start, h] after
      unsubscribing, raising the count by four; with no gateway the handler
      throws. In catch-up the start block is always set, so the gateway is
      the only thing checked in practice. */
  lemma NextBlockStartsFourWorkers(c: Config, running: int, h: nat)
    requires StartsInCatchUp(c)
    ensures Step(c, running, NextBlock(h)).Throw? <==> !c.hasGateway
    ensures c.hasGateway ==>
      Step(c, running, NextBlock(h)) == Continue(running + 4,
        [Unsubscribe,
         StartQuery(SignupKind, c.startAtBlock.value, h),
         StartQuery(OrganizationSignupKind, c.startAtBlock.value, h),
         StartQuery(TrustKind, c.startAtBlock.value, h),
         StartQuery(TransferKind, c.startAtBlock.value, h)])
  {
  }

  /** `n` worker terminations in a row, starting from `running`. */
  function Terminations(c: Config, running: int, n: nat): (r: (int, seq<Out>))
    decreases n
  {
    if n == 0 then (running, [])
    else
      match Step(c, running, WorkerTerminated)
      case Continue(r, out) =>
        var rest := Terminations(c, r, n - 1);
        (rest.0, out + rest.1)
      case _ => (running, [])
  }

  /** The count works as a barrier: with `r` workers out, the stats are
      asked for once, at the r-th termination, and not before. */
  lemma {:induction false} BarrierOpensAtLastWorker(c: Config, r: nat, n: nat)
    requires 1 <= r && n <= r
    ensures Terminations(c, r, n) == (r - n, if n == r then [RequestStats] else [])
    decreases n
  {
    if n > 0 {
      if r > 1 {
        BarrierOpensAtLastWorker(c, r - 1, n - 1);
        var rest := Terminations(c, r - 1, n - 1);
        assert [] + rest.1 == rest.1;
      } else {
        assert [RequestStats] + [] == [RequestStats];
      }
    }
  }

  /** A whole catch-up from the start: the block starts four workers, the
      fourth termination asks for the stats, and the stats reply sends
      `CaughtUp` and ends the phase. */
  lemma CatchUpRound(c: Config, h: nat)
    requires StartsInCatchUp(c) && c.hasGateway
    ensures var s1 := Step(c, 0, NextBlock(h));
      && s1.Continue? && s1.running == 4
      && Terminations(c, 4, 3) == (1, [])
      && Terminations(c, 4, 4) == (0, [RequestStats])
      && Step(c, 0, StatsReply) == Done([CaughtUp])
  {
    BarrierOpensAtLastWorker(c, 4, 3);
    BarrierOpensAtLastWorker(c, 4, 4);
  }
}

=== FILE: chain_event_source.dfy ===
/** The orchestrator of one event type (`Chain/BlockchainEventSource.cs`):
    woken by `NextBlock(h)`, it starts a query worker for the blocks after
    its watermark up to `h`, waits for the worker to end, and, when its
    private buffer then reports a non-zero count, moves the watermark to `h`
    and tells the buffer to publish.

    The self-sent height is the `SelfHeight` output, answered by `Height(h)`.
    The worker is the `StartQuery` output. The worker writes its logs into
    the source's private `EventBuffer`, whose item count the state keeps as
    `buffered`. The worker's end (`Terminated`) is the
    `WorkerTerminated(added)` message, `added` being the number of new
    entries the worker stored; the count the handler asks for and awaits is
    then `buffered + added`. The `Buffer.Publish` request is the
    `PublishBuffer` output; what it does to the buffer is the
    `PublishEffect`. Heights are compared by value. */
module ChainEventSource {
  import opened Common

  datatype Phase = Wait | Fetch | Publish

  /** `watermark` is `_latestBlock` (the last block whose events were
      published), `fetching` is `_fetchingBlock`, and `buffered` is the item
      count of the private buffer. */
  datatype State = State(phase: Phase, watermark: Option<int>, fetching: Option<nat>, buffered: nat)

  const Init: State := State(Wait, None, None, 0)

  datatype Msg = NextBlock(h: nat) | Height(h: nat) | WorkerTerminated(added: nat)

  datatype Out = SelfHeight(h: nat) | StartQuery(from: int, to: nat) | PublishBuffer

  datatype Transition = Transition(state: State, out: seq<Out>)

  /** A block range [from, to], both ends included. */
  datatype Range = Range(from: int, to: int)

  /** What the buffer does with `Buffer.Publish`. That request is declared
      neither in `MessageContracts/Buffer.cs` nor among the cases of
      `EventBuffer.OnReceive`, which has no default case, so as written the
      buffer drops it and keeps its entries (`Dropped`). `Clears` is the
      evident intent, a dump to the event stream that empties the buffer,
      as `DumpToStream` does. */
  datatype PublishEffect = Dropped | Clears

  /** A worker is out exactly while publishing; the watermark is never
      below -1 and is set once a query has been started. */
  ghost predicate Valid(s: State)
  {
    && (s.phase == Publish <==> s.fetching.Some?)
    && (s.phase == Publish ==> s.watermark.Some?)
    && (s.watermark.Some? ==> s.watermark.value >= -1)
  }

  /** One message in the current behaviour; unhandled messages (a
      `NextBlock` while fetching or publishing, say) are dropped. As written
      the buffer's count never drops; with a clearing `Publish` an empty
      buffer stays empty from one round to the next. */
  function Step(e: PublishEffect, s: State, m: Msg): (t: Transition)
    requires Valid(s)
    ensures Valid(t.state)
    ensures e == Dropped ==> t.state.buffered >= s.buffered
    ensures e == Clears && s.buffered == 0 ==> t.state.buffered == 0
  {
    match s.phase
    case Wait =>
      if m.NextBlock? then Transition(s.(phase := Fetch), [SelfHeight(m.h)]) else Transition(s, [])
    case Fetch =>
      (match m
       case Height(h) =>
         var w := if s.watermark.None? then h - 1 else s.watermark.value;
         if h == w then Transition(State(Wait, Some(w), None, s.buffered), [])
         else Transition(State(Publish, Some(w), Some(h), s.buffered), [StartQuery(w + 1, h)])
       case _ => Transition(s, []))
    case Publish =>
      (match m
       case WorkerTerminated(added) =>
         var items := s.buffered + added;
         if items > 0 then
           Transition(State(Wait, s.fetching, None, if e == Clears then 0 else items), [PublishBuffer])
         else Transition(State(Wait, s.watermark, None, items), [])
       case _ => Transition(s, []))
  }

  /** How a failing child is handled. */
  datatype Directive = StopChild | Escalate

  /** The supervisor decision: query workers are stopped and forgotten, a
      failing buffer is fatal to the source. */
  function Decide(failing: ActorRef, buffer: ActorRef): (d: Directive)
    ensures d == Escalate <==> failing == buffer
  {
    if failing != buffer then StopChild else Escalate
  }

  // ---------------------------------------------------------------------
  // One round: a `NextBlock`, its self-sent height, and the worker's end.
  // ---------------------------------------------------------------------

  /** A round from `Wait`; the worker's end is only delivered when a worker
      was started. */
  function Round(e: PublishEffect, s: State, h: nat, added: nat): (t: Transition)
    requires Valid(s) && s.phase == Wait
    ensures Valid(t.state) && t.state.phase == Wait
    ensures e == Dropped ==> t.state.buffered >= s.buffered
    ensures e == Clears && s.buffered == 0 ==> t.state.buffered == 0
  {
    var t1 := Step(e, s, NextBlock(h));
    var t2 := Step(e, t1.state, Height(h));
    if t2.state.phase == Publish then
      var t3 := Step(e, t2.state, WorkerTerminated(added));
      Transition(t3.state, t1.out + t2.out + t3.out)
    else Transition(t2.state, t1.out + t2.out)
  }

  /** A round from an established watermark `w`: a worker is started for
      exactly [w + 1, h] unless `h` equals `w`; the watermark moves to `h`
      and the buffer is published exactly when the buffer then reports a
      non-zero count, which counts what earlier rounds stored as well. */
  lemma RoundQueriesAfterWatermark(e: PublishEffect, s: State, h: nat, added: nat)
    requires Valid(s) && s.phase == Wait && s.watermark.Some?
    ensures var w := s.watermark.value;
      var t := Round(e, s, h, added);
      && (h == w ==> t.out == [SelfHeight(h)] && t.state.watermark == s.watermark)
      && (h != w ==> t.out[..2] == [SelfHeight(h), StartQuery(w + 1, h)])
      && (h != w && s.buffered + added > 0 ==>
            t.out == [SelfHeight(h), StartQuery(w + 1, h), PublishBuffer] && t.state.watermark == Some(h))
      && (h != w && s.buffered + added == 0 ==>
            t.out == [SelfHeight(h), StartQuery(w + 1, h)] && t.state.watermark == s.watermark)
  {
  }

  /** The first round: with no watermark yet it starts from `h - 1`, so the
      first query covers block `h` alone. */
  lemma FirstRoundQueriesOneBlock(e: PublishEffect, h: nat, added: nat)
    ensures var t := Round(e, Init, h, added);
      && t.out[..2] == [SelfHeight(h), StartQuery(h, h)]
      && t.state.watermark == Some(if added > 0 then h else h - 1)
  {
  }

  /** A query worker that fails before writing anything is stopped, not
      escalated. While the buffer is empty its end reaches the source with a
      zero count, so nothing is published, the watermark stays, and the
      next round queries the same blocks again (up to the new height). */
  lemma FailedQueryRetried(e: PublishEffect, s: State, worker: ActorRef, buffer: ActorRef, h1: nat, h2: nat, added2: nat)
    requires Valid(s) && s.phase == Wait && s.watermark.Some? && s.buffered == 0
    requires worker != buffer && h1 != s.watermark.value && h2 != s.watermark.value
    ensures Decide(worker, buffer) == StopChild
    ensures var w := s.watermark.value;
      var t1 := Round(e, s, h1, 0);
      var t2 := Round(e, t1.state, h2, added2);
      && t1.out == [SelfHeight(h1), StartQuery(w + 1, h1)]
      && t1.state.watermark == s.watermark && t1.state.buffered == 0
      && t2.out[1] == StartQuery(w + 1, h2)
  {
    RoundQueriesAfterWatermark(e, s, h1, 0);
    var t1 := Round(e, s, h1, 0);
    RoundQueriesAfterWatermark(e, t1.state, h2, added2);
  }

  /** As written, a failed query after the buffer has once stored an event
      is taken for a success: the count the source reads is not zero, so the
      watermark moves past the failed blocks, and the next round starts
      after them. The buffer keeps its count. */
  lemma FailedQueryAfterEventSkips(s: State, h1: nat, h2: nat, added2: nat)
    requires Valid(s) && s.phase == Wait && s.watermark.Some? && s.buffered > 0
    requires h1 != s.watermark.value
    ensures var w := s.watermark.value;
      var t1 := Round(Dropped, s, h1, 0);
      var t2 := Round(Dropped, t1.state, h2, added2);
      && t1.out == [SelfHeight(h1), StartQuery(w + 1, h1), PublishBuffer]
      && t1.state.watermark == Some(h1) && t1.state.buffered == s.buffered
      && (h2 != h1 ==> t2.out[1] == StartQuery(h1 + 1, h2))
  {
    RoundQueriesAfterWatermark(Dropped, s, h1, 0);
    var t1 := Round(Dropped, s, h1, 0);
    RoundQueriesAfterWatermark(Dropped, t1.state, h2, added2);
  }

  /** Runs rounds and collects the ranges whose events were published. */
  function Rounds(e: PublishEffect, s: State, rs: seq<(nat, nat)>): (r: (State, seq<Range>))
    requires Valid(s) && s.phase == Wait
    ensures Valid(r.0) && r.0.phase == Wait
    decreases |rs|
  {
    if rs == [] then (s, [])
    else
      var (h, added) := rs[0];
      var t := Round(e, s, h, added);
      var published: seq<Range> :=
        if PublishBuffer in t.out then
          (if s.watermark.Some? then [Range(s.watermark.value + 1, h)] else [Range(h, h)])
        else [];
      var rest := Rounds(e, t.state, rs[1..]);
      (rest.0, published + rest.1)
  }

  /** As written, once the buffer holds an event it holds one for good, so
      every later failed query moves the watermark. With a clearing
      `Publish` the buffer is empty whenever the source waits. */
  lemma {:induction false} RoundsKeepCount(e: PublishEffect, s: State, rs: seq<(nat, nat)>)
    requires Valid(s) && s.phase == Wait
    ensures e == Dropped ==> Rounds(e, s, rs).0.buffered >= s.buffered
    ensures e == Clears && s.buffered == 0 ==> Rounds(e, s, rs).0.buffered == 0
    decreases |rs|
  {
    if rs != [] {
      var t := Round(e, s, rs[0].0, rs[0].1);
      RoundsKeepCount(e, t.state, rs[1..]);
    }
  }

  /** With a clearing `Publish`, after any run of rounds from the start a
      failed query is retried: nothing is published, the watermark stays,
      and the next round queries the failed blocks again. */
  lemma ClearingPublishRetriesFailures(rs: seq<(nat, nat)>, h1: nat, h2: nat, added2: nat)
    ensures var s := Rounds(Clears, Init, rs).0;
      && s.buffered == 0
      && (s.watermark.Some? && h1 != s.watermark.value && h2 != s.watermark.value ==>
            var t1 := Round(Clears, s, h1, 0);
            && t1.out == [SelfHeight(h1), StartQuery(s.watermark.value + 1, h1)]
            && t1.state.watermark == s.watermark
            && Round(Clears, t1.state, h2, added2).out[1] == StartQuery(s.watermark.value + 1, h2))
  {
    RoundsKeepCount(Clears, Init, rs);
    var s := Rounds(Clears, Init, rs).0;
    if s.watermark.Some? && h1 != s.watermark.value && h2 != s.watermark.value {
      FailedQueryRetried(Clears, s, ActorRef(0), ActorRef(1), h1, h2, added2);
    }
  }

  /** Non-empty ranges that follow each other without gap or overlap,
      starting right after `w` and ending at `last`. */
  predicate Tiles(w: int, ranges: seq<Range>, last: int)
    decreases |ranges|
  {
    if ranges == [] then w == last
    else ranges[0].from == w + 1 && ranges[0].from <= ranges[0].to && Tiles(ranges[0].to, ranges[1..], last)
  }

  /** Tiling ranges lie between `w` and `last` in ascending order, so no
      block is in two of them. */
  lemma {:induction false} TilesAscend(w: int, ranges: seq<Range>, last: int)
    requires Tiles(w, ranges, last)
    ensures w <= last
    ensures forall i :: 0 <= i < |ranges| ==> w < ranges[i].from <= ranges[i].to <= last
    ensures forall i, j :: 0 <= i < j < |ranges| ==> ranges[i].to < ranges[j].from
    decreases |ranges|
  {
    if ranges != [] {
      TilesAscend(ranges[0].to, ranges[1..], last);
      forall i | 0 < i < |ranges|
        ensures ranges[i] == ranges[1..][i - 1]
      {
      }
    }
  }

  /** Heights that are never below the starting watermark `w` nor below an
      earlier height of the series. */
  predicate Rising(w: int, rs: seq<(nat, nat)>)
  {
    && (forall i :: 0 <= i < |rs| ==> w <= rs[i].0)
    && (forall i, j :: 0 <= i < j < |rs| ==> rs[i].0 <= rs[j].0)
  }

  /** Rising heights stay rising after the first from any watermark at or
      below the first height. */
  lemma RisingTail(w: int, rs: seq<(nat, nat)>, w': int)
    requires Rising(w, rs) && rs != [] && w' <= rs[0].0
    ensures Rising(w', rs[1..])
  {
    forall i | 0 <= i < |rs[1..]|
      ensures w' <= rs[1..][i].0
    {
      assert rs[1..][i] == rs[i + 1];
    }
    forall i, j | 0 <= i < j < |rs[1..]|
      ensures rs[1..][i].0 <= rs[1..][j].0
    {
      assert rs[1..][i] == rs[i + 1] && rs[1..][j] == rs[j + 1];
    }
  }

  /** The first round of a run under rising heights: the watermark either
      stays and nothing is published, or moves up to the height and the
      range after the old watermark is published. */
  lemma RoundsFirst(e: PublishEffect, s: State, rs: seq<(nat, nat)>)
    requires Valid(s) && s.phase == Wait && s.watermark.Some?
    requires rs != [] && s.watermark.value <= rs[0].0
    ensures var w := s.watermark.value;
      var next := Round(e, s, rs[0].0, rs[0].1).state;
      var rest := Rounds(e, next, rs[1..]);
      && next.watermark.Some?
      && Rounds(e, s, rs).0 == rest.0
      && (next.watermark.value == w ==> Rounds(e, s, rs).1 == rest.1)
      && (next.watermark.value != w ==>
            && w < rs[0].0 == next.watermark.value
            && Rounds(e, s, rs).1 == [Range(w + 1, rs[0].0)] + rest.1)
  {
    RoundQueriesAfterWatermark(e, s, rs[0].0, rs[0].1);
    var t := Round(e, s, rs[0].0, rs[0].1);
    if PublishBuffer !in t.out {
      assert [] + Rounds(e, t.state, rs[1..]).1 == Rounds(e, t.state, rs[1..]).1;
    }
  }

  /** The published ranges, those over which the watermark moves, tile the
      blocks from just after the starting watermark up to the final one
      when the heights never fall: a round that publishes nothing leaves
      the watermark, so the next range starts at the same block, and none
      is published twice. That a published range was fetched without
      failure is a separate matter (`FailedQueryAfterEventSkips`). */
  lemma {:induction false} PublishedRangesTile(e: PublishEffect, s: State, rs: seq<(nat, nat)>)
    requires Valid(s) && s.phase == Wait && s.watermark.Some?
    requires Rising(s.watermark.value, rs)
    ensures var r := Rounds(e, s, rs);
      && r.0.watermark.Some? && Tiles(s.watermark.value, r.1, r.0.watermark.value)
      && forall i, j :: 0 <= i < j < |r.1| ==> r.1[i].to < r.1[j].from
    decreases |rs|
  {
    if rs != [] {
      var next := Round(e, s, rs[0].0, rs[0].1).state;
      RoundsFirst(e, s, rs);
      RisingTail(s.watermark.value, rs, next.watermark.value);
      PublishedRangesTile(e, next, rs[1..]);
      var rest := Rounds(e, next, rs[1..]);
      if next.watermark.value != s.watermark.value {
        var ranges := [Range(s.watermark.value + 1, rs[0].0)] + rest.1;
        assert ranges[1..] == rest.1;
        assert Tiles(s.watermark.value, ranges, rest.0.watermark.value);
      }
      TilesAscend(s.watermark.value, Rounds(e, s, rs).1, Rounds(e, s, rs).0.watermark.value);
    } else {
      TilesAscend(s.watermark.value, [], s.watermark.value);
    }
  }

  /** A height below the watermark is not ruled out by the block clock,
      which only announces changes. After such a height the query range is
      empty, yet when the buffer holds events the watermark drops to it, and
      the next round publishes again blocks that were already published:
      from watermark 10, heights 15, 12 and 20 publish blocks 13 to 15
      twice. */
  lemma FallingHeightRepublishes()
    ensures Rounds(Dropped, State(Wait, Some(10), None, 0), [(15, 1), (12, 1), (20, 1)]).1
      == [Range(11, 15), Range(16, 12), Range(13, 20)]
  {
    var s0 := State(Wait, Some(10), None, 0);
    var rs: seq<(nat, nat)> := [(15, 1), (12, 1), (20, 1)];
    RoundQueriesAfterWatermark(Dropped, s0, 15, 1);
    var s1 := Round(Dropped, s0, 15, 1).state;
    assert s1.watermark == Some(15);
    RoundQueriesAfterWatermark(Dropped, s1, 12, 1);
    var s2 := Round(Dropped, s1, 12, 1).state;
    assert s2.watermark == Some(12);
    RoundQueriesAfterWatermark(Dropped, s2, 20, 1);
    var s3 := Round(Dropped, s2, 20, 1).state;
    assert rs[1..][1..][1..] == [] && rs[1..][1..][0] == (20, 1) && rs[1..][0] == (12, 1);
    assert Rounds(Dropped, s3, []).1 == [];
    assert Rounds(Dropped, s0, rs).1 == [Range(11, 15)] + Rounds(Dropped, s1, rs[1..]).1;
    assert Rounds(Dropped, s2, rs[1..][1..]).1 == [Range(13, 20)];
    assert Rounds(Dropped, s1, rs[1..]).1 == [Range(16, 12), Range(13, 20)];
  }
}

=== FILE: common.dfy ===
/** Shared vocabulary of the event pipeline: optional values, the composite
    event key and its lexicographic order, and actor references. */
module Common {

  /** A value that may be absent; stands for the C# nullable references. */
  datatype Option<T> = None | Some(value: T)

  /** An actor address. Actors are only ever compared for identity. */
  datatype ActorRef = ActorRef(id: nat)

  /** The buffer key of an event: (block number, log index). The source
      builds it as a `Tuple<BigInteger, BigInteger>` whose comparison is
      lexicographic. */
  datatype Key = Key(block: nat, logIndex: nat)

  predicate Less(a: Key, b: Key)
  {
    a.block < b.block || (a.block == b.block && a.logIndex < b.logIndex)
  }

  predicate LessEq(a: Key, b: Key)
  {
    Less(a, b) || a == b
  }

  /** The key order is a strict total order. */
  lemma LessIsStrictTotalOrder(a: Key, b: Key, c: Key)
    ensures !Less(a, a)
    ensures Less(a, b) ==> !Less(b, a)
    ensures Less(a, b) && Less(b, c) ==> Less(a, c)
    ensures a == b || Less(a, b) || Less(b, a)
  {
  }

  /** The three C# comparisons the buffer performs, rewritten in terms of `Less`. */
  lemma NotLessEq(a: Key, b: Key)
    ensures !LessEq(a, b) <==> Less(b, a)
  {
  }
}

=== FILE: consumer.dfy ===
/** The receiving end of a pull session (`Feed/Consumer.cs`): it answers
    the feed's Hello with its mode choice, asks for one item at a time with
    `Next`, hands each item to its sink and waits for the sink before
    asking again.

    The asynchronous sink call is the `InvokeSink` output, answered by a
    `SinkDone(bool)`, `SinkSuccess` (`Status.Success`) or `SinkFailure`
    (`Status.Failure`) message. Entering `Ready` sends `Next`; entering the
    source's `Cancel` behaviour sends `Goodbye(Cancel)` and closes at once;
    entering `Closed` stops the actor. A thrown exception is the terminal
    `Failed` phase. */
module Consumer {
  import opened Common
  import opened FeedProtocol

  datatype Phase = WaitingForConnection | Ready | WaitingForSink | Closed | Failed

  /** `feed` is the sender of the feed's Hello, unset until it arrives. */
  datatype State = State(supported: FeedMode, phase: Phase, handshake: seq<Hello>, feed: Option<ActorRef>)

  datatype Msg<P> =
    | FeedHello(from: ActorRef, hello: Hello)
    | Payload(payload: P)
    | FeedGoodbye(reason: GoodbyeReason)
    | SinkDone(accepted: bool)
    | SinkSuccess
    | SinkFailure

  datatype Out<P> =
    | ReplyHello(to: ActorRef, hello: Hello)
    | SendNext(to: ActorRef)
    | SendGoodbye(to: ActorRef, reason: GoodbyeReason)
    | InvokeSink(handshake: seq<Hello>, payload: P)
    | Stop

  datatype Transition<P> = Transition(state: State, out: seq<Out<P>>)

  function Init(supported: FeedMode): State
  {
    State(supported, WaitingForConnection, [], None)
  }

  /** The mode the consumer answers an offer with: Infinite when both
      sides support it, else Finite. The feed accepts the answer exactly
      when it offers Finite or both sides support Infinite, and the answer
      is one of the consumer's own modes under the same condition with the
      sides swapped. */
  function Choose(supported: FeedMode, offered: FeedMode): (choice: FeedMode)
    ensures choice == Infinite || choice == Finite
    ensures choice == Infinite <==> HasFlag(supported, Infinite) && HasFlag(offered, Infinite)
    ensures HasFlag(offered, choice) <==>
      HasFlag(offered, Finite) || (HasFlag(supported, Infinite) && HasFlag(offered, Infinite))
    ensures HasFlag(supported, choice) <==>
      HasFlag(supported, Finite) || (HasFlag(supported, Infinite) && HasFlag(offered, Infinite))
  {
    if HasFlag(supported, Infinite) && HasFlag(offered, Infinite) then Infinite else Finite
  }

  /** Once connected the feed is known and the handshake holds both Hellos. */
  ghost predicate Valid(s: State)
  {
    && (s.phase == WaitingForConnection ==> s.handshake == [] && s.feed.None?)
    && (s.phase.Ready? || s.phase.WaitingForSink? ==> |s.handshake| == 2 && s.feed.Some?)
  }

  /** Entering `Ready` asks the feed for the next item. */
  function EnterReady<P>(s: State): Transition<P>
    requires s.feed.Some?
  {
    Transition(s.(phase := Ready), [SendNext(s.feed.value)])
  }

  /** One message in the current behaviour; unhandled messages change
      nothing. */
  function Step<P>(s: State, m: Msg<P>): (t: Transition<P>)
    requires Valid(s)
    ensures Valid(t.state)
  {
    match s.phase
    case WaitingForConnection =>
      (match m
       case FeedHello(from, offer) =>
         var hello := Hello(Receiver, Choose(s.supported, offer.mode));
         var r := EnterReady(s.(handshake := s.handshake + [offer, hello], feed := Some(from)));
         Transition(r.state, [ReplyHello(from, hello)] + r.out)
       case FeedGoodbye(_) => Transition(s.(phase := Closed), [Stop])
       case _ => Transition(s, []))
    case Ready =>
      (match m
       case Payload(p) => Transition(s.(phase := WaitingForSink), [InvokeSink(s.handshake, p)])
       case FeedGoodbye(_) => Transition(s.(phase := Closed), [Stop])
       case _ => Transition(s, []))
    case WaitingForSink =>
      (match m
       case SinkDone(accepted) =>
         if accepted then EnterReady(s)
         else Transition(s.(phase := Closed), [SendGoodbye(s.feed.value, Cancel), Stop])
       case SinkSuccess => EnterReady(s)
       case SinkFailure => Transition(s.(phase := Failed), [SendGoodbye(s.feed.value, Error)])
       case _ => Transition(s, []))
    case Closed => Transition(s, [])
    case Failed => Transition(s, [])
  }

  // ---------------------------------------------------------------------
  // Properties.
  // ---------------------------------------------------------------------

  /** The feed's Hello: the consumer replies to its sender with its own
      choice, records both Hellos in order, and asks for the first item. */
  lemma HelloAnsweredThenNext<P>(supported: FeedMode, from: ActorRef, offer: Hello)
    ensures var t := Step<P>(Init(supported), FeedHello(from, offer));
      var choice := Choose(supported, offer.mode);
      && t.state.phase == Ready
      && t.state.feed == Some(from)
      && t.state.handshake == [offer, Hello(Receiver, choice)]
      && t.out == [ReplyHello(from, Hello(Receiver, choice)), SendNext(from)]
  {
  }

  /** Every `Next` the consumer sends comes from entering `Ready`: a step
      sends one `Next`, to the feed, exactly when it ends in `Ready` coming
      from another phase. */
  lemma NextOnlyOnEnteringReady<P>(s: State, m: Msg<P>)
    requires Valid(s)
    ensures var t := Step(s, m);
      (exists to :: SendNext(to) in t.out) <==> (t.state.phase == Ready && s.phase != Ready)
    ensures var t := Step(s, m);
      t.state.phase == Ready && s.phase != Ready ==> SendNext(t.state.feed.value) in t.out
  {
    var t := Step(s, m);
    if t.state.phase == Ready && s.phase != Ready {
      assert SendNext(t.state.feed.value) in t.out;
    }
  }

  /** A payload while ready goes to the sink and nothing is asked for until
      the sink answers; a payload at any other time is unhandled. */
  lemma PayloadGoesToSink<P>(s: State, p: P)
    requires Valid(s)
    ensures s.phase == Ready ==>
      Step(s, Payload(p)) == Transition(s.(phase := WaitingForSink), [InvokeSink(s.handshake, p)])
    ensures s.phase == WaitingForSink ==> Step(s, Payload(p)) == Transition(s, [])
  {
  }

  /** The sink's verdict: acceptance (or plain success) asks for the next
      item; refusal cancels the session; a failure says `Goodbye(Error)` and
      is fatal. */
  lemma SinkVerdicts<P>(s: State)
    requires Valid(s) && s.phase == WaitingForSink
    ensures Step<P>(s, SinkDone(true)) == Step<P>(s, SinkSuccess)
    ensures Step<P>(s, SinkDone(true)) == Transition(s.(phase := Ready), [SendNext(s.feed.value)])
    ensures Step<P>(s, SinkDone(false))
      == Transition(s.(phase := Closed), [SendGoodbye(s.feed.value, Cancel), Stop])
    ensures Step<P>(s, SinkFailure) == Transition(s.(phase := Failed), [SendGoodbye(s.feed.value, Error)])
  {
  }

  /** The feed's Goodbye, whatever its reason, closes the consumer before
      and between items. */
  lemma FeedGoodbyeCloses<P>(s: State, reason: GoodbyeReason)
    requires Valid(s) && (s.phase == WaitingForConnection || s.phase == Ready)
    ensures Step<P>(s, FeedGoodbye(reason)) == Transition(s.(phase := Closed), [Stop])
  {
  }
}

=== FILE: decimal.dfy ===
/** Decimal text for integers, as far as the pipeline uses it: `BigInteger`
    `ToString()` (a minus sign, then digits without leading zeros) and
    `Int32.Parse` of such text, which fails with an overflow outside the
    32-bit signed range. */
module Decimal {
  import opened Common

  const Int32Min: int := -0x8000_0000
  const Int32Max: int := 0x7fff_ffff

  predicate InInt32(n: int)
  {
    Int32Min <= n <= Int32Max
  }

  predicate IsDigit(c: char)
  {
    '0' <= c <= '9'
  }

  predicate AllDigits(s: string)
  {
    forall i :: 0 <= i < |s| ==> IsDigit(s[i])
  }

  function DigitChar(d: nat): (c: char)
    requires d < 10
    ensures IsDigit(c)
  {
    ('0' as int + d) as char
  }

  function DigitValue(c: char): (d: nat)
    requires IsDigit(c)
    ensures d < 10
  {
    c as int - '0' as int
  }

  /** The digits of a natural number, most significant first. */
  function NatDigits(n: nat): (s: string)
    ensures |s| > 0 && AllDigits(s)
    decreases n
  {
    if n < 10 then [DigitChar(n)] else NatDigits(n / 10) + [DigitChar(n % 10)]
  }

  /** `BigInteger.ToString()`. */
  function Render(n: int): (s: string)
    ensures |s| > 0
  {
    if n < 0 then "-" + NatDigits(-n) else NatDigits(n)
  }

  /** The value of a digit string, read most significant first. */
  function DigitsValue(s: string): nat
    requires AllDigits(s)
    decreases |s|
  {
    if s == [] then 0 else 10 * DigitsValue(s[..|s| - 1]) + DigitValue(s[|s| - 1])
  }

  /** Reads an optional minus sign followed by at least one digit; any other
      text is rejected. */
  function ParseInt(s: string): Option<int>
  {
    if |s| > 1 && s[0] == '-' && AllDigits(s[1..]) then Some(-(DigitsValue(s[1..]) as int))
    else if |s| > 0 && AllDigits(s) then Some(DigitsValue(s))
    else None
  }

  /** `Int32.Parse` on such text: `None` for malformed text and for values
      outside the 32-bit range (the `OverflowException`). */
  function ParseInt32(s: string): (r: Option<int>)
    ensures r.Some? ==> InInt32(r.value)
  {
    match ParseInt(s)
    case Some(v) => if InInt32(v) then Some(v) else None
    case None => None
  }

  lemma {:induction false} NatDigitsRoundTrip(n: nat)
    ensures DigitsValue(NatDigits(n)) == n
    decreases n
  {
    if n >= 10 {
      var s := NatDigits(n);
      assert s[..|s| - 1] == NatDigits(n / 10);
      NatDigitsRoundTrip(n / 10);
    }
  }

  /** Reading back a rendered integer gives the integer; `Int32.Parse` of it
      succeeds exactly for values in the 32-bit range. */
  lemma ParseRender(n: int)
    ensures ParseInt(Render(n)) == Some(n)
    ensures ParseInt32(Render(n)) == (if InInt32(n) then Some(n) else None)
  {
    if n < 0 {
      ParseRenderNegative(n);
    } else {
      ParseRenderNatural(n);
    }
  }

  lemma ParseRenderNegative(n: int)
    requires n < 0
    ensures ParseInt(Render(n)) == Some(n)
  {
    var s := Render(n);
    assert s[0] == '-' && s[1..] == NatDigits(-n);
    NatDigitsRoundTrip(-n);
  }

  lemma ParseRenderNatural(n: nat)
    ensures ParseInt(Render(n)) == Some(n)
  {
    var s := Render(n);
    assert s == NatDigits(n);
    assert IsDigit(s[0]);
    NatDigitsRoundTrip(n);
  }
}

=== FILE: event_buffer.dfy ===
/** The ordered, de-duplicating, boundary-guarded event buffer actor
    (`Actors/EventBuffer.cs`) as a step function over its private state.
    The handlers are modelled as written, including the cursor quirks of
    `FindNext` / `RemoveAndFindNext` (see `FeedDrain` for their effect). */
module EventBuffer {
  import opened Common
  import opened SortedEntries
  import opened FeedProtocol

  /** `GetStatsResult`: `default` (here `None`) keys and 0 items when empty. */
  datatype StatsResult = StatsResult(minKey: Option<Key>, maxKey: Option<Key>, items: nat)

  /** `FindNextResponse`: EOF, or the key and value of the next entry. */
  datatype Lookup<V> = EndOfBuffer | Found(key: Key, value: V)

  /** The messages `OnReceive` handles. `Add` is an event value arriving by
      itself (the `case TValue item` branch). */
  datatype Msg<V> =
    | Add(item: V)
    | GetStats(replyTo: ActorRef)
    | FindNext(replyTo: ActorRef, cursor: Option<Key>)
    | RemoveAndFindNext(replyTo: ActorRef, cursor: Option<Key>)
    | DumpToActor(to: ActorRef, consume: bool)
    | DumpToStream(consume: bool)
    | FeedToActor(to: ActorRef, mode: FeedMode, consume: bool)
    | Terminated(actor: ActorRef)

  /** What a handler sends. `StartFeed` stands for creating and watching the
      Finite feed child whose item factory is `FactoryRequest`/`FactoryAnswer`. */
  datatype Out<V> =
    | StatsReply(to: ActorRef, stats: StatsResult)
    | FindNextReply(to: ActorRef, response: Lookup<V>)
    | RemoveAndFindNextReply(to: ActorRef, removed: bool, response: Lookup<V>)
    | Tell(to: ActorRef, value: V)
    | Publish(value: V)
    | StartFeed(feed: ActorRef, consumer: ActorRef, consume: bool)

  /** The two exceptions the handlers throw. */
  datatype Error = BoundaryViolation(key: Key, boundary: Key) | FeedAlreadyOpen

  /** `entries` is `_buffer`, `feed` is `_feedActor`, `boundary` is
      `_feedingUpToKey`; `feedsStarted` names the next feed child. */
  datatype State<V> =
    | Running(entries: seq<Entry<V>>, feed: Option<ActorRef>, boundary: Option<Key>, feedsStarted: nat)
    | Failed(error: Error)

  datatype Transition<V> = Transition(state: State<V>, out: seq<Out<V>>)

  function Init<V>(): State<V>
  {
    Running([], None, None, 0)
  }

  /** The buffer is sorted, and a boundary is only ever set while a feed is open. */
  ghost predicate Valid<V>(s: State<V>)
  {
    s.Running? ==> Sorted(s.entries) && (s.boundary.Some? ==> s.feed.Some?)
  }

  /** `GetStats`: smallest key, largest key and number of entries. */
  function Stats<V>(entries: seq<Entry<V>>): (r: StatsResult)
    requires Sorted(entries)
    ensures r.items == |KeySet(entries)|
    ensures r.minKey.None? <==> KeySet(entries) == {}
    ensures r.maxKey.None? <==> KeySet(entries) == {}
    ensures r.minKey.Some? ==> r.minKey.value in KeySet(entries)
    ensures r.maxKey.Some? ==> r.maxKey.value in KeySet(entries)
    ensures forall k :: k in KeySet(entries) ==> LessEq(r.minKey.value, k) && LessEq(k, r.maxKey.value)
  {
    CountIsKeyCount(entries);
    if |entries| == 0 then StatsResult(None, None, 0)
    else
      assert entries[0].key in KeySet(entries);
      StatsResult(Some(entries[0].key), Some(entries[|entries| - 1].key), |entries|)
  }

  /** The key the cursor handlers start from: an unset cursor stands for
      the smallest stored key (`_buffer.FirstOrDefault().Key`). */
  function CurrentKey<V>(entries: seq<Entry<V>>, cursor: Option<Key>): Key
    requires |entries| > 0
  {
    if cursor.None? then entries[0].key else cursor.value
  }

  /** `FindNext` as written: the entry one position after the index of the
      current key, where `IndexOfKey` yields -1 for an absent key. */
  function FindNextIn<V>(entries: seq<Entry<V>>, cursor: Option<Key>): Lookup<V>
  {
    if |entries| == 0 then EndOfBuffer
    else
      var idx := IndexOf(entries, CurrentKey(entries, cursor));
      if idx + 1 < |entries| then Found(entries[idx + 1].key, entries[idx + 1].value)
      else EndOfBuffer
  }

  /** Result of `RemoveAndFindNext`: the `Removed` flag, the response and
      the buffer afterwards. */
  datatype Removal<V> = Removal(removed: bool, response: Lookup<V>, entries: seq<Entry<V>>)

  /** `RemoveAndFindNext` as written: the successor is read first, and only
      when it exists is the current key removed; at the last key the read
      throws and nothing is removed. */
  function RemoveAndFindNextIn<V>(entries: seq<Entry<V>>, cursor: Option<Key>): (r: Removal<V>)
    requires Sorted(entries)
    ensures Sorted(r.entries)
    ensures r.response.EndOfBuffer? ==> !r.removed
    ensures !r.removed ==> r.entries == entries
    ensures r.removed ==>
              && |entries| > 0
              && CurrentKey(entries, cursor) in KeySet(entries)
              && r.entries == RemoveKey(entries, CurrentKey(entries, cursor))
              && |r.entries| + 1 == |entries|
  {
    if |entries| == 0 then Removal(false, EndOfBuffer, entries)
    else
      var current := CurrentKey(entries, cursor);
      var idx := IndexOf(entries, current);
      if idx + 1 < |entries| then
        Removal(current in KeySet(entries), Found(entries[idx + 1].key, entries[idx + 1].value),
                RemoveKey(entries, current))
      else
        Removal(false, EndOfBuffer, entries)
  }

  /** Every stored value, in key order, as messages to `to`. */
  function TellAll<V>(to: ActorRef, entries: seq<Entry<V>>): (out: seq<Out<V>>)
    ensures |out| == |entries|
    ensures forall i :: 0 <= i < |entries| ==> out[i] == Tell(to, entries[i].value)
  {
    seq(|entries|, i requires 0 <= i < |entries| => Tell(to, entries[i].value))
  }

  /** Every stored value, in key order, as event-stream publications. */
  function PublishAll<V>(entries: seq<Entry<V>>): (out: seq<Out<V>>)
    ensures |out| == |entries|
    ensures forall i :: 0 <= i < |entries| ==> out[i] == Publish(entries[i].value)
  {
    seq(|entries|, i requires 0 <= i < |entries| => Publish(entries[i].value))
  }

  /** One run of `OnReceive`. `keyOf` is the key extractor given to the
      constructor. */
  function Step<V>(keyOf: V -> Key, s: State<V>, m: Msg<V>): (t: Transition<V>)
    requires Valid(s)
    ensures Valid(t.state)
  {
    match s
    case Failed(_) => Transition(s, [])
    case Running(entries, feed, boundary, started) =>
      match m
      case Add(item) =>
        var key := keyOf(item);
        if boundary.Some? && LessEq(key, boundary.value) then
          Transition(Failed(BoundaryViolation(key, boundary.value)), [])
        else if key in KeySet(entries) then
          Transition(s, [])
        else
          Transition(s.(entries := Insert(entries, key, item)), [])
      case GetStats(replyTo) =>
        Transition(s, [StatsReply(replyTo, Stats(entries))])
      case FindNext(replyTo, cursor) =>
        Transition(s, [FindNextReply(replyTo, FindNextIn(entries, cursor))])
      case RemoveAndFindNext(replyTo, cursor) =>
        var r := RemoveAndFindNextIn(entries, cursor);
        Transition(s.(entries := r.entries), [RemoveAndFindNextReply(replyTo, r.removed, r.response)])
      case DumpToActor(to, _) =>
        Transition(s.(entries := []), TellAll(to, entries))
      case DumpToStream(_) =>
        Transition(s.(entries := []), PublishAll(entries))
      case FeedToActor(to, mode, consume) =>
        if mode != Finite then
          Transition(s, [])
        else if feed.Some? then
          Transition(Failed(FeedAlreadyOpen), [])
        else
          var child := ActorRef(started);
          var upTo := if |entries| > 0 then Some(entries[|entries| - 1].key) else boundary;
          Transition(Running(entries, Some(child), upTo, started + 1), [StartFeed(child, to, consume)])
      case Terminated(actor) =>
        if feed == Some(actor) then Transition(s.(feed := None, boundary := None), [])
        else Transition(s, [])
  }

  // ---------------------------------------------------------------------
  // The feed's item factory (the closure created for `FeedToActor`).
  // ---------------------------------------------------------------------

  /** The closure's captured state: `lastProcessedKey` and the consume flag. */
  datatype Cursor = Cursor(lastProcessed: Option<Key>, consume: bool)

  /** The Ask the factory sends to the buffer on each call. */
  function FactoryRequest<V>(c: Cursor, replyTo: ActorRef): Msg<V>
  {
    if c.consume then RemoveAndFindNext(replyTo, c.lastProcessed)
    else FindNext(replyTo, c.lastProcessed)
  }

  /** How the factory turns the buffer's answer into a factory result,
      reading the boundary the buffer holds at that moment. */
  function FactoryAnswer<V>(c: Cursor, response: Lookup<V>, boundary: Option<Key>): (r: (FactoryResult<V>, Cursor))
    ensures r.1.consume == c.consume
    ensures r.0.EndOfData? <==> response.EndOfBuffer? || (boundary.Some? && Less(boundary.value, response.key))
    ensures r.0.EndOfData? ==> r.1 == c
    ensures r.0.Item? ==> r.0.payload == response.value && r.1.lastProcessed == Some(response.key)
  {
    match response
    case EndOfBuffer => (EndOfData, c)
    case Found(key, value) =>
      if boundary.Some? && Less(boundary.value, key) then (EndOfData, c)
      else (Item(value), c.(lastProcessed := Some(key)))
  }

  // ---------------------------------------------------------------------
  // Properties of the handlers.
  // ---------------------------------------------------------------------

  /** A stored key that is reached again leaves the buffer unchanged (when
      the boundary guard lets it through). */
  lemma AddDuplicateIgnored<V>(keyOf: V -> Key, s: State<V>, item: V)
    requires Valid(s) && s.Running?
    requires s.boundary.None? || Less(s.boundary.value, keyOf(item))
    requires keyOf(item) in KeySet(s.entries)
    ensures Step(keyOf, s, Add(item)) == Transition(s, [])
  {
  }

  /** A fresh key adds exactly that key-value pair; nothing else changes. */
  lemma AddFreshKey<V>(keyOf: V -> Key, s: State<V>, item: V)
    requires Valid(s) && s.Running?
    requires s.boundary.None? || Less(s.boundary.value, keyOf(item))
    requires keyOf(item) !in KeySet(s.entries)
    ensures var t := Step(keyOf, s, Add(item));
      && t.out == []
      && t.state.Running?
      && ToMap(t.state.entries) == ToMap(s.entries)[keyOf(item) := item]
      && |t.state.entries| == |s.entries| + 1
      && t.state.feed == s.feed && t.state.boundary == s.boundary
  {
  }

  /** While a boundary is set, any key at or below it is fatal; the check
      comes before the duplicate check, so duplicates fail too. */
  lemma AddAtOrBelowBoundaryFails<V>(keyOf: V -> Key, s: State<V>, item: V)
    requires Valid(s) && s.Running? && s.boundary.Some?
    requires LessEq(keyOf(item), s.boundary.value)
    ensures Step(keyOf, s, Add(item)).state == Failed(BoundaryViolation(keyOf(item), s.boundary.value))
  {
  }

  /** The successor of `k` among the stored keys: the smallest stored key
      above `k`, or EOF. */
  ghost predicate IsSuccessor<V>(entries: seq<Entry<V>>, k: Key, r: Lookup<V>)
  {
    match r
    case EndOfBuffer => forall i :: 0 <= i < |entries| ==> !Less(k, entries[i].key)
    case Found(key, value) =>
      && Entry(key, value) in entries
      && Less(k, key)
      && forall i :: 0 <= i < |entries| && Less(k, entries[i].key) ==> LessEq(key, entries[i].key)
  }

  /** With a stored cursor key, `FindNext` returns exactly its successor. */
  lemma FindNextFromStoredKey<V>(entries: seq<Entry<V>>, i: nat)
    requires Sorted(entries) && i < |entries|
    ensures IsSuccessor(entries, entries[i].key, FindNextIn(entries, Some(entries[i].key)))
    ensures FindNextIn(entries, Some(entries[i].key))
      == if i + 1 < |entries| then Found(entries[i + 1].key, entries[i + 1].value) else EndOfBuffer
  {
    IndexOfSorted(entries, i);
    var r := FindNextIn(entries, Some(entries[i].key));
    if i + 1 < |entries| {
      assert r == Found(entries[i + 1].key, entries[i + 1].value);
      assert entries[i + 1] in entries;
      forall j | 0 <= j < |entries| && Less(entries[i].key, entries[j].key)
        ensures LessEq(entries[i + 1].key, entries[j].key)
      {
        if j > i + 1 {
          assert Less(entries[i + 1].key, entries[j].key);
        }
      }
    } else {
      forall j | 0 <= j < |entries|
        ensures !Less(entries[i].key, entries[j].key)
      {
        if j < i { assert Less(entries[j].key, entries[i].key); }
      }
    }
  }

  /** With the cursor unset, `FindNext` answers the SECOND entry: the
      smallest entry is skipped. */
  lemma FindNextUnsetCursorSkipsSmallest<V>(entries: seq<Entry<V>>)
    requires Sorted(entries) && |entries| > 0
    ensures FindNextIn(entries, None)
      == if |entries| > 1 then Found(entries[1].key, entries[1].value) else EndOfBuffer
  {
    IndexOfSorted(entries, 0);
  }

  /** With a cursor key that is not stored, `IndexOfKey` yields -1 and
      `FindNext` answers the FIRST entry, whatever the cursor's value. */
  lemma FindNextAbsentCursorGivesSmallest<V>(entries: seq<Entry<V>>, k: Key)
    requires |entries| > 0 && k !in KeySet(entries)
    ensures FindNextIn(entries, Some(k)) == Found(entries[0].key, entries[0].value)
  {
  }

  /** `FindNext` never changes the buffer; the reply goes to the asker. */
  lemma FindNextReadOnly<V>(keyOf: V -> Key, s: State<V>, replyTo: ActorRef, cursor: Option<Key>)
    requires Valid(s) && s.Running?
    ensures Step(keyOf, s, FindNext(replyTo, cursor))
      == Transition(s, [FindNextReply(replyTo, FindNextIn(s.entries, cursor))])
  {
  }

  /** At the last key `RemoveAndFindNext` reports EOF with `Removed = false`
      and removes nothing: the largest entry is never consumed. */
  lemma RemoveAndFindNextAtLastKey<V>(entries: seq<Entry<V>>)
    requires Sorted(entries) && |entries| > 0
    ensures RemoveAndFindNextIn(entries, Some(entries[|entries| - 1].key))
      == Removal(false, EndOfBuffer, entries)
  {
    IndexOfSorted(entries, |entries| - 1);
  }

  /** Below the last key, `RemoveAndFindNext` removes exactly the cursor
      entry and answers its successor. */
  lemma RemoveAndFindNextBelowLastKey<V>(entries: seq<Entry<V>>, i: nat)
    requires Sorted(entries) && i + 1 < |entries|
    ensures var r := RemoveAndFindNextIn(entries, Some(entries[i].key));
      && r.removed
      && r.response == Found(entries[i + 1].key, entries[i + 1].value)
      && IsSuccessor(entries, entries[i].key, r.response)
      && r.entries == entries[..i] + entries[i + 1..]
  {
    IndexOfSorted(entries, i);
    FindNextFromStoredKey(entries, i);
    assert entries[i].key in KeySet(entries);
    RemoveAtIndex(entries, i);
  }

  /** Removing a stored key from a sorted sequence splices out its entry. */
  lemma RemoveAtIndex<V>(entries: seq<Entry<V>>, i: nat)
    requires Sorted(entries) && i < |entries|
    ensures RemoveKey(entries, entries[i].key) == entries[..i] + entries[i + 1..]
  {
    IndexOfSorted(entries, i);
  }

  /** What `RemoveAndFindNext` removes is exactly the current key. */
  lemma RemoveAndFindNextRemovesCurrent<V>(entries: seq<Entry<V>>, cursor: Option<Key>)
    requires Sorted(entries)
    ensures var r := RemoveAndFindNextIn(entries, cursor);
      && (r.removed ==> ToMap(r.entries) == ToMap(entries) - {CurrentKey(entries, cursor)})
      && (r.removed ==> KeySet(r.entries) == KeySet(entries) - {CurrentKey(entries, cursor)})
      && (!r.removed ==> ToMap(r.entries) == ToMap(entries))
  {
    if |entries| > 0 {
      RemoveKeyMap(entries, CurrentKey(entries, cursor));
      RemoveKeySet(entries, CurrentKey(entries, cursor));
    }
  }

  /** Both dump commands emit every value in key order and leave the buffer
      empty, whatever the consume flag says. */
  lemma DumpEmitsAllInOrderThenClears<V>(keyOf: V -> Key, s: State<V>, to: ActorRef, consume: bool)
    requires Valid(s) && s.Running?
    ensures var t := Step(keyOf, s, DumpToActor(to, consume));
      && t == Step(keyOf, s, DumpToActor(to, !consume))
      && t.state == s.(entries := [])
      && |t.out| == |s.entries|
      && forall i :: 0 <= i < |s.entries| ==> t.out[i] == Tell(to, s.entries[i].value)
    ensures var t := Step(keyOf, s, DumpToStream(consume));
      && t == Step(keyOf, s, DumpToStream(!consume))
      && t.state == s.(entries := [])
      && |t.out| == |s.entries|
      && forall i :: 0 <= i < |s.entries| ==> t.out[i] == Publish(s.entries[i].value)
  {
  }

  /** Starting a Finite feed: refused while another feed is open; otherwise
      the boundary becomes the current largest key (and stays unset for an
      empty buffer), and one feed child is started for the consumer.
      A non-Finite request matches no handler and is dropped. */
  lemma FeedToActorStartsOneFeed<V>(keyOf: V -> Key, s: State<V>, to: ActorRef, mode: FeedMode, consume: bool)
    requires Valid(s) && s.Running?
    ensures var t := Step(keyOf, s, FeedToActor(to, mode, consume));
      && (mode != Finite ==> t == Transition(s, []))
      && (mode == Finite && s.feed.Some? ==> t.state == Failed(FeedAlreadyOpen))
      && (mode == Finite && s.feed.None? ==>
            && t.state.Running?
            && t.state.entries == s.entries
            && t.state.feed.Some?
            && t.out == [StartFeed(t.state.feed.value, to, consume)]
            && (|s.entries| == 0 ==> t.state.boundary.None?)
            && (|s.entries| > 0 ==> t.state.boundary == Stats(s.entries).maxKey))
  {
  }

  /** Only the open feed's termination closes it and clears the boundary. */
  lemma TerminatedClearsOwnFeedOnly<V>(keyOf: V -> Key, s: State<V>, actor: ActorRef)
    requires Valid(s) && s.Running?
    ensures var t := Step(keyOf, s, Terminated(actor));
      && t.out == []
      && (s.feed == Some(actor) ==> t.state == s.(feed := None, boundary := None))
      && (s.feed != Some(actor) ==> t.state == s)
  {
  }

  /** Two feeds in a row: the second `FeedToActor` before the first feed
      terminates is fatal. */
  lemma SecondFeedFails<V>(keyOf: V -> Key, to1: ActorRef, to2: ActorRef, c1: bool, c2: bool)
    ensures var s1 := Step(keyOf, Init<V>(), FeedToActor(to1, Finite, c1)).state;
      Step(keyOf, s1, FeedToActor(to2, Finite, c2)).state == Failed(FeedAlreadyOpen)
  {
  }

  // ---------------------------------------------------------------------
  // Keys and the key extractor.
  // ---------------------------------------------------------------------

  /** Every entry is stored under the key the extractor gives its value. */
  ghost predicate WellKeyed<V>(keyOf: V -> Key, entries: seq<Entry<V>>)
  {
    forall i :: 0 <= i < |entries| ==> entries[i].key == keyOf(entries[i].value)
  }

  /** On sorted entries, being well keyed is a property of the stored
      mapping alone. */
  lemma WellKeyedMap<V>(keyOf: V -> Key, entries: seq<Entry<V>>)
    requires Sorted(entries)
    ensures WellKeyed(keyOf, entries) <==> forall k :: k in ToMap(entries) ==> keyOf(ToMap(entries)[k]) == k
  {
    ToMapKeys(entries);
    forall i | 0 <= i < |entries|
      ensures entries[i].key in ToMap(entries) && ToMap(entries)[entries[i].key] == entries[i].value
    {
      ToMapAt(entries, i);
    }
    if WellKeyed(keyOf, entries) {
      forall k | k in ToMap(entries)
        ensures keyOf(ToMap(entries)[k]) == k
      {
        assert k in KeySet(entries);
        var i :| 0 <= i < |entries| && entries[i].key == k;
      }
    }
  }

  /** A reply that carries an entry carries it under its value's own key. */
  predicate ReplyKeyed<V>(keyOf: V -> Key, o: Out<V>)
  {
    match o
    case FindNextReply(_, Found(k, v)) => k == keyOf(v)
    case RemoveAndFindNextReply(_, _, Found(k, v)) => k == keyOf(v)
    case _ => true
  }

  /** The handlers file every value under `keyOf` of it, and the cursor
      replies read the keys they answer from the buffer, so those are the
      keys the extractor gives the answered values. */
  lemma StepKeepsWellKeyed<V>(keyOf: V -> Key, s: State<V>, m: Msg<V>)
    requires Valid(s) && s.Running? && WellKeyed(keyOf, s.entries)
    ensures var t := Step(keyOf, s, m);
      && (t.state.Running? ==> WellKeyed(keyOf, t.state.entries))
      && forall i :: 0 <= i < |t.out| ==> ReplyKeyed(keyOf, t.out[i])
  {
    var t := Step(keyOf, s, m);
    match m {
      case Add(item) =>
        if t.state.Running? && t.state.entries != s.entries {
          var r := Insert(s.entries, keyOf(item), item);
          assert t.state.entries == r;
          WellKeyedMap(keyOf, s.entries);
          forall k | k in ToMap(r)
            ensures keyOf(ToMap(r)[k]) == k
          {
            if k != keyOf(item) {
              assert k in ToMap(s.entries) && ToMap(r)[k] == ToMap(s.entries)[k];
            }
          }
          WellKeyedMap(keyOf, r);
        }
      case RemoveAndFindNext(replyTo, cursor) =>
        var r := RemoveAndFindNextIn(s.entries, cursor);
        if r.removed {
          RemoveKeyMap(s.entries, CurrentKey(s.entries, cursor));
          WellKeyedMap(keyOf, s.entries);
          WellKeyedMap(keyOf, r.entries);
        }
      case _ =>
    }
  }
}

=== FILE: event_query.dfy ===
/** The one-shot query worker (`Chain/BlockchainEventQuery.cs`): it fetches
    the logs of one fixed block range once, hands every log to its
    recipient in the order received, or a single `Empty` when there were
    none, and stops.

    The self-sent trigger is the `SelfTrigger` output; the chain call is the
    `FetchLogs` output, answered by `Result(logs)` or `Failure`. A thrown
    exception is the terminal `Failed` phase. */
module EventQuery {
  import opened Common

  datatype Phase = Fetching | Publishing | Stopped | Failed

  datatype State = State(answerTo: ActorRef, from: nat, to: nat, phase: Phase)

  datatype Msg<L> = Trigger | Result(logs: seq<L>) | Failure

  datatype Out<L> =
    | SelfTrigger
    | FetchLogs(from: nat, to: nat)
    | Tell(recipient: ActorRef, log: L)
    | Empty(recipient: ActorRef)
    | Stop

  datatype Transition<L> = Transition(state: State, out: seq<Out<L>>)

  /** The constructor: remembers the range and triggers itself once. */
  function Start<L>(answerTo: ActorRef, from: nat, to: nat): (t: Transition<L>)
    ensures t.state.phase == Fetching && t.out == [SelfTrigger]
  {
    Transition(State(answerTo, from, to, Fetching), [SelfTrigger])
  }

  /** Every log told to `to`, in list order. */
  function Tells<L>(to: ActorRef, logs: seq<L>): (out: seq<Out<L>>)
    ensures |out| == |logs| && forall i :: 0 <= i < |logs| ==> out[i] == Tell(to, logs[i])
  {
    seq(|logs|, i requires 0 <= i < |logs| => Tell(to, logs[i]))
  }

  /** What the recipient is told about a result: every log in list order,
      or one `Empty` when the list is empty. */
  function Emit<L>(to: ActorRef, logs: seq<L>): seq<Out<L>>
  {
    if |logs| == 0 then [Empty(to)] else Tells(to, logs)
  }

  /** One message in the current behaviour; unhandled messages change
      nothing. */
  function Step<L>(s: State, m: Msg<L>): Transition<L>
  {
    match s.phase
    case Fetching =>
      if m.Trigger? then Transition(s.(phase := Publishing), [FetchLogs(s.from, s.to)])
      else Transition(s, [])
    case Publishing =>
      (match m
       case Failure => Transition(s.(phase := Failed), [])
       case Result(logs) => Transition(s.(phase := Stopped), Emit(s.answerTo, logs) + [Stop])
       case Trigger => Transition(s, []))
    case Stopped => Transition(s, [])
    case Failed => Transition(s, [])
  }

  // ---------------------------------------------------------------------
  // The recipient's view.
  // ---------------------------------------------------------------------

  /** The logs a recipient collects from a series of messages. */
  function Received<L>(out: seq<Out<L>>): seq<L>
  {
    if out == [] then []
    else (if out[0].Tell? then [out[0].log] else []) + Received(out[1..])
  }

  lemma {:induction false} ReceivedAppend<L>(a: seq<Out<L>>, b: seq<Out<L>>)
    ensures Received(a + b) == Received(a) + Received(b)
    decreases |a|
  {
    if a == [] {
      assert a + b == b;
    } else {
      assert (a + b)[0] == a[0];
      assert (a + b)[1..] == a[1..] + b;
      ReceivedAppend(a[1..], b);
    }
  }

  /** Collecting what `Emit` sends gives back exactly the fetched logs, in
      order; an `Empty` is sent exactly when there were none. */
  lemma EmitRoundTrip<L>(to: ActorRef, logs: seq<L>)
    ensures Received(Emit(to, logs)) == logs
    ensures (Empty(to) in Emit(to, logs)) <==> (logs == [])
  {
    if logs != [] {
      TellsRoundTrip(to, logs);
    }
  }

  lemma {:induction false} TellsRoundTrip<L>(to: ActorRef, logs: seq<L>)
    ensures Received(Tells(to, logs)) == logs
    decreases |logs|
  {
    if logs != [] {
      var out := Tells(to, logs);
      assert out == [Tell(to, logs[0])] + Tells(to, logs[1..]);
      ReceivedAppend([Tell(to, logs[0])], Tells(to, logs[1..]));
      TellsRoundTrip(to, logs[1..]);
      assert Received([Tell(to, logs[0])]) == [logs[0]];
    }
  }

  /** A worker's whole life on success: one fetch of the fixed range, then
      the logs in order (or a single `Empty`), then it stops and ignores
      anything further. */
  lemma OneShot<L>(answerTo: ActorRef, from: nat, to: nat, logs: seq<L>, later: Msg<L>)
    ensures var t0 := Start<L>(answerTo, from, to);
      var t1 := Step<L>(t0.state, Trigger);
      var t2 := Step(t1.state, Result(logs));
      && t1.out == [FetchLogs(from, to)]
      && Step<L>(t1.state, Trigger) == Transition(t1.state, [])
      && t2.out == Emit(answerTo, logs) + [Stop]
      && Received(t2.out) == logs
      && t2.state.phase == Stopped
      && Step(t2.state, later) == Transition(t2.state, [])
  {
    EmitRoundTrip(answerTo, logs);
    ReceivedAppend(Emit(answerTo, logs), [Stop]);
  }

  /** A failed fetch sends nothing and is fatal. */
  lemma FailureSendsNothing<L>(s: State)
    requires s.phase == Publishing
    ensures Step<L>(s, Failure) == Transition(s.(phase := Failed), [])
  {
  }
}

=== FILE: event_source.dfy ===
/** The polling event source (`EventSource.cs`): on each `Tock` carrying the
    chain height it starts one query worker per topic over the blocks since
    the previous height, keeps the list of running workers, and forwards
    every log a worker reports to all subscribers.

    The height poll is the `PollHeight` output, answered by `Tock(h)`. A
    spawned worker is the `StartQuery` output; fresh worker references are
    drawn from a counter, so they never repeat. Topics and logs are type
    parameters: the source only passes them along. */
module EventSource {
  import opened Common

  /** The constructor's arguments: the topics, one worker each, and the
      actors every log goes to. */
  datatype Config<T> = Config(topics: seq<T>, subscribers: seq<ActorRef>)

  /** `last` is `_lastBlock`, `queries` is `_queryActorRefs`; `spawned`
      counts the workers created so far and names the next one. */
  datatype State = State(last: Option<nat>, queries: seq<ActorRef>, spawned: nat)

  const Init: State := State(None, [], 0)

  datatype Msg<L> =
    | Tick
    | Tock(latest: nat)
    | FilterLog(log: L)
    | RunFinished(sender: ActorRef)
    | RunCancelled(sender: ActorRef)

  datatype Out<T, L> =
    | PollHeight
    | StartQuery(worker: ActorRef, from: nat, to: nat, topic: T)
    | Forward(subscriber: ActorRef, log: L)

  datatype Transition<T, L> = Transition(state: State, out: seq<Out<T, L>>)

  /** The reference a worker gets: the `spawned` count at its creation. */
  function WorkerRef(n: nat): ActorRef
  {
    ActorRef(n)
  }

  /** No reference is listed twice. */
  predicate Distinct(xs: seq<ActorRef>)
  {
    forall i, j :: 0 <= i < j < |xs| ==> xs[i] != xs[j]
  }

  /** Every running worker was spawned by this source, and none is listed
      twice. */
  ghost predicate Valid(s: State)
  {
    && (forall w | w in s.queries :: w.id < s.spawned)
    && Distinct(s.queries)
  }

  /** `List.Remove`: drops the first occurrence of `x`, if any, keeping the
      order of the rest. In a list without repeats that is every occurrence,
      and every other element stays. */
  function RemoveFirst(xs: seq<ActorRef>, x: ActorRef): (r: seq<ActorRef>)
    ensures x !in xs ==> r == xs
    ensures x in xs ==> |r| == |xs| - 1
    ensures forall y | y in r :: y in xs
    ensures forall y | y in xs && y != x :: y in r
    ensures Distinct(xs) ==> Distinct(r) && x !in r
  {
    if xs == [] then []
    else if xs[0] == x then
      RemoveHead(xs);
      xs[1..]
    else
      var rest := RemoveFirst(xs[1..], x);
      KeepHead(xs, x, rest);
      [xs[0]] + rest
  }

  /** The first occurrence at the head: the tail is what is left. */
  lemma RemoveHead(xs: seq<ActorRef>)
    requires |xs| > 0
    ensures forall y | y in xs && y != xs[0] :: y in xs[1..]
    ensures Distinct(xs) ==> Distinct(xs[1..]) && xs[0] !in xs[1..]
  {
    if Distinct(xs) {
      forall i, j | 0 <= i < j < |xs[1..]|
        ensures xs[1..][i] != xs[1..][j]
      {
        assert xs[1..][i] == xs[i + 1] && xs[1..][j] == xs[j + 1];
      }
      forall k | 0 <= k < |xs[1..]|
        ensures xs[1..][k] != xs[0]
      {
        assert xs[1..][k] == xs[k + 1];
      }
    }
  }

  /** An occurrence further on: the head is kept in front of the tail's
      removal. */
  lemma KeepHead(xs: seq<ActorRef>, x: ActorRef, rest: seq<ActorRef>)
    requires |xs| > 0 && xs[0] != x
    requires x !in xs[1..] ==> rest == xs[1..]
    requires x in xs[1..] ==> |rest| == |xs| - 2
    requires forall y | y in rest :: y in xs[1..]
    requires forall y | y in xs[1..] && y != x :: y in rest
    requires Distinct(xs[1..]) ==> Distinct(rest) && x !in rest
    ensures var r := [xs[0]] + rest;
      && (x !in xs ==> r == xs)
      && (x in xs ==> |r| == |xs| - 1)
      && (forall y | y in r :: y in xs)
      && (forall y | y in xs && y != x :: y in r)
      && (Distinct(xs) ==> Distinct(r) && x !in r)
  {
    var r := [xs[0]] + rest;
    assert xs == [xs[0]] + xs[1..];
    if Distinct(xs) {
      RemoveHead(xs);
      forall i, j | 0 <= i < j < |r|
        ensures r[i] != r[j]
      {
        assert r[j] == rest[j - 1];
        if i > 0 {
          assert r[i] == rest[i - 1];
        }
      }
    }
  }

  /** One `StartQuery` per topic, in topic order, over [from, to]; the
      workers are numbered from `first`. */
  function Spawn<T, L>(topics: seq<T>, first: nat, from: nat, to: nat): (out: seq<Out<T, L>>)
    ensures |out| == |topics|
    ensures forall i :: 0 <= i < |topics| ==> out[i] == StartQuery(WorkerRef(first + i), from, to, topics[i])
  {
    seq(|topics|, i requires 0 <= i < |topics| => StartQuery(WorkerRef(first + i), from, to, topics[i]))
  }

  /** The references of the workers `Spawn` creates. */
  function NewWorkers(first: nat, count: nat): (r: seq<ActorRef>)
    ensures |r| == count
    ensures forall i :: 0 <= i < count ==> r[i] == WorkerRef(first + i)
  {
    seq(count, i requires 0 <= i < count => WorkerRef(first + i))
  }

  /** One message. */
  function Step<T, L>(c: Config<T>, s: State, m: Msg<L>): (t: Transition<T, L>)
    requires Valid(s)
    ensures Valid(t.state)
  {
    match m
    case Tick => Transition(s, [PollHeight])
    case Tock(latest) =>
      if s.last.None? then Transition(s.(last := Some(latest)), [])
      else if s.last == Some(latest) then Transition(s, [])
      else
        var added := NewWorkers(s.spawned, |c.topics|);
        Transition(State(Some(latest), s.queries + added, s.spawned + |c.topics|),
                   Spawn(c.topics, s.spawned, s.last.value, latest))
    case FilterLog(log) =>
      Transition(s, seq(|c.subscribers|, i requires 0 <= i < |c.subscribers| => Forward(c.subscribers[i], log)))
    case RunFinished(sender) => Transition(s.(queries := RemoveFirst(s.queries, sender)), [])
    case RunCancelled(sender) => Transition(s.(queries := RemoveFirst(s.queries, sender)), [])
  }

  // ---------------------------------------------------------------------
  // Properties.
  // ---------------------------------------------------------------------

  /** The first `Tock` only records the height as the baseline. */
  lemma FirstTockIsBaseline<T, L>(c: Config<T>, s: State, latest: nat)
    requires Valid(s) && s.last.None?
    ensures Step<T, L>(c, s, Tock(latest)) == Transition(s.(last := Some(latest)), [])
  {
  }

  /** Once a baseline exists, a `Tock` starts workers exactly when the
      height changed: one per topic, each over [previous height, new height]
      with the previous height included, all of them added to the running
      list; the new height becomes the baseline. */
  lemma TockQueriesSinceLastHeight<T, L>(c: Config<T>, s: State, latest: nat)
    requires Valid(s) && s.last.Some?
    ensures var t := Step<T, L>(c, s, Tock(latest));
      && t.state.last == Some(latest)
      && (latest == s.last.value ==> t == Transition(s, []))
      && (latest != s.last.value ==>
            && |t.out| == |c.topics|
            && (forall i :: 0 <= i < |c.topics| ==>
                  t.out[i] == StartQuery(WorkerRef(s.spawned + i), s.last.value, latest, c.topics[i]))
            && |t.state.queries| == |s.queries| + |c.topics|
            && t.state.queries[..|s.queries|] == s.queries
            && (forall i :: 0 <= i < |c.topics| ==> t.state.queries[|s.queries| + i] == t.out[i].worker))
  {
  }

  /** A finished or cancelled worker leaves the running list, and no other
      worker does. */
  lemma WorkerEndRemovesOnlyIt<T, L>(c: Config<T>, s: State, sender: ActorRef, cancelled: bool)
    requires Valid(s)
    ensures var t := Step<T, L>(c, s, if cancelled then RunCancelled(sender) else RunFinished(sender));
      && t.out == []
      && sender !in t.state.queries
      && (forall w | w in s.queries && w != sender :: w in t.state.queries)
      && (forall w | w in t.state.queries :: w in s.queries)
  {
  }

  /** A log reaches every subscriber once, in subscription order, and
      nothing else changes. */
  lemma LogFansOut<T, L>(c: Config<T>, s: State, log: L)
    requires Valid(s)
    ensures var t := Step<T, L>(c, s, FilterLog(log));
      && t.state == s
      && |t.out| == |c.subscribers|
      && (forall i :: 0 <= i < |c.subscribers| ==> t.out[i] == Forward(c.subscribers[i], log))
  {
  }

  /** Two height changes in a row query ranges that share a block: the
      second range starts at the block the first one ended with. */
  lemma ConsecutiveRangesShareABlock<T, L>(c: Config<T>, s: State, h1: nat, h2: nat)
    requires Valid(s) && s.last.Some? && |c.topics| > 0
    requires h1 != s.last.value && h2 != h1
    ensures var t1 := Step<T, L>(c, s, Tock(h1));
      var t2 := Step<T, L>(c, t1.state, Tock(h2));
      && t1.out[0].StartQuery? && t2.out[0].StartQuery?
      && t1.out[0].to == h1 == t2.out[0].from
  {
  }
}

=== FILE: event_to_call.dfy ===
/** Turning chain events into pathfinder commands. Both feeders in
    `Pathfinder/` use the guarded mapping `EventToCall`: a signup needs a user
    and a token, an organisation signup an organisation, a trust a
    `canSendTo` and a user, a transfer nothing; anything else is an
    `ArgumentException`. The older feeder in `Actors/` maps the four kinds
    without guards and ignores anything else. In both, the trust limit goes
    through `Int32.Parse(limit.ToString())`, which overflows outside the
    32-bit range, and a transfer's value is sent as its decimal text with
    the emitting contract's address as the token. */
module EventToCall {
  import opened Common
  import opened Events
  import Decimal
  import Rpc = RpcMessage
  import Consumer

  /** The two exceptions a mapping can throw. */
  datatype CallError = UnknownType | LimitOverflow

  datatype Result<T> = Ok(value: T) | Fail(error: CallError)

  /** The trust limit as `Int32.Parse(limit.ToString())` sees it. */
  function LimitPercentage(limit: int): (r: Result<int>)
    ensures r.Ok? <==> Decimal.InInt32(limit)
    ensures r.Ok? ==> r.value == limit
    ensures r.Fail? ==> r.error == LimitOverflow
  {
    Decimal.ParseRender(limit);
    match Decimal.ParseInt32(Decimal.Render(limit))
    case Some(l) => Ok(l)
    case None => Fail(LimitOverflow)
  }

  /** The guarded `EventToCall` of `Pathfinder/Feeder.cs` and
      `Pathfinder/PathfinderFeeder.cs`; a failed guard falls through to the
      `ArgumentException`. */
  function ToCommand(log: EventLog): Result<Rpc.Command>
  {
    match log.payload
    case Signup(user, token) =>
      if user.Some? && token.Some? then Ok(Rpc.Signup(user, token)) else Fail(UnknownType)
    case OrganizationSignup(organization) =>
      if organization.Some? then Ok(Rpc.OrganizationSignup(organization)) else Fail(UnknownType)
    case Trust(canSendTo, user, limit) =>
      if canSendTo.Some? && user.Some? then
        (match LimitPercentage(limit)
         case Ok(l) => Ok(Rpc.Trust(canSendTo, user, l))
         case Fail(e) => Fail(e))
      else Fail(UnknownType)
    case Transfer(from, to, value) =>
      Ok(Rpc.Transfer(log.address, from, to, Some(Decimal.Render(value))))
    case Other => Fail(UnknownType)
  }

  /** When the guarded mapping succeeds. */
  predicate Mappable(log: EventLog)
  {
    match log.payload
    case Signup(user, token) => user.Some? && token.Some?
    case OrganizationSignup(organization) => organization.Some?
    case Trust(canSendTo, user, limit) => canSendTo.Some? && user.Some? && Decimal.InInt32(limit)
    case Transfer(_, _, _) => true
    case Other => false
  }

  /** The event a command describes, read back from the command's own
      fields; the transfer's address comes back from its token. */
  function ToEvent(block: nat, logIndex: nat, c: Rpc.Command): Option<EventLog>
  {
    match c
    case Signup(user, token) => Some(EventLog(block, logIndex, None, Signup(user, token)))
    case OrganizationSignup(organization) =>
      Some(EventLog(block, logIndex, None, OrganizationSignup(organization)))
    case Trust(canSendTo, user, limit) => Some(EventLog(block, logIndex, None, Trust(canSendTo, user, limit)))
    case Transfer(token, from, to, value) =>
      if value.Some? && Decimal.ParseInt(value.value).Some? then
        Some(EventLog(block, logIndex, token, Transfer(from, to, Decimal.ParseInt(value.value).value)))
      else None
    case _ => None
  }

  /** The guarded mapping succeeds exactly on mappable events, fails with
      an overflow exactly on a guarded trust whose limit is out of range,
      and otherwise with the unknown-type exception. */
  lemma ToCommandSucceedsIff(log: EventLog)
    ensures ToCommand(log).Ok? <==> Mappable(log)
    ensures ToCommand(log) == Fail(LimitOverflow) <==>
      (log.payload.Trust? && log.payload.canSendTo.Some? && log.payload.user.Some?
       && !Decimal.InInt32(log.payload.limit))
  {
  }

  /** A successful mapping loses nothing the pathfinder is told about: the
      command gives back the event's data (and, for a transfer, the
      contract address), apart from the address of the other kinds, which
      is not sent. */
  lemma ToCommandKeepsEventData(log: EventLog)
    requires ToCommand(log).Ok?
    ensures var e := ToEvent(log.block, log.logIndex, ToCommand(log).value);
      && e.Some?
      && e.value.payload == log.payload
      && (log.payload.Transfer? ==> e.value == log)
  {
    if log.payload.Transfer? {
      Decimal.ParseRender(log.payload.value);
    }
  }

  /** The unguarded mapping of the older feeder's `Unrolling` behaviour:
      every known kind is sent, with null fields passed on as JSON nulls;
      other kinds are ignored (`None`). */
  function LegacyToCommand(log: EventLog): Result<Option<Rpc.Command>>
  {
    match log.payload
    case Signup(user, token) => Ok(Some(Rpc.Signup(user, token)))
    case OrganizationSignup(organization) => Ok(Some(Rpc.OrganizationSignup(organization)))
    case Trust(canSendTo, user, limit) =>
      (match LimitPercentage(limit)
       case Ok(l) => Ok(Some(Rpc.Trust(canSendTo, user, l)))
       case Fail(e) => Fail(e))
    case Transfer(from, to, value) => Ok(Some(Rpc.Transfer(log.address, from, to, Some(Decimal.Render(value)))))
    case Other => Ok(None)
  }

  /** The two mappings agree wherever the guarded one succeeds and both
      overflow on the same limits; they differ only where a guard fails
      (the older one then sends nulls) and on unknown kinds (which the
      older one skips). */
  lemma LegacyAgreesWhereGuarded(log: EventLog)
    ensures ToCommand(log).Ok? ==> LegacyToCommand(log) == Ok(Some(ToCommand(log).value))
    ensures LegacyToCommand(log) == Fail(LimitOverflow) <==>
      (log.payload.Trust? && !Decimal.InInt32(log.payload.limit))
    ensures ToCommand(log) == Fail(UnknownType) ==>
      (if IsKnown(log.payload) then LegacyToCommand(log).Ok? ==> LegacyToCommand(log).value.Some?
       else LegacyToCommand(log) == Ok(None))
  {
  }

  /** What the consumer sink of both `Pathfinder/` feeders does with one
      payload: map it, `Ask` the pathfinder with the command (`call`), and
      complete with `true`; a failed mapping throws inside the async sink,
      which the consumer receives as `Status.Failure`. The pathfinder's
      reply is awaited but not looked at. */
  datatype SinkRun = SinkRun(call: Option<Rpc.Command>, answer: Consumer.Msg<EventLog>)

  function Sink(log: EventLog): SinkRun
  {
    match ToCommand(log)
    case Ok(c) => SinkRun(Some(c), Consumer.SinkDone(true))
    case Fail(_) => SinkRun(None, Consumer.SinkFailure)
  }

  /** The sink never asks the consumer to cancel: it accepts exactly the
      mappable events, each after sending its command, and fails on every
      other one without sending anything. */
  lemma SinkNeverCancels(log: EventLog)
    ensures Sink(log).answer != Consumer.SinkDone(false)
    ensures Sink(log).answer == Consumer.SinkDone(true) <==> Mappable(log)
    ensures Sink(log).answer == Consumer.SinkFailure <==> !Mappable(log)
    ensures Sink(log).call.Some? <==> Mappable(log)
    ensures Sink(log).call.Some? ==>
      ToEvent(log.block, log.logIndex, Sink(log).call.value).value.payload == log.payload
  {
    ToCommandSucceedsIff(log);
    if ToCommand(log).Ok? {
      ToCommandKeepsEventData(log);
    }
  }

  /** The commands the sink sends for a run of payloads, in order. */
  function Commands(logs: seq<EventLog>): seq<Rpc.Command>
  {
    if logs == [] then []
    else
      var run := Sink(logs[0]);
      (if run.call.Some? then [run.call.value] else []) + Commands(logs[1..])
  }

  /** A run of mappable payloads sends one command per payload, in payload
      order, each the mapping of its payload. */
  lemma {:induction false} CommandsOfMappable(logs: seq<EventLog>)
    requires forall i :: 0 <= i < |logs| ==> Mappable(logs[i])
    ensures |Commands(logs)| == |logs|
    ensures forall i :: 0 <= i < |logs| ==> ToCommand(logs[i]) == Ok(Commands(logs)[i])
    decreases |logs|
  {
    if logs != [] {
      ToCommandSucceedsIff(logs[0]);
      CommandsOfMappable(logs[1..]);
      forall i | 0 <= i < |logs|
        ensures ToCommand(logs[i]) == Ok(Commands(logs)[i])
      {
        if i > 0 {
          assert logs[1..][i - 1] == logs[i];
          ToCommandSucceedsIff(logs[i]);
        }
      }
    }
  }
}

=== FILE: events.dfy ===
/** The chain events that flow through the pipeline: Nethereum's
    `EventLog<TDto>` for the four Circles hub events, reduced to the fields
    the pipeline reads. Address fields are nullable strings in the DTOs, so
    they are `Option<string>` here. */
module Events {
  import opened Common

  /** The decoded event data (`SignupEventDTO`, `OrganizationSignupEventDTO`,
      `TrustEventDTO`, `TransferEventDTO`); `Other` is any other event type. */
  datatype Payload =
    | Signup(user: Option<string>, token: Option<string>)
    | OrganizationSignup(organization: Option<string>)
    | Trust(canSendTo: Option<string>, user: Option<string>, limit: int)
    | Transfer(from: Option<string>, to: Option<string>, value: int)
    | Other

  /** One log: its position in the chain, the emitting contract's address
      (`Log.Address`) and the decoded event. */
  datatype EventLog = EventLog(block: nat, logIndex: nat, address: Option<string>, payload: Payload)

  /** The key extractor both buffers are built with: (block number, log index). */
  function KeyOf(e: EventLog): Key
  {
    Key(e.block, e.logIndex)
  }

  /** The event types the buffers collect and the feeders translate. */
  predicate IsKnown(p: Payload)
  {
    !p.Other?
  }
}

=== FILE: feed.dfy ===
/** The sending end of a pull session (`Feed/Feed.cs`): a state machine that
    offers its modes, accepts the consumer's choice, calls its item factory
    once per `Next` (or `Continue`), forwards each item, and says goodbye at
    the end of the data.

    Timers are explicit messages (`ConnectTimeout`, `ContinueTimeout`) that
    the environment delivers only when the matching timeout is configured;
    the asynchronous factory call is the `InvokeFactory` output, answered by
    a `FactoryDone` or `FactoryFailure` message. A thrown exception is the
    terminal `Failed` phase. Entering the source's `Eof` behaviour sends
    `Goodbye(Eof)` and closes at once, so it is part of the transition that
    reaches it rather than a resting phase. */
module Feed {
  import opened Common
  import opened FeedProtocol

  /** The constructor's parameters; the two timeouts are only "set or not". */
  datatype Config = Config(consumer: ActorRef, supported: FeedMode, connectTimeout: bool, continueTimeout: bool)

  /** The exceptions the actor throws. */
  datatype Error =
    | ContinueTimeoutNeedsInfinite
    | ConnectTimedOut
    | NotAReceiver
    | ModeNotSupported
    | FactoryFailed
    | ContinueTimedOut

  datatype Phase = Connecting | Connected | WaitForFactory | WaitForContinue | Closed | Failed(error: Error)

  /** `handshake` is the list of Hellos passed to the factory; `processed`
      is `_processedItemCount`. */
  datatype State = State(config: Config, phase: Phase, handshake: seq<Hello>,
                         negotiated: Option<FeedMode>, processed: nat)

  datatype Msg<P> =
    | ConsumerHello(hello: Hello)
    | Next
    | Continue
    | ConsumerGoodbye(reason: GoodbyeReason)
    | FactoryDone(result: FactoryResult<P>)
    | FactoryFailure
    | ConnectTimeout
    | ContinueTimeout

  datatype Out<P> =
    | SendHello(to: ActorRef, hello: Hello)
    | SendPayload(to: ActorRef, payload: P)
    | SendGoodbye(to: ActorRef, reason: GoodbyeReason)
    | InvokeFactory(handshake: seq<Hello>)
    | Stop

  datatype Transition<P> = Transition(state: State, out: seq<Out<P>>)

  /** A session phase in which the mode has been negotiated. */
  predicate Negotiated(p: Phase)
  {
    p.Connected? || p.WaitForFactory? || p.WaitForContinue?
  }

  /** What the handlers maintain: the own Hello heads the handshake; once
      connected the consumer's Hello follows it and its mode is the
      negotiated one, a subset of the supported modes; the feed only waits
      for `Continue` in a mode with the Infinite flag; and a continue
      timeout is only configured for a feed that supports Infinite. */
  ghost predicate Valid(s: State)
  {
    !s.phase.Failed? ==>
      && |s.handshake| >= 1
      && s.handshake[0] == Hello(Sender, s.config.supported)
      && (s.config.continueTimeout ==> HasFlag(s.config.supported, Infinite))
      && (s.phase.Connecting? ==> |s.handshake| == 1 && s.negotiated.None?)
      && (Negotiated(s.phase) ==>
            && |s.handshake| == 2
            && s.negotiated.Some?
            && s.handshake[1] == Hello(Receiver, s.negotiated.value)
            && HasFlag(s.config.supported, s.negotiated.value))
      && (s.phase.WaitForContinue? ==> HasFlag(s.negotiated.value, Infinite))
  }

  /** The constructor: a continue timeout without Infinite support is
      refused; otherwise the Hello is sent and recorded, and the feed
      connects. */
  function Start<P>(config: Config): (t: Transition<P>)
    ensures Valid(t.state)
    ensures t.state.phase.Failed? <==> config.continueTimeout && !HasFlag(config.supported, Infinite)
  {
    if config.continueTimeout && !HasFlag(config.supported, Infinite) then
      Transition(State(config, Failed(ContinueTimeoutNeedsInfinite), [], None, 0), [])
    else
      var hello := Hello(Sender, config.supported);
      Transition(State(config, Connecting, [hello], None, 0), [SendHello(config.consumer, hello)])
  }

  /** Entering `Closed` stops the actor. */
  function Close<P>(s: State, out: seq<Out<P>>): Transition<P>
  {
    Transition(s.(phase := Closed), out + [Stop])
  }

  /** One message in the current behaviour. A message the behaviour has no
      handler for is unhandled: nothing changes. */
  function Step<P>(s: State, m: Msg<P>): (t: Transition<P>)
    requires Valid(s)
    ensures Valid(t.state)
  {
    var consumer := s.config.consumer;
    match s.phase
    case Connecting =>
      (match m
       case ConnectTimeout => Transition(s.(phase := Failed(ConnectTimedOut)), [])
       case ConsumerHello(hello) =>
         if hello.side != Receiver then Transition(s.(phase := Failed(NotAReceiver)), [])
         else if !HasFlag(s.config.supported, hello.mode) then Transition(s.(phase := Failed(ModeNotSupported)), [])
         else Transition(s.(phase := Connected, negotiated := Some(hello.mode),
                            handshake := s.handshake + [hello]), [])
       case ConsumerGoodbye(_) => Close(s, [])
       case _ => Transition(s, []))
    case Connected =>
      (match m
       case Next => Transition(s.(phase := WaitForFactory), [InvokeFactory(s.handshake)])
       case ConsumerGoodbye(_) => Close(s, [])
       case _ => Transition(s, []))
    case WaitForFactory =>
      (match m
       case FactoryDone(EndOfData) =>
         if s.negotiated.Some? && HasFlag(s.negotiated.value, Infinite) then
           Transition(s.(phase := WaitForContinue), [])
         else
           Close(s, [SendGoodbye(consumer, Eof)])
       case FactoryDone(Item(payload)) =>
         Transition(s.(phase := Connected, processed := s.processed + 1), [SendPayload(consumer, payload)])
       case FactoryFailure => Transition(s.(phase := Failed(FactoryFailed)), [])
       case ConsumerGoodbye(_) => Close(s, [])
       case _ => Transition(s, []))
    case WaitForContinue =>
      (match m
       case Continue => Transition(s.(phase := WaitForFactory), [InvokeFactory(s.handshake)])
       case ContinueTimeout =>
         Transition(s.(phase := Failed(ContinueTimedOut)), [SendGoodbye(consumer, Error)])
       case ConsumerGoodbye(_) => Close(s, [])
       case _ => Transition(s, []))
    case Closed => Transition(s, [])
    case Failed(_) => Transition(s, [])
  }

  // ---------------------------------------------------------------------
  // Properties.
  // ---------------------------------------------------------------------

  /** A started feed has sent exactly one message, its Hello with the
      supported modes, which is also the first handshake entry. */
  lemma StartSendsOneHello<P>(config: Config)
    requires !config.continueTimeout || HasFlag(config.supported, Infinite)
    ensures var t := Start<P>(config);
      && t.state.phase == Connecting
      && t.out == [SendHello(config.consumer, Hello(Sender, config.supported))]
      && t.state.handshake == [Hello(Sender, config.supported)]
      && t.state.negotiated.None?
  {
  }

  /** The consumer's Hello is accepted exactly when it comes from a
      receiver and chooses a mode the feed supports; the choice becomes the
      negotiated mode and the second handshake entry. Rejections are fatal. */
  lemma ConsumerHelloNegotiates<P>(s: State, hello: Hello)
    requires Valid(s) && s.phase == Connecting
    ensures var t := Step<P>(s, ConsumerHello(hello));
      && t.out == []
      && (t.state.phase == Connected <==> hello.side == Receiver && HasFlag(s.config.supported, hello.mode))
      && (t.state.phase == Connected ==>
            t.state.negotiated == Some(hello.mode) && t.state.handshake == s.handshake + [hello])
      && (t.state.phase != Connected ==> t.state.phase.Failed?)
  {
  }

  /** The factory is called only for a `Next` while connected or a
      `Continue` while waiting for one, never twice in a row: a `Next`
      arriving while the factory runs is unhandled. */
  lemma FactoryOnlyOnDemand<P>(s: State, m: Msg<P>)
    requires Valid(s)
    ensures var t := Step(s, m);
      (exists h :: InvokeFactory(h) in t.out)
        <==> (s.phase == Connected && m.Next?) || (s.phase == WaitForContinue && m.Continue?)
    ensures s.phase == WaitForFactory && m.Next? ==> Step(s, m) == Transition(s, [])
  {
    var t := Step(s, m);
    if (s.phase == Connected && m.Next?) || (s.phase == WaitForContinue && m.Continue?) {
      assert t.out[0] == InvokeFactory(s.handshake);
    }
  }

  /** An item from the factory is forwarded to the consumer, alone and once;
      the processed count goes up by one and the feed awaits the next
      `Next`. */
  lemma ItemForwarded<P>(s: State, payload: P)
    requires Valid(s) && s.phase == WaitForFactory
    ensures Step(s, FactoryDone(Item(payload)))
      == Transition(s.(phase := Connected, processed := s.processed + 1),
                    [SendPayload(s.config.consumer, payload)])
  {
  }

  /** End of data: the feed waits for `Continue` exactly when the
      negotiated mode has the Infinite flag; otherwise it says
      `Goodbye(Eof)` and closes. */
  lemma EndOfDataBranches<P>(s: State)
    requires Valid(s) && s.phase == WaitForFactory
    ensures var t := Step<P>(s, FactoryDone(EndOfData));
      && (t.state.phase == WaitForContinue <==> HasFlag(s.negotiated.value, Infinite))
      && (t.state.phase == WaitForContinue ==> t.out == [])
      && (t.state.phase != WaitForContinue ==>
            t.state.phase == Closed && t.out == [SendGoodbye(s.config.consumer, Eof), Stop])
  {
  }

  /** A feed that supports only Finite never waits for `Continue`: every
      end of data closes it. */
  lemma FiniteFeedClosesAtEndOfData<P>(s: State)
    requires Valid(s) && s.config.supported == Finite && s.phase == WaitForFactory
    ensures Step<P>(s, FactoryDone(EndOfData)).state.phase == Closed
  {
    assert InfiniteFlag !in s.negotiated.value;
  }

  /** The connect timeout is fatal while connecting; the continue timeout
      sends `Goodbye(Error)` first and is then fatal. */
  lemma TimeoutsAreFatal<P>(s: State)
    requires Valid(s)
    ensures s.phase == Connecting ==>
      Step<P>(s, ConnectTimeout) == Transition(s.(phase := Failed(ConnectTimedOut)), [])
    ensures s.phase == WaitForContinue ==>
      Step<P>(s, ContinueTimeout)
        == Transition(s.(phase := Failed(ContinueTimedOut)), [SendGoodbye(s.config.consumer, Error)])
  {
  }

  /** A consumer's Goodbye, whatever its reason, closes the feed from every
      phase before `Closed`; a factory failure is fatal, not retried. */
  lemma GoodbyeCloses<P>(s: State, reason: GoodbyeReason)
    requires Valid(s) && (s.phase.Connecting? || Negotiated(s.phase))
    ensures Step<P>(s, ConsumerGoodbye(reason)) == Transition(s.(phase := Closed), [Stop])
    ensures s.phase == WaitForFactory ==>
      Step<P>(s, FactoryFailure) == Transition(s.(phase := Failed(FactoryFailed)), [])
  {
  }
}

=== FILE: feed_drain.dfy ===
/** What a Finite feed started by `FeedToActor` pulls out of the buffer: the
    item factory called over and over, each call answered by the buffer's
    `FindNext` / `RemoveAndFindNext` handler, with no insert in between.

    The handlers as written skip the smallest entry (an unset cursor stands
    for the smallest key, and the answer is the entry AFTER it) and, when
    consuming, never remove the largest entry (the removal is skipped when
    there is no successor). `Intended` handlers — the successor of the
    cursor, the smallest entry for an unset cursor, and removal of the
    cursor entry even at the end — deliver and consume everything. */
module FeedDrain {
  import opened Common
  import opened SortedEntries
  import opened FeedProtocol
  import opened EventBuffer

  /** The smallest entry above the cursor, or the smallest entry when the
      cursor is unset: `FindNext` as its comments and callers intend it. */
  function NextAfter<V>(entries: seq<Entry<V>>, cursor: Option<Key>): (r: Lookup<V>)
    requires Sorted(entries)
    ensures cursor.Some? ==> IsSuccessor(entries, cursor.value, r)
    ensures cursor.None? ==> r == (if |entries| == 0 then EndOfBuffer else Found(entries[0].key, entries[0].value))
    decreases |entries|
  {
    if |entries| == 0 then EndOfBuffer
    else if cursor.None? || Less(cursor.value, entries[0].key) then Found(entries[0].key, entries[0].value)
    else NextAfter(entries[1..], cursor)
  }

  /** `RemoveAndFindNext` as intended: remove the cursor entry whenever it is
      stored (also at the end) and answer the cursor's successor. */
  function RemoveAndNextAfter<V>(entries: seq<Entry<V>>, cursor: Option<Key>): (r: Removal<V>)
    requires Sorted(entries)
    ensures Sorted(r.entries)
    ensures r.removed <==> cursor.Some? && cursor.value in KeySet(entries)
    ensures cursor.Some? ==> r.entries == RemoveKey(entries, cursor.value)
    ensures cursor.None? ==> r.entries == entries
    ensures r.response == NextAfter(entries, cursor)
  {
    var rest := if cursor.Some? then RemoveKey(entries, cursor.value) else entries;
    Removal(cursor.Some? && cursor.value in KeySet(entries), NextAfter(entries, cursor), rest)
  }

  /** In a sorted buffer a key has exactly one successor answer. */
  lemma SuccessorUnique<V>(entries: seq<Entry<V>>, k: Key, r1: Lookup<V>, r2: Lookup<V>)
    requires Sorted(entries)
    requires IsSuccessor(entries, k, r1) && IsSuccessor(entries, k, r2)
    ensures r1 == r2
  {
    if r1.Found? && r2.Found? {
      var i :| 0 <= i < |entries| && entries[i] == Entry(r1.key, r1.value);
      var j :| 0 <= j < |entries| && entries[j] == Entry(r2.key, r2.value);
      assert r1.key == r2.key;
      IndexOfSorted(entries, i);
      IndexOfSorted(entries, j);
    }
  }

  /** For a stored cursor key the handler as written and the intended one
      agree: both answer the successor. */
  lemma FindNextAgreesOnStoredCursor<V>(entries: seq<Entry<V>>, i: nat)
    requires Sorted(entries) && i < |entries|
    ensures FindNextIn(entries, Some(entries[i].key)) == NextAfter(entries, Some(entries[i].key))
  {
    FindNextFromStoredKey(entries, i);
    SuccessorUnique(entries, entries[i].key,
      FindNextIn(entries, Some(entries[i].key)), NextAfter(entries, Some(entries[i].key)));
  }

  /** Which cursor handlers answer the factory. */
  datatype Handlers = AsWritten | Intended

  /** One factory request served by the buffer: the answer and the buffer
      afterwards. */
  function Serve<V>(h: Handlers, entries: seq<Entry<V>>, c: Cursor): (r: Removal<V>)
    requires Sorted(entries)
    ensures Sorted(r.entries)
    ensures !c.consume ==> r.entries == entries
  {
    match h
    case AsWritten =>
      if c.consume then RemoveAndFindNextIn(entries, c.lastProcessed)
      else Removal(false, FindNextIn(entries, c.lastProcessed), entries)
    case Intended =>
      if c.consume then RemoveAndNextAfter(entries, c.lastProcessed)
      else Removal(false, NextAfter(entries, c.lastProcessed), entries)
  }

  /** The as-written `Serve` is exactly what the buffer actor does with the
      factory's request message. */
  lemma ServeIsBufferStep<V>(keyOf: V -> Key, s: State<V>, c: Cursor, me: ActorRef)
    requires Valid(s) && s.Running?
    ensures var t := Step(keyOf, s, FactoryRequest(c, me));
      var r := Serve(AsWritten, s.entries, c);
      && t.state == s.(entries := r.entries)
      && |t.out| == 1
      && (c.consume ==> t.out[0] == RemoveAndFindNextReply(me, r.removed, r.response))
      && (!c.consume ==> t.out[0] == FindNextReply(me, r.response))
  {
  }

  /** What a sequence of factory calls produced: the payloads the feed sent,
      the buffer left behind, and whether the factory signalled EOF. */
  datatype DrainResult<V> = DrainResult(delivered: seq<V>, remaining: seq<Entry<V>>, finished: bool)

  /** A buffer's answer to one factory request, as a function of the buffer
      contents and the factory's cursor. */
  type Server<!V> = (seq<Entry<V>>, Cursor) -> Removal<V>

  /** The buffer actor with the given handlers, seen as a `Server`. The
      buffer is always sorted; an unsorted argument never arises. */
  ghost function Handler<V>(h: Handlers): Server<V>
  {
    (e: seq<Entry<V>>, c: Cursor) => if Sorted(e) then Serve(h, e, c) else Removal(false, EndOfBuffer, e)
  }

  /** At most `calls` factory calls against the buffer, stopping at the
      first EOF; `boundary` is the feed boundary the factory compares with. */
  ghost function Drain<V>(serve: Server<V>, entries: seq<Entry<V>>, boundary: Option<Key>, c: Cursor, calls: nat): (r: DrainResult<V>)
    ensures |r.delivered| <= calls
    decreases calls
  {
    if calls == 0 then DrainResult([], entries, false)
    else
      var served := serve(entries, c);
      var answer := FactoryAnswer(c, served.response, boundary);
      if answer.0.EndOfData? then DrainResult([], served.entries, true)
      else
        var rest := Drain(serve, served.entries, boundary, answer.1, calls - 1);
        DrainResult([answer.0.payload] + rest.delivered, rest.remaining, rest.finished)
  }

  /** The boundary a Finite feed captures: the largest key, if any. */
  function BoundaryOf<V>(entries: seq<Entry<V>>): Option<Key>
  {
    if |entries| == 0 then None else Some(entries[|entries| - 1].key)
  }

  /** The answer to a request whose cursor is the `i`-th stored key: the
      next entry, or EOF after the last. */
  function NextOf<V>(entries: seq<Entry<V>>, i: nat): Lookup<V>
  {
    if i + 1 < |entries| then Found(entries[i + 1].key, entries[i + 1].value) else EndOfBuffer
  }

  /** The server's answer to a non-consuming request at the `j`-th key. */
  ghost function ReadAt<V>(serve: Server<V>, entries: seq<Entry<V>>, j: nat): Removal<V>
    requires j < |entries|
  {
    serve(entries, Cursor(Some(entries[j].key), false))
  }

  /** The server's answer to a consuming request at the `j`-th key, made
      when the entries before it are gone. */
  ghost function ConsumeAt<V>(serve: Server<V>, entries: seq<Entry<V>>, j: nat): Removal<V>
    requires j < |entries|
  {
    serve(entries[j..], Cursor(Some(entries[j].key), true))
  }

  /** A non-consuming server that answers each stored cursor key from `from`
      on with the next entry and leaves the buffer alone. */
  ghost predicate ReadsSuccessors<V>(serve: Server<V>, entries: seq<Entry<V>>, from: nat)
  {
    forall j {:trigger ReadAt(serve, entries, j)} :: from <= j < |entries| ==>
      && ReadAt(serve, entries, j).response == NextOf(entries, j)
      && ReadAt(serve, entries, j).entries == entries
  }

  /** A consuming server that, on each suffix starting at the cursor key,
      answers the next entry and removes the cursor entry, except that at
      the last entry it removes nothing when `keepsLast`. */
  ghost predicate ConsumesSuccessors<V>(serve: Server<V>, entries: seq<Entry<V>>, keepsLast: bool)
  {
    forall j {:trigger ConsumeAt(serve, entries, j)} :: 0 <= j < |entries| ==>
      && ConsumeAt(serve, entries, j).response == NextOf(entries, j)
      && ConsumeAt(serve, entries, j).entries
           == if keepsLast && j + 1 == |entries| then entries[j..] else entries[j + 1..]
  }

  lemma NotAboveLast<V>(entries: seq<Entry<V>>, i: nat)
    requires Sorted(entries) && i < |entries|
    ensures !Less(entries[|entries| - 1].key, entries[i].key)
  {
    if i < |entries| - 1 {
      assert Less(entries[i].key, entries[|entries| - 1].key);
    }
  }

  /** The answer each handler gives for a stored cursor key. */
  lemma ServeAtStoredKey<V>(h: Handlers, entries: seq<Entry<V>>, i: nat, consume: bool)
    requires Sorted(entries) && i < |entries|
    ensures var r := Serve(h, entries, Cursor(Some(entries[i].key), consume));
      && r.response == NextOf(entries, i)
      && (consume && (h == Intended || i + 1 < |entries|) ==> r.entries == entries[..i] + entries[i + 1..])
      && (consume && h == AsWritten && i + 1 == |entries| ==> r.entries == entries)
  {
    FindNextAgreesOnStoredCursor(entries, i);
    FindNextFromStoredKey(entries, i);
    RemoveAtIndex(entries, i);
    assert entries[i].key in KeySet(entries);
    if i + 1 < |entries| {
      RemoveAndFindNextBelowLastKey(entries, i);
    } else {
      RemoveAndFindNextAtLastKey(entries);
    }
  }

  /** Both handlers read successors in a sorted buffer. */
  lemma HandlersReadSuccessors<V>(h: Handlers, entries: seq<Entry<V>>)
    requires Sorted(entries)
    ensures ReadsSuccessors(Handler(h), entries, 0)
  {
    forall j | 0 <= j < |entries|
      ensures ReadAt(Handler(h), entries, j).response == NextOf(entries, j)
      ensures ReadAt(Handler(h), entries, j).entries == entries
    {
      ServeAtStoredKey(h, entries, j, false);
    }
  }

  /** Both handlers consume successors in a sorted buffer; only the handler
      as written keeps the last entry. */
  lemma HandlersConsumeSuccessors<V>(h: Handlers, entries: seq<Entry<V>>)
    requires Sorted(entries)
    ensures ConsumesSuccessors(Handler(h), entries, h == AsWritten)
  {
    forall j | 0 <= j < |entries|
      ensures var r := ConsumeAt(Handler(h), entries, j);
        && r.response == NextOf(entries, j)
        && r.entries == if h == AsWritten && j + 1 == |entries| then entries[j..] else entries[j + 1..]
    {
      var suffix := entries[j..];
      assert Sorted(suffix);
      ServeAtStoredKey(h, suffix, 0, true);
      assert suffix[0] == entries[j];
      assert NextOf(suffix, 0) == NextOf(entries, j);
      assert suffix[..0] + suffix[1..] == entries[j + 1..];
    }
  }

  lemma ConsumesSuccessorsTail<V>(serve: Server<V>, entries: seq<Entry<V>>, keepsLast: bool)
    requires |entries| > 0 && ConsumesSuccessors(serve, entries, keepsLast)
    ensures ConsumesSuccessors(serve, entries[1..], keepsLast)
  {
    var tail := entries[1..];
    forall j | 0 <= j < |tail|
      ensures ConsumeAt(serve, tail, j).response == NextOf(tail, j)
      ensures ConsumeAt(serve, tail, j).entries
           == if keepsLast && j + 1 == |tail| then tail[j..] else tail[j + 1..]
    {
      assert tail[j..] == entries[j + 1..] && tail[j + 1..] == entries[j + 2..];
      assert ConsumeAt(serve, tail, j) == ConsumeAt(serve, entries, j + 1);
      assert NextOf(tail, j) == NextOf(entries, j + 1);
      assert ConsumeAt(serve, entries, j + 1).response == NextOf(entries, j + 1);
    }
    assert forall j :: 0 <= j < |tail| ==> ConsumeAt(serve, tail, j).response == NextOf(tail, j);
    assert ConsumesSuccessors(serve, tail, keepsLast);
  }

  /** Non-consuming, from a stored cursor: the feed sends every entry after
      the cursor and leaves the buffer untouched. */
  lemma {:induction false} ReadOnlyDrain<V>(serve: Server<V>, entries: seq<Entry<V>>, i: nat, calls: nat)
    requires Sorted(entries) && i < |entries|
    requires ReadsSuccessors(serve, entries, i)
    requires calls >= |entries| - i
    ensures Drain(serve, entries, BoundaryOf(entries), Cursor(Some(entries[i].key), false), calls)
      == DrainResult(Values(entries[i + 1..]), entries, true)
    decreases |entries| - i
  {
    var b := BoundaryOf(entries);
    var c := Cursor(Some(entries[i].key), false);
    assert ReadAt(serve, entries, i) == serve(entries, c);
    if i + 1 < |entries| {
      NotAboveLast(entries, i + 1);
      assert ReadsSuccessors(serve, entries, i + 1);
      var c' := Cursor(Some(entries[i + 1].key), false);
      assert FactoryAnswer(c, serve(entries, c).response, b) == (Item(entries[i + 1].value), c');
      ReadOnlyDrain(serve, entries, i + 1, calls - 1);
      var rest := Drain(serve, entries, b, c', calls - 1);
      assert Drain(serve, entries, b, c, calls) == DrainResult([entries[i + 1].value] + rest.delivered, rest.remaining, rest.finished);
      assert entries[i + 1..][1..] == entries[i + 2..];
      assert Values(entries[i + 1..]) == [entries[i + 1].value] + rest.delivered;
    } else {
      assert Drain(serve, entries, b, c, calls) == DrainResult([], entries, true);
      assert Values(entries[i + 1..]) == [];
    }
  }

  /** One consuming call at the smallest of at least two entries: it
      delivers the second entry and drops the first. */
  lemma ConsumeStep<V>(serve: Server<V>, entries: seq<Entry<V>>, boundary: Option<Key>, keepsLast: bool, calls: nat)
    requires Sorted(entries) && |entries| > 1 && calls > 0
    requires ConsumesSuccessors(serve, entries, keepsLast)
    requires boundary == BoundaryOf(entries)
    ensures var rest := Drain(serve, entries[1..], boundary, Cursor(Some(entries[1].key), true), calls - 1);
      Drain(serve, entries, boundary, Cursor(Some(entries[0].key), true), calls)
        == DrainResult([entries[1].value] + rest.delivered, rest.remaining, rest.finished)
  {
    var c := Cursor(Some(entries[0].key), true);
    assert entries[0..] == entries;
    assert ConsumeAt(serve, entries, 0) == serve(entries, c);
    NotAboveLast(entries, 1);
    assert FactoryAnswer(c, serve(entries, c).response, boundary) == (Item(entries[1].value), Cursor(Some(entries[1].key), true));
  }

  /** Consuming, from the smallest stored key: the feed sends every entry
      after it; the buffer is left with the last entry if the server keeps
      it, and empty otherwise. */
  lemma {:induction false} ConsumingDrain<V>(serve: Server<V>, entries: seq<Entry<V>>, boundary: Option<Key>,
                                             keepsLast: bool, calls: nat)
    requires Sorted(entries) && |entries| > 0
    requires ConsumesSuccessors(serve, entries, keepsLast)
    requires boundary == BoundaryOf(entries)
    requires calls >= |entries|
    ensures Drain(serve, entries, boundary, Cursor(Some(entries[0].key), true), calls)
      == DrainResult(Values(entries[1..]), if keepsLast then [entries[|entries| - 1]] else [], true)
    decreases |entries|
  {
    if |entries| == 1 {
      var c := Cursor(Some(entries[0].key), true);
      assert entries[0..] == entries;
      assert ConsumeAt(serve, entries, 0) == serve(entries, c);
      assert entries[1..] == [];
    } else {
      var tail := entries[1..];
      ConsumeStep(serve, entries, boundary, keepsLast, calls);
      ConsumesSuccessorsTail(serve, entries, keepsLast);
      assert tail[0] == entries[1] && BoundaryOf(tail) == boundary;
      ConsumingDrain(serve, tail, boundary, keepsLast, calls - 1);
      assert Values(entries[1..]) == [entries[1].value] + Values(tail[1..]);
    }
  }

  /** The feed as written, from its unset cursor: it never delivers the
      smallest entry and, when consuming, never removes the largest. A
      consuming feed removes the smallest entry on its first call while
      answering the second, so that entry is lost without being delivered. */
  lemma AsWrittenFeed<V>(entries: seq<Entry<V>>, consume: bool, calls: nat)
    requires Sorted(entries) && calls >= |entries| + 1
    ensures Drain(Handler(AsWritten), entries, BoundaryOf(entries), Cursor(None, consume), calls)
      == if |entries| == 0 then DrainResult([], [], true)
         else DrainResult(Values(entries[1..]), if consume then [entries[|entries| - 1]] else entries, true)
  {
    var serve := Handler(AsWritten);
    var b := BoundaryOf(entries);
    if |entries| > 0 {
      var k := entries[0].key;
      assert serve(entries, Cursor(None, consume)) == serve(entries, Cursor(Some(k), consume));
      assert Drain(serve, entries, b, Cursor(None, consume), calls)
          == Drain(serve, entries, b, Cursor(Some(k), consume), calls);
      if consume {
        HandlersConsumeSuccessors(AsWritten, entries);
        ConsumingDrain(serve, entries, b, true, calls);
      } else {
        HandlersReadSuccessors(AsWritten, entries);
        ReadOnlyDrain(serve, entries, 0, calls);
      }
    }
  }

  /** A server that answers the unset cursor with the smallest entry and
      then keeps answering successors delivers every entry. */
  lemma StartAtSmallest<V>(serve: Server<V>, entries: seq<Entry<V>>, consume: bool, calls: nat)
    requires Sorted(entries) && |entries| > 0 && calls >= |entries| + 1
    requires serve(entries, Cursor(None, consume)).response == Found(entries[0].key, entries[0].value)
    requires serve(entries, Cursor(None, consume)).entries == entries
    requires consume ==> ConsumesSuccessors(serve, entries, false)
    requires !consume ==> ReadsSuccessors(serve, entries, 0)
    ensures Drain(serve, entries, BoundaryOf(entries), Cursor(None, consume), calls)
      == DrainResult(Values(entries), if consume then [] else entries, true)
  {
    var b := BoundaryOf(entries);
    NotAboveLast(entries, 0);
    var c := Cursor(None, consume);
    var c' := Cursor(Some(entries[0].key), consume);
    assert FactoryAnswer(c, serve(entries, c).response, b) == (Item(entries[0].value), c');
    var rest := Drain(serve, entries, b, c', calls - 1);
    assert Drain(serve, entries, b, c, calls) == DrainResult([entries[0].value] + rest.delivered, rest.remaining, rest.finished);
    if consume {
      ConsumingDrain(serve, entries, b, false, calls - 1);
      assert rest == DrainResult(Values(entries[1..]), [], true);
    } else {
      ReadOnlyDrain(serve, entries, 0, calls - 1);
      assert rest == DrainResult(Values(entries[1..]), entries, true);
    }
  }

  /** The intended feed delivers every entry in key order and, when
      consuming, leaves the buffer empty. */
  lemma IntendedFeed<V>(entries: seq<Entry<V>>, consume: bool, calls: nat)
    requires Sorted(entries) && calls >= |entries| + 1
    ensures Drain(Handler(Intended), entries, BoundaryOf(entries), Cursor(None, consume), calls)
      == DrainResult(Values(entries), if consume then [] else entries, true)
  {
    if |entries| > 0 {
      assert Handler(Intended)(entries, Cursor(None, consume))
          == Removal(false, Found(entries[0].key, entries[0].value), entries);
      if consume {
        HandlersConsumeSuccessors(Intended, entries);
      } else {
        HandlersReadSuccessors(Intended, entries);
      }
      StartAtSmallest(Handler(Intended), entries, consume, calls);
    }
  }

  // ---------------------------------------------------------------------
  // The buffer of the scenario: keys (10,0), (10,1), (12,0).
  // ---------------------------------------------------------------------

  /** Three events with keys (10,0), (10,1) and (12,0). */
  function ScenarioBuffer<V>(a: V, b: V, c: V): (s: seq<Entry<V>>)
    ensures Sorted(s)
  {
    [Entry(Key(10, 0), a), Entry(Key(10, 1), b), Entry(Key(12, 0), c)]
  }

  /** As written, a consuming feed over the scenario buffer sends only the
      second and third events, and the third stays in the buffer. */
  lemma ScenarioAsWritten<V>(a: V, b: V, c: V)
    ensures Drain(Handler(AsWritten), ScenarioBuffer(a, b, c), Some(Key(12, 0)), Cursor(None, true), 4)
      == DrainResult([b, c], [Entry(Key(12, 0), c)], true)
  {
    var s := ScenarioBuffer(a, b, c);
    assert BoundaryOf(s) == Some(Key(12, 0));
    assert Values(s[1..]) == [b, c] by {
      assert s[1..][1..][1..] == [];
      assert Values(s[1..][1..]) == [c];
    }
    AsWrittenFeed(s, true, 4);
  }

  /** With the intended handlers the same feed sends all three events and
      empties the buffer. */
  lemma ScenarioIntended<V>(a: V, b: V, c: V)
    ensures Drain(Handler(Intended), ScenarioBuffer(a, b, c), Some(Key(12, 0)), Cursor(None, true), 4)
      == DrainResult([a, b, c], [], true)
  {
    var s := ScenarioBuffer(a, b, c);
    assert BoundaryOf(s) == Some(Key(12, 0));
    assert Values(s) == [a, b, c] by {
      assert s[1..][1..][1..] == [];
      assert Values(s[1..][1..]) == [c];
      assert Values(s[1..]) == [b, c];
    }
    IntendedFeed(s, true, 4);
  }
}

=== FILE: feed_protocol.dfy ===
/** The message vocabulary shared by the two ends of a pull session
    (`Feed/FeedMode.cs`, `Feed/GoodbyeReason.cs`, `Feed/HelloBase.cs`,
    `Feed/GoodbyeBase.cs`, `Feed/FactoryResult.cs`, and the `FeedSide` enum). */
module FeedProtocol {
  import opened Common

  /** One bit of the `[Flags] enum FeedMode`. */
  datatype ModeFlag = FiniteFlag | InfiniteFlag

  /** A feed mode is a non-empty set of flags: Finite = 1, Infinite = 2,
      Both = 1 | 2. */
  type FeedMode = s: set<ModeFlag> | s != {} witness {FiniteFlag}

  const Finite: FeedMode := {FiniteFlag}
  const Infinite: FeedMode := {InfiniteFlag}
  const Both: FeedMode := {FiniteFlag, InfiniteFlag}

  /** `Enum.HasFlag`: every bit of `flag` is set in `m`. */
  predicate HasFlag(m: FeedMode, flag: FeedMode)
  {
    flag <= m
  }

  /** The numeric value of a mode in the C# enum. */
  function ToBits(m: FeedMode): (b: bv8)
    ensures b == 1 || b == 2 || b == 3
  {
    ThreeModes(m);
    (if FiniteFlag in m then 1 else 0) | (if InfiniteFlag in m then 2 else 0)
  }

  /** Reads a numeric enum value back; `None` for values that name no mode. */
  function FromBits(b: bv8): (r: Option<FeedMode>)
  {
    if b == 1 then Some(Finite)
    else if b == 2 then Some(Infinite)
    else if b == 3 then Some(Both)
    else None
  }

  /** There are exactly three feed modes. */
  lemma ThreeModes(m: FeedMode)
    ensures m == Finite || m == Infinite || m == Both
  {
    forall g | g in m
      ensures g in Both
    {
      match g
      case FiniteFlag =>
      case InfiniteFlag =>
    }
    if FiniteFlag in m && InfiniteFlag in m {
      assert m == Both;
    } else if FiniteFlag in m {
      assert m == Finite;
    } else {
      assert m == Infinite;
    }
  }

  /** The enum encoding is faithful: encoding then decoding is the
      identity, and 1, 2 and 3 are the only values that decode, each to the
      mode that encodes back to it. */
  lemma BitsRoundTrip(m: FeedMode)
    ensures FromBits(ToBits(m)) == Some(m)
    ensures forall b: bv8 :: FromBits(b).Some? ==> (b == 1 || b == 2 || b == 3) && ToBits(FromBits(b).value) == b
  {
    ThreeModes(m);
    assert ToBits(Finite) == 1 && ToBits(Infinite) == 2 && ToBits(Both) == 3;
  }

  /** `HasFlag` is the C# bit test `(m & flag) == flag`. */
  lemma HasFlagIsBitTest(m: FeedMode, flag: FeedMode)
    ensures HasFlag(m, flag) <==> ToBits(m) & ToBits(flag) == ToBits(flag)
  {
    ThreeModes(m);
    ThreeModes(flag);
  }

  /** Which end of a session a Hello comes from. */
  datatype FeedSide = Sender | Receiver

  /** Why a session ended. */
  datatype GoodbyeReason = Eof | Cancel | Error

  /** The handshake message of either side: its side and its offered
      (feed) or chosen (consumer) mode. */
  datatype Hello = Hello(side: FeedSide, mode: FeedMode)

  /** What the feed's item factory produced: end of data or one payload. */
  datatype FactoryResult<P> = EndOfData | Item(payload: P)
}

=== FILE: feeder.dfy ===
/** The one-shot feeder of `Pathfinder/Feeder.cs`: it puts the pathfinder
    into bulk-insert mode (`delayEdgeUpdates`), and when the pathfinder
    answers it starts a Finite-only consumer and asks the buffer to feed it;
    the consumer's sink sends each event's command to the pathfinder. When
    the consumer terminates the feeder ends bulk-insert mode
    (`performEdgeUpdates`) and stops at the pathfinder's answer.

    The consumer it creates is `consumerRef` (the ref `Context.ActorOf`
    returns); creating it, telling the buffer and stopping are outputs.
    The supervisor strategy escalates every failure (`AllForOneStrategy`
    with `Directive.Escalate`), so a failing child takes the feeder down. */
module Feeder {
  import opened Common
  import opened FeedProtocol
  import opened Events
  import Rpc = RpcMessage
  import EventToCall
  import EventBuffer
  import Consumer

  datatype Config = Config(pathfinder: ActorRef, consume: bool, consumerRef: ActorRef)

  datatype Phase = Starting | Running | Stopped

  datatype State = State(phase: Phase, consumer: Option<ActorRef>)

  /** `Return` is the pathfinder's `PathfinderProcess.Return`, `Terminated`
      the watched consumer's end. */
  datatype Msg = Return | Terminated

  datatype Out =
    | Call(to: ActorRef, cmd: Rpc.Command)
    | SpawnConsumer(consumer: ActorRef, supported: FeedMode)
    | ToBuffer(request: EventBuffer.Msg<EventLog>)
    | StopSelf

  datatype Transition = Transition(state: State, out: seq<Out>)

  /** The constructor: bulk-insert mode is asked for before anything else. */
  function Start(c: Config): (t: Transition)
    ensures t.state.phase == Starting && t.state.consumer.None?
    ensures t.out == [Call(c.pathfinder, Rpc.DelayEdgeUpdates)]
  {
    Transition(State(Starting, None), [Call(c.pathfinder, Rpc.DelayEdgeUpdates)])
  }

  /** One message in the current behaviour; unhandled messages change
      nothing. */
  function Step(c: Config, s: State, m: Msg): Transition
  {
    match s.phase
    case Starting =>
      if m.Return? then
        Transition(State(Running, Some(c.consumerRef)),
                   [SpawnConsumer(c.consumerRef, Finite),
                    ToBuffer(EventBuffer.FeedToActor(c.consumerRef, Finite, c.consume))])
      else Transition(s, [])
    case Running =>
      if m.Terminated? then Transition(s, [Call(c.pathfinder, Rpc.PerformEdgeUpdates)])
      else Transition(s.(phase := Stopped), [StopSelf])
    case Stopped => Transition(s, [])
  }

  /** The pathfinder's first answer starts exactly one consumer, which
      supports Finite only, and asks the buffer for one Finite feed to it,
      consuming as configured. */
  lemma ReturnStartsFiniteFeed(c: Config)
    ensures Step(c, Start(c).state, Return)
      == Transition(State(Running, Some(c.consumerRef)),
                    [SpawnConsumer(c.consumerRef, Finite),
                     ToBuffer(EventBuffer.FeedToActor(c.consumerRef, Finite, c.consume))])
    ensures Step(c, Start(c).state, Terminated) == Transition(Start(c).state, [])
  {
  }

  /** Whatever the feed offers, the feeder's consumer settles on Finite. */
  lemma ConsumerNegotiatesFinite(offered: FeedMode)
    ensures Consumer.Choose(Finite, offered) == Finite
  {
    assert !HasFlag(Finite, Infinite) by {
      assert InfiniteFlag in Infinite && InfiniteFlag !in Finite;
    }
  }

  /** What happens around the feeder: a message to it, or one run of its
      consumer's sink. */
  datatype Event = Deliver(m: Msg) | SinkRuns(log: EventLog)

  /** One event: the commands it sends the pathfinder and the feeder's
      next state. */
  function Apply(c: Config, s: State, e: Event): (seq<Rpc.Command>, State)
  {
    match e
    case Deliver(m) =>
      var t := Step(c, s, m);
      (Calls(t.out), t.state)
    case SinkRuns(log) =>
      var run := EventToCall.Sink(log);
      (if run.call.Some? then [run.call.value] else [], s)
  }

  /** The commands the pathfinder has been sent and the feeder's state,
      after a run of events. */
  function Run(c: Config, s: State, evs: seq<Event>): (seq<Rpc.Command>, State)
    decreases |evs|
  {
    if evs == [] then ([], s)
    else
      var first := Apply(c, s, evs[0]);
      var rest := Run(c, first.1, evs[1..]);
      (first.0 + rest.0, rest.1)
  }

  /** The commands among a step's outputs. */
  function Calls(out: seq<Out>): seq<Rpc.Command>
  {
    if out == [] then []
    else (if out[0].Call? then [out[0].cmd] else []) + Calls(out[1..])
  }

  function SinkEvents(logs: seq<EventLog>): (evs: seq<Event>)
    ensures |evs| == |logs| && forall i :: 0 <= i < |logs| ==> evs[i] == SinkRuns(logs[i])
  {
    seq(|logs|, i requires 0 <= i < |logs| => SinkRuns(logs[i]))
  }

  /** Sink runs leave the feeder alone and send exactly the sink's
      commands. */
  lemma {:induction false} SinkRunsSendCommands(c: Config, s: State, logs: seq<EventLog>)
    ensures Run(c, s, SinkEvents(logs)) == (EventToCall.Commands(logs), s)
    decreases |logs|
  {
    if logs != [] {
      assert SinkEvents(logs)[1..] == SinkEvents(logs[1..]);
      SinkRunsSendCommands(c, s, logs[1..]);
    }
  }

  /** Running two event runs one after the other. */
  lemma {:induction false} RunAppend(c: Config, s: State, a: seq<Event>, b: seq<Event>)
    ensures var ra := Run(c, s, a);
      var rb := Run(c, ra.1, b);
      Run(c, s, a + b) == (ra.0 + rb.0, rb.1)
    decreases |a|
  {
    if a == [] {
      assert a + b == b;
      assert [] + Run(c, s, b).0 == Run(c, s, b).0;
    } else {
      var first := Apply(c, s, a[0]);
      assert (a + b)[0] == a[0];
      assert (a + b)[1..] == a[1..] + b;
      RunAppend(c, first.1, a[1..], b);
      var ra := Run(c, first.1, a[1..]);
      var rb := Run(c, ra.1, b);
      assert first.0 + (ra.0 + rb.0) == (first.0 + ra.0) + rb.0;
    }
  }

  /** A single event. */
  lemma RunOne(c: Config, s: State, e: Event)
    ensures Run(c, s, [e]) == Apply(c, s, e)
  {
    assert [e][1..] == [];
    assert Apply(c, s, e).0 + [] == Apply(c, s, e).0;
  }

  /** The end of a feeding: the consumer's end ends bulk-insert mode and
      the pathfinder's answer stops the feeder. */
  lemma FeedEnds(c: Config, s: State)
    requires s.phase == Running
    ensures Run(c, s, [Deliver(Terminated), Deliver(Return)])
      == ([Rpc.PerformEdgeUpdates], s.(phase := Stopped))
  {
    var tail := [Deliver(Terminated), Deliver(Return)];
    assert tail == [Deliver(Terminated)] + [Deliver(Return)];
    RunAppend(c, s, [Deliver(Terminated)], [Deliver(Return)]);
    RunOne(c, s, Deliver(Terminated));
    RunOne(c, s, Deliver(Return));
    assert Calls([StopSelf]) == [] by {
      assert [StopSelf][1..] == [];
    }
    assert Calls([Call(c.pathfinder, Rpc.PerformEdgeUpdates)]) == [Rpc.PerformEdgeUpdates] by {
      assert [Call(c.pathfinder, Rpc.PerformEdgeUpdates)][1..] == [];
    }
  }

  /** A whole feeding: the pathfinder sees `delayEdgeUpdates`, then one
      command per event in feed order (each the mapping of its event),
      then `performEdgeUpdates`, and the feeder stops. */
  lemma FeedIsBracketed(c: Config, logs: seq<EventLog>)
    requires forall i :: 0 <= i < |logs| ==> EventToCall.Mappable(logs[i])
    ensures var start := Start(c);
      var r := Run(c, start.state, [Deliver(Return)] + SinkEvents(logs) + [Deliver(Terminated), Deliver(Return)]);
      && Calls(start.out) + r.0
           == [Rpc.DelayEdgeUpdates] + EventToCall.Commands(logs) + [Rpc.PerformEdgeUpdates]
      && |r.0| == |logs| + 1
      && (forall i :: 0 <= i < |logs| ==> EventToCall.ToCommand(logs[i]) == EventToCall.Ok(r.0[i]))
      && r.1.phase == Stopped
  {
    var start := Start(c);
    var s0 := start.state;
    var t1 := Step(c, s0, Return);
    var s1 := t1.state;
    assert Calls(t1.out) == [] by {
      assert t1.out[1..][1..] == [];
    }
    RunOne(c, s0, Deliver(Return));
    SinkRunsSendCommands(c, s1, logs);
    FeedEnds(c, s1);
    var tail := [Deliver(Terminated), Deliver(Return)];
    RunAppend(c, s0, [Deliver(Return)], SinkEvents(logs));
    RunAppend(c, s0, [Deliver(Return)] + SinkEvents(logs), tail);
    assert Calls(start.out) == [Rpc.DelayEdgeUpdates] by {
      assert start.out[1..] == [];
    }
    var r := Run(c, s0, [Deliver(Return)] + SinkEvents(logs) + tail);
    assert r.0 == EventToCall.Commands(logs) + [Rpc.PerformEdgeUpdates];
    forall i | 0 <= i < |logs|
      ensures EventToCall.ToCommand(logs[i]) == EventToCall.Ok(r.0[i])
    {
      EventToCall.CommandsOfMappable(logs);
    }
  }
}

=== FILE: legacy_buffer.dfy ===
/** The older buffer actor (`Actors/BlockchainEventBuffer.cs`): a sorted
    dictionary of the four known event kinds keyed by (block, log index),
    with a stats query that reports (-1, -1) keys when empty, and two
    commands that empty it into an actor or onto the event stream. */
module LegacyBuffer {
  import opened Common
  import opened SortedEntries
  import opened Events
  import EventBuffer

  /** A key as `GetStatsResult` carries it: a `Tuple<BigInteger, BigInteger>`,
      where the pair (-1, -1) stands for "no key". */
  datatype StatsKey = StatsKey(block: int, logIndex: int)

  const NoKey: StatsKey := StatsKey(-1, -1)

  datatype StatsResult = StatsResult(minKey: StatsKey, maxKey: StatsKey, items: nat)

  /** The messages `OnReceive` handles; `Unroll` and `Publish` are the
      `Buffer.Unroll` / `Buffer.Publish` commands, `Collect` is an arriving
      `IEventLog`. */
  datatype Msg =
    | GetStats(replyTo: ActorRef)
    | Unroll(to: ActorRef)
    | Publish
    | Collect(log: EventLog)

  datatype Out =
    | StatsReply(to: ActorRef, stats: StatsResult)
    | Tell(to: ActorRef, log: EventLog)
    | PublishEvent(log: EventLog)

  datatype Transition = Transition(entries: seq<Entry<EventLog>>, out: seq<Out>)

  /** Every stored log sits under its own key and is of a known kind. */
  ghost predicate WellKeyed(m: map<Key, EventLog>)
  {
    forall k | k in m :: KeyOf(m[k]) == k && IsKnown(m[k].payload)
  }

  ghost predicate Valid(entries: seq<Entry<EventLog>>)
  {
    Sorted(entries) && WellKeyed(ToMap(entries))
  }

  function AsStatsKey(k: Key): StatsKey
  {
    StatsKey(k.block, k.logIndex)
  }

  /** `GetStats`: the sentinel pair for both keys when empty, otherwise the
      first and last key and the count. */
  function Stats(entries: seq<Entry<EventLog>>): (r: StatsResult)
    requires Sorted(entries)
    ensures r.items == |KeySet(entries)|
    ensures r.minKey == NoKey <==> |entries| == 0
    ensures r.maxKey == NoKey <==> |entries| == 0
    ensures |entries| > 0 ==>
              && r.minKey == AsStatsKey(entries[0].key)
              && r.maxKey == AsStatsKey(entries[|entries| - 1].key)
  {
    CountIsKeyCount(entries);
    if |entries| == 0 then StatsResult(NoKey, NoKey, 0)
    else StatsResult(AsStatsKey(entries[0].key), AsStatsKey(entries[|entries| - 1].key), |entries|)
  }

  /** One run of `OnReceive`. A duplicate key is ignored before the kind is
      looked at; a fresh key is stored only for the four known kinds. */
  function Step(entries: seq<Entry<EventLog>>, m: Msg): (t: Transition)
    requires Valid(entries)
    ensures Valid(t.entries)
  {
    match m
    case GetStats(replyTo) =>
      Transition(entries, [StatsReply(replyTo, Stats(entries))])
    case Unroll(to) =>
      Transition([], seq(|entries|, i requires 0 <= i < |entries| => Tell(to, entries[i].value)))
    case Publish =>
      Transition([], seq(|entries|, i requires 0 <= i < |entries| => PublishEvent(entries[i].value)))
    case Collect(log) =>
      var key := KeyOf(log);
      if key in KeySet(entries) then Transition(entries, [])
      else if IsKnown(log.payload) then Transition(Insert(entries, key, log), [])
      else Transition(entries, [])
  }

  /** The stats query reads "empty" exactly when both keys are the sentinel;
      no stored key can be mistaken for it, since block numbers and log
      indices are never negative. Otherwise it agrees with the newer
      buffer's stats. */
  lemma StatsAgreeWithEventBuffer(entries: seq<Entry<EventLog>>)
    requires Sorted(entries)
    ensures var r := EventBuffer.Stats(entries);
      Stats(entries) == StatsResult(
        if r.minKey.Some? then AsStatsKey(r.minKey.value) else NoKey,
        if r.maxKey.Some? then AsStatsKey(r.maxKey.value) else NoKey,
        r.items)
  {
    CountIsKeyCount(entries);
    if |entries| > 0 {
      assert entries[0].key in KeySet(entries);
    }
  }

  /** A collected log: the stored mapping gains exactly that log under its
      key when the key is fresh and the kind is known, and is unchanged
      otherwise (duplicates and unknown kinds are dropped). Nothing is sent. */
  lemma CollectStoresFreshKnownOnly(entries: seq<Entry<EventLog>>, log: EventLog)
    requires Valid(entries)
    ensures var t := Step(entries, Collect(log));
      && t.out == []
      && ToMap(t.entries)
           == (if KeyOf(log) !in KeySet(entries) && IsKnown(log.payload)
               then ToMap(entries)[KeyOf(log) := log] else ToMap(entries))
      && (KeyOf(log) in KeySet(entries) ==> t.entries == entries)
      && (!IsKnown(log.payload) ==> t.entries == entries)
  {
  }

  /** With no feed open, the older buffer stores a known log exactly as the
      newer buffer does; it differs only in dropping unknown kinds. */
  lemma CollectAgreesWithEventBuffer(entries: seq<Entry<EventLog>>, log: EventLog, started: nat)
    requires Valid(entries)
    ensures var s := EventBuffer.Running(entries, None, None, started);
      var t := EventBuffer.Step(KeyOf, s, EventBuffer.Add(log));
      && t.state.Running?
      && (IsKnown(log.payload) ==> t.state.entries == Step(entries, Collect(log)).entries)
      && (!IsKnown(log.payload) && KeyOf(log) !in KeySet(entries) ==>
            |t.state.entries| == |Step(entries, Collect(log)).entries| + 1)
  {
  }

  /** `Unroll` tells every stored log to the target and `Publish` publishes
      every stored log, both in ascending key order, exactly the newer
      buffer's dump, and both leave the buffer empty. */
  lemma EmptyingEmitsAllInOrder(entries: seq<Entry<EventLog>>, to: ActorRef, started: nat, consume: bool)
    requires Valid(entries)
    ensures var t := Step(entries, Unroll(to));
      && t.entries == []
      && |t.out| == |entries|
      && (forall i :: 0 <= i < |entries| ==> t.out[i] == Tell(to, entries[i].value))
    ensures var t := Step(entries, Publish);
      && t.entries == []
      && |t.out| == |entries|
      && (forall i :: 0 <= i < |entries| ==> t.out[i] == PublishEvent(entries[i].value))
    ensures var u := EventBuffer.Step(KeyOf, EventBuffer.Running(entries, None, None, started),
                                      EventBuffer.DumpToActor(to, consume));
      var t := Step(entries, Unroll(to));
      && |u.out| == |t.out|
      && (forall i :: 0 <= i < |t.out| ==> u.out[i] == EventBuffer.Tell(to, t.out[i].log))
  {
  }
}

=== FILE: legacy_event_source.dfy ===
/** The older orchestrator (`BlockchainEventSource.cs` in `Actors/`): woken
    by `NextBlock(h)`, it queries the chain itself for the blocks from its
    watermark up to `h`, moves the watermark to `h` at once, and publishes
    the logs it gets back.

    The self-sent height is the `SelfHeight` output, answered by `Height(h)`;
    the chain call is the `FetchLogs` output, answered by `Result(logs)` or,
    when the call fails, `Failure`. Heights are compared by value. */
module LegacyEventSource {
  import opened Common

  /** `Publish` remembers where its query started. */
  datatype Phase = Wait | Fetch | Publish(from: int)

  datatype State = State(phase: Phase, watermark: Option<int>)

  const Init: State := State(Wait, None)

  datatype Msg<L> = NextBlock(h: nat) | Height(h: nat) | Result(logs: seq<L>) | Failure

  datatype Out<L> = SelfHeight(h: nat) | FetchLogs(from: int, to: nat) | PublishEvent(log: L)

  datatype Transition<L> = Transition(state: State, out: seq<Out<L>>)

  /** The logs put on the event stream, in list order. */
  function PublishAll<L>(logs: seq<L>): (out: seq<Out<L>>)
    ensures |out| == |logs| && forall i :: 0 <= i < |logs| ==> out[i] == PublishEvent(logs[i])
  {
    seq(|logs|, i requires 0 <= i < |logs| => PublishEvent(logs[i]))
  }

  /** One message in the current behaviour; unhandled messages are dropped.
      No behaviour handles `Failure`. */
  function Step<L>(s: State, m: Msg<L>): Transition<L>
  {
    match s.phase
    case Wait =>
      if m.NextBlock? then Transition(s.(phase := Fetch), [SelfHeight(m.h)]) else Transition(s, [])
    case Fetch =>
      (match m
       case Height(h) =>
         var w := if s.watermark.None? then h - 1 else s.watermark.value;
         if h == w then Transition(State(Wait, Some(w)), [])
         else Transition(State(Publish(w), Some(h)), [FetchLogs(w, h)])
       case _ => Transition(s, []))
    case Publish =>
      (match m
       case Result(logs) => Transition(s.(phase := Wait), PublishAll(logs))
       case _ => Transition(s, []))
  }

  /** The query starts at the watermark itself, and the watermark moves to
      the new height before any result has arrived. */
  lemma FetchQueriesFromWatermark<L>(s: State, h: nat)
    requires s.phase == Fetch && s.watermark.Some? && h != s.watermark.value
    ensures Step<L>(s, Height(h)) == Transition(State(Publish(s.watermark.value), Some(h)), [FetchLogs(s.watermark.value, h)])
  {
  }

  /** A result is published log by log in list order, and the source waits
      again. */
  lemma ResultPublishedInOrder<L>(s: State, logs: seq<L>)
    requires s.phase.Publish?
    ensures var t := Step(s, Result(logs));
      && t.state == s.(phase := Wait)
      && |t.out| == |logs|
      && (forall i :: 0 <= i < |logs| ==> t.out[i] == PublishEvent(logs[i]))
  {
  }

  /** A round from `Wait` whose query succeeds with `logs`. */
  function Round<L>(s: State, h: nat, logs: seq<L>): Transition<L>
    requires s.phase == Wait
  {
    var t1 := Step<L>(s, NextBlock(h));
    var t2 := Step<L>(t1.state, Height(h));
    if t2.state.phase.Publish? then
      var t3 := Step<L>(t2.state, Result(logs));
      Transition(t3.state, t1.out + t2.out + t3.out)
    else Transition(t2.state, t1.out + t2.out)
  }

  /** Two successful rounds at new heights query ranges that overlap in one
      block: the second range starts with the block the first one ended
      with. */
  lemma ConsecutiveQueriesOverlap<L>(s: State, h1: nat, h2: nat, logs1: seq<L>, logs2: seq<L>)
    requires s.phase == Wait && s.watermark.Some? && h1 != s.watermark.value && h2 != h1
    ensures var t1 := Round(s, h1, logs1);
      var t2 := Round(t1.state, h2, logs2);
      && t1.out[1] == FetchLogs(s.watermark.value, h1)
      && t2.out[1] == FetchLogs(h1, h2)
  {
  }

  /** A failed query is never handled: the source stays in `Publish` for
      good, ignoring every further height, while its watermark has already
      passed the blocks it never published. */
  lemma FailureStalls<L>(s: State, h: nat, m: Msg<L>)
    requires s.phase == Wait && s.watermark.Some? && h != s.watermark.value
    requires !m.Result?
    ensures var t1 := Step<L>(s, NextBlock(h));
      var t2 := Step<L>(t1.state, Height(h));
      var t3 := Step<L>(t2.state, Failure);
      && t2.state == State(Publish(s.watermark.value), Some(h))
      && t3 == Transition(t2.state, [])
      && Step<L>(t3.state, m) == Transition(t3.state, [])
  {
  }

  /** The evident repair of the failure path: a `Status.Failure` while
      publishing puts the watermark back where the failed query started and
      waits again. Every other message is handled as written. */
  function RetryingStep<L>(s: State, m: Msg<L>): Transition<L>
  {
    if s.phase.Publish? && m.Failure? then Transition(State(Wait, Some(s.phase.from)), [])
    else Step(s, m)
  }

  /** With the repaired failure path, a failed query is retried: the source
      waits again at its old watermark, and the next height queries the
      failed blocks again, from the same block. */
  lemma RetryingFailureRequeries<L>(s: State, h1: nat, h2: nat)
    requires s.phase == Wait && s.watermark.Some? && h1 != s.watermark.value && h2 != s.watermark.value
    ensures var w := s.watermark.value;
      var t1 := RetryingStep<L>(s, NextBlock(h1));
      var t2 := RetryingStep<L>(t1.state, Height(h1));
      var t3 := RetryingStep<L>(t2.state, Failure);
      var t4 := RetryingStep<L>(t3.state, NextBlock(h2));
      && t2.out == [FetchLogs(w, h1)]
      && t3 == Transition(s, [])
      && RetryingStep<L>(t4.state, Height(h2)).out == [FetchLogs(w, h2)]
  {
  }
}

=== FILE: legacy_feeder.dfy ===
/** The older pathfinder feeder (`Actors/PathfinderFeeder.cs`): the same
    catch-up as the newer one, then a single `Unroll(to)` request that
    empties its buffer into itself and forwards every event to the
    pathfinder `to` as an RPC call, with itself as the reply address. The
    mapping has no null guards, an unknown kind is skipped, and the feeder
    never leaves `Unrolling`.

    `self` is the feeder's own ref. An event arriving from the buffer is
    the `Log` message; the pathfinder's answer is `Return`. A thrown
    exception (the trust-limit overflow, or a call to a target that was
    never set) is the terminal `Failed` phase. */
module LegacyFeeder {
  import opened Common
  import opened SortedEntries
  import opened Events
  import CatchUp
  import Decimal
  import Rpc = RpcMessage
  import EventToCall
  import LegacyBuffer

  datatype Config = Config(catchUp: CatchUp.Config, self: ActorRef)

  datatype Phase = CatchingUp(running: int) | Ready | Unrolling | Failed

  datatype State = State(config: Config, phase: Phase, unrollTo: Option<ActorRef>)

  datatype Msg = NextBlock(h: nat) | Terminated | StatsReply | Unroll(to: ActorRef) | Log(log: EventLog) | Return

  datatype Out =
    | CatchUpOut(o: CatchUp.Out)
    | ToBuffer(request: LegacyBuffer.Msg)
    | Call(to: ActorRef, cmd: Rpc.Command, replyTo: ActorRef)

  datatype Transition = Transition(state: State, out: seq<Out>)

  /** The constructor's choice of behaviour. */
  function Init(c: Config): (s: State)
    ensures s.phase.CatchingUp? <==> CatchUp.StartsInCatchUp(c.catchUp)
    ensures s.phase.CatchingUp? ==> s.phase.running == 0
    ensures !s.phase.CatchingUp? ==> s.phase == Ready
    ensures s.unrollTo.None?
  {
    State(c, if CatchUp.StartsInCatchUp(c.catchUp) then CatchingUp(0) else Ready, None)
  }

  function AfterCatchUp(s: State, o: CatchUp.Outcome): Transition
  {
    match o
    case Continue(r, out) => Transition(s.(phase := CatchingUp(r)), CatchUp.Lift(out, o => CatchUpOut(o)))
    case Done(out) => Transition(s.(phase := Ready), CatchUp.Lift(out, o => CatchUpOut(o)))
    case Throw => Transition(s.(phase := Failed), [])
  }

  /** One message in the current behaviour; unhandled messages change
      nothing. `Unrolling` takes every message and acts on events only. */
  function Step(s: State, m: Msg): Transition
  {
    match s.phase
    case CatchingUp(running) =>
      (match m
       case NextBlock(h) => AfterCatchUp(s, CatchUp.Step(s.config.catchUp, running, CatchUp.NextBlock(h)))
       case Terminated => AfterCatchUp(s, CatchUp.Step(s.config.catchUp, running, CatchUp.WorkerTerminated))
       case StatsReply => AfterCatchUp(s, CatchUp.Step(s.config.catchUp, running, CatchUp.StatsReply))
       case _ => Transition(s, []))
    case Ready =>
      (match m
       case Unroll(to) =>
         Transition(s.(phase := Unrolling, unrollTo := Some(to)), [ToBuffer(LegacyBuffer.Unroll(s.config.self))])
       case _ => Transition(s, []))
    case Unrolling =>
      (match m
       case Log(log) =>
         (match EventToCall.LegacyToCommand(log)
          case Ok(Some(c)) =>
            if s.unrollTo.None? then Transition(s.(phase := Failed), [])
            else Transition(s, [Call(s.unrollTo.value, c, s.config.self)])
          case Ok(None) => Transition(s, [])
          case Fail(_) => Transition(s.(phase := Failed), []))
       case _ => Transition(s, []))
    case Failed => Transition(s, [])
  }

  /** An event the older mapping turns into a call without throwing: a
      known kind whose trust limit, if any, fits in 32 bits. */
  predicate Sendable(log: EventLog)
  {
    IsKnown(log.payload) && (log.payload.Trust? ==> Decimal.InInt32(log.payload.limit))
  }

  /** One event while unrolling: a sendable one is called on the target,
      an unknown kind is skipped, and an overflowing trust limit fails the
      feeder. Nothing else is sent and the target is kept. */
  lemma UnrollingEvent(s: State, log: EventLog)
    requires s.phase == Unrolling && s.unrollTo.Some?
    ensures var t := Step(s, Log(log));
      && (Sendable(log) ==>
            && t.state == s && |t.out| == 1
            && t.out[0].Call? && t.out[0].to == s.unrollTo.value && t.out[0].replyTo == s.config.self
            && EventToCall.LegacyToCommand(log) == EventToCall.Ok(Some(t.out[0].cmd)))
      && (!IsKnown(log.payload) ==> t == Transition(s, []))
      && (t.state.phase == Failed <==> (log.payload.Trust? && !Decimal.InInt32(log.payload.limit)))
  {
    EventToCall.LegacyAgreesWhereGuarded(log);
  }

  /** `Unroll` in `Ready` records the target and asks the buffer to unroll
      into the feeder itself; a second `Unroll` is ignored. */
  lemma UnrollRequest(s: State, to: ActorRef, to2: ActorRef)
    requires s.phase == Ready
    ensures var t := Step(s, Unroll(to));
      && t == Transition(s.(phase := Unrolling, unrollTo := Some(to)), [ToBuffer(LegacyBuffer.Unroll(s.config.self))])
      && Step(t.state, Unroll(to2)) == Transition(t.state, [])
  {
  }

  /** A run of events delivered one after the other. */
  function Deliver(s: State, logs: seq<EventLog>): Transition
    decreases |logs|
  {
    if logs == [] then Transition(s, [])
    else
      var t := Step(s, Log(logs[0]));
      var rest := Deliver(t.state, logs[1..]);
      Transition(rest.state, t.out + rest.out)
  }

  /** A run of sendable events is forwarded one call per event, in the
      order received, each carrying the older mapping of its event. */
  lemma {:induction false} UnrollingForwardsInOrder(s: State, logs: seq<EventLog>)
    requires s.phase == Unrolling && s.unrollTo.Some?
    requires forall i :: 0 <= i < |logs| ==> Sendable(logs[i])
    ensures var t := Deliver(s, logs);
      && t.state == s
      && |t.out| == |logs|
      && forall i :: 0 <= i < |logs| ==>
           && t.out[i].Call? && t.out[i].to == s.unrollTo.value && t.out[i].replyTo == s.config.self
           && EventToCall.LegacyToCommand(logs[i]) == EventToCall.Ok(Some(t.out[i].cmd))
    decreases |logs|
  {
    if logs != [] {
      UnrollingEvent(s, logs[0]);
      var first := Step(s, Log(logs[0]));
      UnrollingForwardsInOrder(s, logs[1..]);
      var rest := Deliver(s, logs[1..]);
      var t := Deliver(s, logs);
      assert t.out == first.out + rest.out;
      forall i | 1 <= i < |logs|
        ensures t.out[i] == rest.out[i - 1] && logs[i] == logs[1..][i - 1]
      {
      }
    }
  }

  /** A whole unroll of a well-formed buffer: the feeder asks for it, the
      buffer tells it every stored event in ascending key order and empties,
      and the feeder calls the target once per stored event in that order.
      Nothing stored is skipped, since the buffer keeps known kinds only;
      the trust limits are assumed to fit in 32 bits, as any other limit
      fails the feeder. */
  lemma UnrollForwardsBufferInKeyOrder(s: State, to: ActorRef, entries: seq<Entry<EventLog>>)
    requires s.phase == Ready
    requires LegacyBuffer.Valid(entries)
    requires forall i :: 0 <= i < |entries| && entries[i].value.payload.Trust? ==>
               Decimal.InInt32(entries[i].value.payload.limit)
    ensures var t1 := Step(s, Unroll(to));
      var b := LegacyBuffer.Step(entries, LegacyBuffer.Unroll(s.config.self));
      var t2 := Deliver(t1.state, Values(entries));
      && t1.out == [ToBuffer(LegacyBuffer.Unroll(s.config.self))]
      && b.entries == []
      && |b.out| == |entries|
      && (forall i :: 0 <= i < |entries| ==> b.out[i] == LegacyBuffer.Tell(s.config.self, Values(entries)[i]))
      && t2.state.phase == Unrolling
      && |t2.out| == |entries|
      && forall i :: 0 <= i < |entries| ==>
           && t2.out[i].Call? && t2.out[i].to == to && t2.out[i].replyTo == s.config.self
           && EventToCall.LegacyToCommand(entries[i].value) == EventToCall.Ok(Some(t2.out[i].cmd))
  {
    var t1 := Step(s, Unroll(to));
    LegacyBuffer.EmptyingEmitsAllInOrder(entries, s.config.self, 0, false);
    var vs := Values(entries);
    forall i | 0 <= i < |entries|
      ensures vs[i] == entries[i].value && Sendable(vs[i])
    {
      ValuesAt(entries, i);
      ToMapAt(entries, i);
    }
    UnrollingForwardsInOrder(t1.state, vs);
  }
}

=== FILE: pathfinder_feeder.dfy ===
/** The newer pathfinder feeder (`Pathfinder/PathfinderFeeder.cs`): it owns
    the event buffer, optionally catches up from a start block, and then
    serves repeated feeding requests. A request `Feed(to)` puts the
    pathfinder `to` into bulk-insert mode; its answer starts a Finite-only
    consumer fed from the buffer; the consumer's end ends bulk-insert mode,
    and the next answer returns the feeder to `Ready` for another request.

    The request is the undeclared `Buffer.Feed` message, taken here as
    carrying the target; the feeder's own request to the buffer is the
    `FeedBuffer` output. The consumer refs `Context.ActorOf` returns are
    `ActorRef(0)`, `ActorRef(1)`, … in creation order, counted in `spawned`.
    A thrown exception is the terminal `Failed` phase. */
module PathfinderFeeder {
  import opened Common
  import opened FeedProtocol
  import CatchUp
  import Rpc = RpcMessage

  datatype Phase = CatchingUp(running: int) | Ready | Feeding | Failed

  datatype State = State(config: CatchUp.Config, phase: Phase, feedingTo: Option<ActorRef>, spawned: nat)

  /** `Terminated` is any watched child's end (a query worker in catch-up,
      the consumer while feeding); `Return` is the pathfinder's answer. */
  datatype Msg = NextBlock(h: nat) | Terminated | StatsReply | Feed(to: ActorRef) | Return

  datatype Out =
    | CatchUpOut(o: CatchUp.Out)
    | Call(to: ActorRef, cmd: Rpc.Command)
    | SpawnConsumer(consumer: ActorRef, supported: FeedMode)
    | FeedBuffer(consumer: ActorRef, mode: FeedMode)

  datatype Transition = Transition(state: State, out: seq<Out>)

  /** The constructor's choice of behaviour. */
  function Init(c: CatchUp.Config): (s: State)
    ensures s.phase.CatchingUp? <==> CatchUp.StartsInCatchUp(c)
    ensures s.phase.CatchingUp? ==> s.phase.running == 0
    ensures !s.phase.CatchingUp? ==> s.phase == Ready
    ensures s.feedingTo.None? && s.spawned == 0
  {
    State(c, if CatchUp.StartsInCatchUp(c) then CatchingUp(0) else Ready, None, 0)
  }

  /** Catch-up's outcome as a feeder transition: a new count, `Ready`
      after `CaughtUp`, or failure. */
  function AfterCatchUp(s: State, o: CatchUp.Outcome): Transition
  {
    match o
    case Continue(r, out) => Transition(s.(phase := CatchingUp(r)), CatchUp.Lift(out, o => CatchUpOut(o)))
    case Done(out) => Transition(s.(phase := Ready), CatchUp.Lift(out, o => CatchUpOut(o)))
    case Throw => Transition(s.(phase := Failed), [])
  }

  /** One message in the current behaviour; unhandled messages change
      nothing. */
  function Step(s: State, m: Msg): Transition
  {
    match s.phase
    case CatchingUp(running) =>
      (match m
       case NextBlock(h) => AfterCatchUp(s, CatchUp.Step(s.config, running, CatchUp.NextBlock(h)))
       case Terminated => AfterCatchUp(s, CatchUp.Step(s.config, running, CatchUp.WorkerTerminated))
       case StatsReply => AfterCatchUp(s, CatchUp.Step(s.config, running, CatchUp.StatsReply))
       case _ => Transition(s, []))
    case Ready =>
      (match m
       case Feed(to) => Transition(s.(feedingTo := Some(to)), [Call(to, Rpc.DelayEdgeUpdates)])
       case Return =>
         if s.feedingTo.None? then Transition(s.(phase := Failed), [])
         else
           var consumer := ActorRef(s.spawned);
           Transition(s.(phase := Feeding, spawned := s.spawned + 1),
                      [SpawnConsumer(consumer, Finite), FeedBuffer(consumer, Finite)])
       case _ => Transition(s, []))
    case Feeding =>
      (match m
       case Terminated =>
         if s.feedingTo.None? then Transition(s.(phase := Failed), [])
         else Transition(s, [Call(s.feedingTo.value, Rpc.PerformEdgeUpdates)])
       case Return => Transition(s.(phase := Ready, feedingTo := None), [])
       case _ => Transition(s, []))
    case Failed => Transition(s, [])
  }

  /** While feeding the target is known. */
  predicate Valid(s: State)
  {
    s.phase == Feeding ==> s.feedingTo.Some?
  }

  /** Every step keeps the target set while feeding, so the "WTF?" throw of
      the `Feeding` behaviour cannot happen from a reachable state; the one
      of `Ready` does, on a `Return` before any `Feed`. */
  lemma StepKeepsValid(s: State, m: Msg)
    requires Valid(s)
    ensures Valid(Step(s, m).state)
    ensures s.phase == Feeding && m.Terminated? ==> Step(s, m).state.phase == Feeding
    ensures s.phase == Ready && m.Return? ==> (Step(s, m).state.phase == Failed <==> s.feedingTo.None?)
  {
  }

  /** Before catch-up ends no pathfinder is called and no consumer started;
      catch-up only ever leaves for `Ready` (on the stats reply) or for
      failure. */
  lemma CatchUpIsolated(s: State, m: Msg)
    requires s.phase.CatchingUp? && CatchUp.StartsInCatchUp(s.config)
    ensures var t := Step(s, m);
      && (forall i :: 0 <= i < |t.out| ==> t.out[i].CatchUpOut?)
      && (t.state.phase.Ready? <==> m.StatsReply?)
      && (t.state.phase.Failed? <==> (m.NextBlock? && !s.config.hasGateway))
  {
  }

  /** A feeding cycle from `Ready`: the pathfinder is put in bulk-insert
      mode, its answer starts a fresh Finite consumer fed from the buffer,
      the consumer's end ends bulk-insert mode on the same pathfinder, and
      the final answer clears the target and makes the feeder ready again. */
  lemma FeedingCycle(s: State, to: ActorRef)
    requires s.phase == Ready
    ensures var t1 := Step(s, Feed(to));
      var t2 := Step(t1.state, Return);
      var t3 := Step(t2.state, Terminated);
      var t4 := Step(t3.state, Return);
      var consumer := ActorRef(s.spawned);
      && t1.out == [Call(to, Rpc.DelayEdgeUpdates)]
      && t2.out == [SpawnConsumer(consumer, Finite), FeedBuffer(consumer, Finite)]
      && t3.out == [Call(to, Rpc.PerformEdgeUpdates)]
      && t4.out == []
      && t4.state == s.(feedingTo := None, spawned := s.spawned + 1)
  {
  }

  /** Each cycle gets a consumer no earlier cycle had. */
  lemma ConsumersAreFresh(s: State)
    requires s.phase == Ready && s.feedingTo.Some?
    ensures var t := Step(s, Return);
      && t.out[0] == SpawnConsumer(ActorRef(s.spawned), Finite)
      && (forall n :: 0 <= n < s.spawned ==> t.out[0].consumer != ActorRef(n))
      && t.state.spawned > s.spawned
  {
  }
}

=== FILE: real_time_clock.dfy ===
/** The wall clock (`System/RealTimeClock.cs`): a once-a-second `Tick` reads
    the current time and publishes `SecondElapsed`, `MinuteElapsed` and
    `HourElapsed` for each field that changed since the previous tick.

    The current time is a parameter of the tick. The stored fields start at
    -1, which marks "no tick seen yet"; only the stored second is consulted
    for that. */
module RealTimeClock {

  /** The fields of `DateTime.Now` the clock reads. */
  datatype Time = Time(hour: int, minute: int, second: int)

  predicate IsTime(t: Time)
  {
    0 <= t.hour < 24 && 0 <= t.minute < 60 && 0 <= t.second < 60
  }

  datatype State = State(lastSecond: int, lastMinute: int, lastHour: int)

  const Init: State := State(-1, -1, -1)

  datatype Elapsed = SecondElapsed(now: Time) | MinuteElapsed(now: Time) | HourElapsed(now: Time)

  /** Second < minute < hour: the order of publication within one tick. */
  function Rank(e: Elapsed): nat
  {
    match e
    case SecondElapsed(_) => 0
    case MinuteElapsed(_) => 1
    case HourElapsed(_) => 2
  }

  datatype Transition = Transition(state: State, out: seq<Elapsed>)

  /** What has been stored: nothing yet, or a time of day. */
  ghost predicate Valid(s: State)
  {
    s == Init || IsTime(Time(s.lastHour, s.lastMinute, s.lastSecond))
  }

  /** The `Tick` handler. */
  function Tick(s: State, now: Time): (t: Transition)
    ensures t.state == State(now.second, now.minute, now.hour)
    ensures s.lastSecond <= -1 ==> t.out == []
    ensures s.lastSecond > -1 ==>
      && (SecondElapsed(now) in t.out <==> s.lastSecond != now.second)
      && (MinuteElapsed(now) in t.out <==> s.lastMinute != now.minute)
      && (HourElapsed(now) in t.out <==> s.lastHour != now.hour)
    ensures forall e | e in t.out :: e.now == now
    ensures forall i, j :: 0 <= i < j < |t.out| ==> Rank(t.out[i]) < Rank(t.out[j])
  {
    var out :=
      if s.lastSecond > -1 then
        (if s.lastSecond != now.second then [SecondElapsed(now)] else [])
        + (if s.lastMinute != now.minute then [MinuteElapsed(now)] else [])
        + (if s.lastHour != now.hour then [HourElapsed(now)] else [])
      else [];
    Transition(State(now.second, now.minute, now.hour), out)
  }

  /** Ticking at a time of day keeps the stored fields meaningful, and on a
      meaningful state the -1 guard is exactly "a tick has been seen". */
  lemma TickKeepsValid(s: State, now: Time)
    requires Valid(s) && IsTime(now)
    ensures Valid(Tick(s, now).state)
    ensures Tick(s, now).state != Init
    ensures (s.lastSecond > -1) <==> (s != Init)
  {
  }

  /** The first tick publishes nothing and only records the time; a second
      tick in the same second publishes nothing either. */
  lemma FirstTickOnlyRecords(now: Time, later: Time)
    requires IsTime(now)
    ensures Tick(Init, now).out == []
    ensures later == now ==> Tick(Tick(Init, now).state, later).out == []
  {
  }

  /** A tick in a new hour, at a new minute and second, publishes all three
      events, second first. */
  lemma NewHourPublishesAll(s: State, now: Time)
    requires Valid(s) && s != Init
    requires s.lastSecond != now.second && s.lastMinute != now.minute && s.lastHour != now.hour
    ensures Tick(s, now).out == [SecondElapsed(now), MinuteElapsed(now), HourElapsed(now)]
  {
  }
}

=== FILE: rpc_message.dfy ===
/** The commands sent to the pathfinder process (`RpcMessage.cs`): each
    message takes the next id from a process-wide counter, keeps its command
    name and argument object, and is written as the argument object with
    `id` and `cmd` added.

    JSON is reduced to flat objects whose values are `null`, strings and
    integers; an object is its property list in insertion order. The
    argument object is kept as an object rather than as its JSON text: a
    flat object reads back from its own text unchanged. */
module RpcMessage {
  import opened Common

  /** The counter is a `uint`, advanced by `Interlocked.Increment`, which
      wraps around. */
  const Modulus: int := 0x1_0000_0000

  type Id = x: int | 0 <= x < Modulus

  datatype Json = JNull | JString(s: string) | JNumber(n: int)

  type JObject = seq<(string, Json)>

  /** A C# string that may be null, as a JSON value. */
  function Str(o: Option<string>): Json
  {
    if o.Some? then JString(o.value) else JNull
  }

  function Keys(o: JObject): set<string>
  {
    set i | 0 <= i < |o| :: o[i].0
  }

  /** Reading a property; the first one of that name wins. */
  function Lookup(o: JObject, k: string): Option<Json>
    decreases |o|
  {
    if o == [] then None
    else if o[0].0 == k then Some(o[0].1)
    else Lookup(o[1..], k)
  }

  /** Assigning a property through `dynamic`: an existing property keeps
      its place and takes the new value, a new one goes last. */
  function SetProp(o: JObject, k: string, v: Json): JObject
    decreases |o|
  {
    if o == [] then [(k, v)]
    else if o[0].0 == k then [(k, v)] + o[1..]
    else [o[0]] + SetProp(o[1..], k, v)
  }

  lemma KeysCons(p: (string, Json), o: JObject)
    ensures Keys([p] + o) == {p.0} + Keys(o)
  {
    var r := [p] + o;
    forall k | k in Keys(r)
      ensures k in {p.0} + Keys(o)
    {
      var i :| 0 <= i < |r| && r[i].0 == k;
      if i > 0 {
        assert o[i - 1].0 == k;
      }
    }
    forall k | k in Keys(o)
      ensures k in Keys(r)
    {
      var i :| 0 <= i < |o| && o[i].0 == k;
      assert r[i + 1].0 == k;
    }
    assert r[0].0 == p.0;
  }

  /** The assigned property reads back as assigned, every other one as
      before, and the set of names only gains the assigned one. */
  lemma {:induction false} SetPropLookup(o: JObject, k: string, v: Json, k': string)
    ensures Lookup(SetProp(o, k, v), k) == Some(v)
    ensures k' != k ==> Lookup(SetProp(o, k, v), k') == Lookup(o, k')
    ensures Keys(SetProp(o, k, v)) == Keys(o) + {k}
    decreases |o|
  {
    if o == [] {
      assert Keys([(k, v)]) == {k} by { KeysCons((k, v), []); }
    } else {
      assert o == [o[0]] + o[1..];
      KeysCons(o[0], o[1..]);
      if o[0].0 == k {
        KeysCons((k, v), o[1..]);
      } else {
        SetPropLookup(o[1..], k, v, k');
        KeysCons(o[0], SetProp(o[1..], k, v));
      }
    }
  }

  // ---------------------------------------------------------------------
  // The commands.
  // ---------------------------------------------------------------------

  /** The path `LoadDb` always loads, whatever it is given. */
  const DbPath: string := "/home/daniel/src/circles-world/PathfinderServer/PathfinderServer/Server/data/db.dat"

  /** What each factory method records. Nullable string arguments are
      `Option<string>`; `limitPercentage` is an `int`. */
  datatype Command =
    | LoadDb
    | LoadDbFromHexString(data: Option<string>)
    | Signup(user: Option<string>, token: Option<string>)
    | OrganizationSignup(organization: Option<string>)
    | Trust(canSendTo: Option<string>, trustUser: Option<string>, limitPercentage: int)
    | Transfer(transferToken: Option<string>, from: Option<string>, to: Option<string>, value: Option<string>)
    | EdgeCount
    | DelayEdgeUpdates
    | PerformEdgeUpdates
    | Adjacencies(adjacentTo: Option<string>)
    | Flow(flowFrom: Option<string>, flowTo: Option<string>, flowValue: Option<string>)

  /** The `LoadDb` factory: its file name argument is not used. */
  function LoadDbFor(filename: string): (c: Command)
    ensures c == LoadDb
  {
    LoadDb
  }

  /** The command name each factory passes. */
  function Name(c: Command): string
  {
    match c
    case LoadDb => "loaddb"
    case LoadDbFromHexString(_) => "loaddbStream"
    case Signup(_, _) => "signup"
    case OrganizationSignup(_) => "organizationSignup"
    case Trust(_, _, _) => "trust"
    case Transfer(_, _, _, _) => "transfer"
    case EdgeCount => "edgeCount"
    case DelayEdgeUpdates => "delayEdgeUpdates"
    case PerformEdgeUpdates => "performEdgeUpdates"
    case Adjacencies(_) => "adjacencies"
    case Flow(_, _, _) => "flow"
  }

  /** The argument object each factory builds, properties in assignment
      order. */
  function Args(c: Command): JObject
  {
    match c
    case LoadDb => [("file", JString(DbPath))]
    case LoadDbFromHexString(data) => [("data", Str(data))]
    case Signup(user, token) => [("user", Str(user)), ("token", Str(token))]
    case OrganizationSignup(organization) => [("organization", Str(organization))]
    case Trust(canSendTo, user, limit) =>
      [("canSendTo", Str(canSendTo)), ("user", Str(user)), ("limitPercentage", JNumber(limit))]
    case Transfer(token, from, to, value) =>
      [("token", Str(token)), ("from", Str(from)), ("to", Str(to)), ("value", Str(value))]
    case EdgeCount => []
    case DelayEdgeUpdates => []
    case PerformEdgeUpdates => []
    case Adjacencies(user) => [("user", Str(user))]
    case Flow(from, to, value) => [("from", Str(from)), ("to", Str(to)), ("value", Str(value))]
  }

  // ---------------------------------------------------------------------
  // Messages and their ids.
  // ---------------------------------------------------------------------

  datatype Message = Message(id: Id, cmd: string, data: JObject)

  /** The static `_id`: the last id handed out, 0 before the first. */
  datatype Counter = Counter(last: Id)

  const Fresh: Counter := Counter(0)

  /** The constructor: the next id, and the command and arguments as
      given. */
  function NewMessage(c: Counter, cmd: string, data: JObject): (r: (Counter, Message))
    ensures r.1.id == (c.last + 1) % Modulus && r.0.last == r.1.id
    ensures r.1.cmd == cmd && r.1.data == data
  {
    var id := (c.last + 1) % Modulus;
    (Counter(id), Message(id, cmd, data))
  }

  /** A factory call: a message for the command. */
  function Make(c: Counter, command: Command): (Counter, Message)
  {
    NewMessage(c, Name(command), Args(command))
  }

  /** The ids of `n` messages created one after another. */
  function Ids(c: Counter, n: nat): (ids: seq<Id>)
    ensures |ids| == n
    decreases n
  {
    if n == 0 then []
    else
      var (c', m) := NewMessage(c, "", []);
      [m.id] + Ids(c', n - 1)
  }

  /** The i-th of `n` new messages gets id last + i + 1, modulo 2^32; so
      from a fresh counter the ids are 1, 2, 3, ..., strictly increasing
      until the counter wraps, and the id after 2^32 - 1 is 0. */
  lemma IdsCount(c: Counter, n: nat)
    ensures forall i :: 0 <= i < n ==> Ids(c, n)[i] == (c.last + i + 1) % Modulus
    ensures c.last + n < Modulus ==> forall i, j :: 0 <= i < j < n ==> Ids(c, n)[i] < Ids(c, n)[j]
  {
    IdsAt(c, n);
    if c.last + n < Modulus {
      forall i | 0 <= i < n
        ensures Ids(c, n)[i] == c.last + i + 1
      {
        assert c.last + i + 1 < Modulus;
      }
    }
  }

  lemma {:induction false} IdsAt(c: Counter, n: nat)
    ensures forall i :: 0 <= i < n ==> Ids(c, n)[i] == (c.last + i + 1) % Modulus
    decreases n
  {
    if n > 0 {
      var c' := NewMessage(c, "", []).0;
      IdsAt(c', n - 1);
      forall i | 0 < i < n
        ensures Ids(c, n)[i] == (c.last + i + 1) % Modulus
      {
        assert Ids(c, n)[i] == Ids(c', n - 1)[i - 1];
        NextIdShift(c.last, i);
      }
    }
  }

  /** Counting i - 1 on from the next id is counting i on from the last. */
  lemma NextIdShift(last: Id, i: nat)
    requires i > 0
    ensures ((last + 1) % Modulus + (i - 1) + 1) % Modulus == (last + i + 1) % Modulus
  {
    if last + 1 == Modulus {
      assert (last + 1) % Modulus == 0;
      assert last + i + 1 == i + Modulus;
    }
  }

  lemma FirstIdAndWrap(cmd: string, data: JObject)
    ensures NewMessage(Fresh, cmd, data).1.id == 1
    ensures NewMessage(Counter(Modulus - 1), cmd, data).1.id == 0
  {
  }

  /** `ToString`: the argument object with `id` and `cmd` assigned. */
  function Serialize(m: Message): JObject
  {
    SetProp(SetProp(m.data, "id", JNumber(m.id)), "cmd", JString(m.cmd))
  }

  /** The written form holds the id, the command name, and every argument
      property unchanged, and no other property. */
  lemma SerializeFields(m: Message, k: string)
    ensures Lookup(Serialize(m), "id") == Some(JNumber(m.id))
    ensures Lookup(Serialize(m), "cmd") == Some(JString(m.cmd))
    ensures k != "id" && k != "cmd" ==> Lookup(Serialize(m), k) == Lookup(m.data, k)
    ensures Keys(Serialize(m)) == Keys(m.data) + {"id", "cmd"}
  {
    var o := SetProp(m.data, "id", JNumber(m.id));
    SetPropLookup(m.data, "id", JNumber(m.id), k);
    SetPropLookup(o, "cmd", JString(m.cmd), k);
    SetPropLookup(o, "cmd", JString(m.cmd), "id");
  }

  // ---------------------------------------------------------------------
  // Reading a command back.
  // ---------------------------------------------------------------------

  function OptStr(j: Option<Json>): Option<Option<string>>
  {
    match j
    case Some(JNull) => Some(None)
    case Some(JString(s)) => Some(Some(s))
    case _ => None
  }

  /** The command a receiver reads from a command name and an object. */
  function Decode(cmd: string, o: JObject): Option<Command>
  {
    if cmd == "loaddb" then Some(LoadDb)
    else if cmd == "loaddbStream" then
      (var d := OptStr(Lookup(o, "data")); if d.Some? then Some(LoadDbFromHexString(d.value)) else None)
    else if cmd == "signup" then
      (var u, t := OptStr(Lookup(o, "user")), OptStr(Lookup(o, "token"));
       if u.Some? && t.Some? then Some(Signup(u.value, t.value)) else None)
    else if cmd == "organizationSignup" then
      (var g := OptStr(Lookup(o, "organization"));
       if g.Some? then Some(OrganizationSignup(g.value)) else None)
    else if cmd == "trust" then
      (var cs, u, l := OptStr(Lookup(o, "canSendTo")), OptStr(Lookup(o, "user")), Lookup(o, "limitPercentage");
       if cs.Some? && u.Some? && l.Some? && l.value.JNumber? then Some(Trust(cs.value, u.value, l.value.n))
       else None)
    else if cmd == "transfer" then
      (var t, f, d, v := OptStr(Lookup(o, "token")), OptStr(Lookup(o, "from")),
                         OptStr(Lookup(o, "to")), OptStr(Lookup(o, "value"));
       if t.Some? && f.Some? && d.Some? && v.Some? then Some(Transfer(t.value, f.value, d.value, v.value))
       else None)
    else if cmd == "edgeCount" then Some(EdgeCount)
    else if cmd == "delayEdgeUpdates" then Some(DelayEdgeUpdates)
    else if cmd == "performEdgeUpdates" then Some(PerformEdgeUpdates)
    else if cmd == "adjacencies" then
      (var u := OptStr(Lookup(o, "user")); if u.Some? then Some(Adjacencies(u.value)) else None)
    else if cmd == "flow" then
      (var f, d, v := OptStr(Lookup(o, "from")), OptStr(Lookup(o, "to")), OptStr(Lookup(o, "value"));
       if f.Some? && d.Some? && v.Some? then Some(Flow(f.value, d.value, v.value)) else None)
    else None
  }

  /** The property names `Decode` reads. */
  const ArgNames: set<string> :=
    {"data", "user", "token", "organization", "canSendTo", "limitPercentage", "from", "to", "value"}

  /** `Decode` reads nothing but those properties. */
  lemma DecodeReadsArgNames(cmd: string, o1: JObject, o2: JObject)
    requires forall k | k in ArgNames :: Lookup(o1, k) == Lookup(o2, k)
    ensures Decode(cmd, o1) == Decode(cmd, o2)
  {
    assert Lookup(o1, "data") == Lookup(o2, "data");
    assert Lookup(o1, "user") == Lookup(o2, "user");
    assert Lookup(o1, "token") == Lookup(o2, "token");
    assert Lookup(o1, "organization") == Lookup(o2, "organization");
    assert Lookup(o1, "canSendTo") == Lookup(o2, "canSendTo");
    assert Lookup(o1, "limitPercentage") == Lookup(o2, "limitPercentage");
    assert Lookup(o1, "from") == Lookup(o2, "from");
    assert Lookup(o1, "to") == Lookup(o2, "to");
    assert Lookup(o1, "value") == Lookup(o2, "value");
  }

  /** Each factory's name and arguments identify its command and every
      argument: decoding them gives the command back. */
  lemma DecodeArgs(c: Command)
    ensures Decode(Name(c), Args(c)) == Some(c)
  {
    var o := Args(c);
    match c
    case Signup(u, t) =>
      assert o[1..] == [("token", Str(t))];
      assert Lookup(o, "user") == Some(Str(u));
      assert Lookup(o, "token") == Some(Str(t));
    case Trust(cs, u, l) =>
      assert o[1..][1..] == [("limitPercentage", JNumber(l))];
      assert Lookup(o, "canSendTo") == Some(Str(cs));
      assert Lookup(o, "user") == Some(Str(u));
      assert Lookup(o[1..], "limitPercentage") == Some(JNumber(l));
      assert Lookup(o, "limitPercentage") == Some(JNumber(l));
    case Transfer(t, f, d, v) =>
      assert o[1..][1..] == [("to", Str(d)), ("value", Str(v))];
      assert o[1..][1..][1..] == [("value", Str(v))];
      assert Lookup(o, "token") == Some(Str(t));
      assert Lookup(o, "from") == Some(Str(f));
      assert Lookup(o[1..][1..], "value") == Some(Str(v));
      assert Lookup(o[1..], "to") == Some(Str(d));
      assert Lookup(o[1..], "value") == Some(Str(v));
      assert Lookup(o, "to") == Some(Str(d));
      assert Lookup(o, "value") == Some(Str(v));
    case Flow(f, d, v) =>
      assert o[1..][1..] == [("value", Str(v))];
      assert Lookup(o, "from") == Some(Str(f));
      assert Lookup(o, "to") == Some(Str(d));
      assert Lookup(o[1..], "value") == Some(Str(v));
      assert Lookup(o, "value") == Some(Str(v));
    case LoadDb =>
    case LoadDbFromHexString(d) =>
      assert Lookup(o, "data") == Some(Str(d));
    case OrganizationSignup(g) =>
      assert Lookup(o, "organization") == Some(Str(g));
    case EdgeCount =>
    case DelayEdgeUpdates =>
    case PerformEdgeUpdates =>
    case Adjacencies(u) =>
      assert Lookup(o, "user") == Some(Str(u));
  }

  /** The same holds for the written form of a message made by a factory,
      with the command name taken from its `cmd` property. */
  lemma DecodeSerialized(counter: Counter, c: Command)
    ensures var m := Make(counter, c).1;
      var o := Serialize(m);
      && Lookup(o, "cmd") == Some(JString(Name(c)))
      && Decode(Name(c), o) == Some(c)
  {
    var m := Make(counter, c).1;
    var o := Serialize(m);
    forall k | k in ArgNames
      ensures Lookup(o, k) == Lookup(Args(c), k)
    {
      SerializeFields(m, k);
    }
    SerializeFields(m, "id");
    DecodeArgs(c);
    DecodeReadsArgNames(Name(c), o, Args(c));
  }

  /** The three bracket commands carry no arguments. */
  lemma EdgeCommandsCarryNothing()
    ensures Args(EdgeCount) == [] && Args(DelayEdgeUpdates) == [] && Args(PerformEdgeUpdates) == []
  {
  }
}

=== FILE: session.dfy ===
/** A feed and a consumer talking to each other: the two state machines of
    `Feed/Feed.cs` and `Feed/Consumer.cs` composed over one FIFO queue of
    messages in flight. The feed's item factory yields a fixed list and the
    consumer's sink accepts every item, recording it (the sink the
    pathfinder feeder installs always returns true). */
module Session {
  import opened Common
  import opened FeedProtocol
  import Feed
  import Consumer

  datatype Delivery<P> = ToFeed(fm: Feed.Msg<P>) | ToConsumer(cm: Consumer.Msg<P>)

  /** `feedRef` is the feed actor's address, `items` what its factory has
      still to give, `sunk` what the consumer's sink has received so far. */
  datatype World<P> = World(feedRef: ActorRef, feed: Feed.State, consumer: Consumer.State,
                            pending: seq<Delivery<P>>, items: seq<P>, sunk: seq<P>)

  ghost predicate Valid<P>(w: World<P>)
  {
    Feed.Valid(w.feed) && Consumer.Valid(w.consumer)
  }

  /** Where one output of the feed goes: messages to the consumer; a
      factory call is answered by the next item of the list or by end of
      data. Returns the deliveries and the list left afterwards. */
  function RouteFeedOut<P>(feedRef: ActorRef, o: Feed.Out<P>, items: seq<P>): (seq<Delivery<P>>, seq<P>)
  {
    match o
    case SendHello(_, hello) => ([ToConsumer(Consumer.FeedHello(feedRef, hello))], items)
    case SendPayload(_, p) => ([ToConsumer(Consumer.Payload(p))], items)
    case SendGoodbye(_, reason) => ([ToConsumer(Consumer.FeedGoodbye(reason))], items)
    case InvokeFactory(_) =>
      if |items| == 0 then ([ToFeed(Feed.FactoryDone(EndOfData))], items)
      else ([ToFeed(Feed.FactoryDone(Item(items[0])))], items[1..])
    case Stop => ([], items)
  }

  function RouteFeed<P>(feedRef: ActorRef, out: seq<Feed.Out<P>>, items: seq<P>): (seq<Delivery<P>>, seq<P>)
    decreases |out|
  {
    if |out| == 0 then ([], items)
    else
      var head := RouteFeedOut(feedRef, out[0], items);
      var rest := RouteFeed(feedRef, out[1..], head.1);
      (head.0 + rest.0, rest.1)
  }

  /** Where one output of the consumer goes: messages to the feed; a sink
      call records the item and is answered with `true`. Returns the
      deliveries and the sunk items afterwards. */
  function RouteConsumerOut<P>(o: Consumer.Out<P>, sunk: seq<P>): (seq<Delivery<P>>, seq<P>)
  {
    match o
    case ReplyHello(_, hello) => ([ToFeed(Feed.ConsumerHello(hello))], sunk)
    case SendNext(_) => ([ToFeed(Feed.Next)], sunk)
    case SendGoodbye(_, reason) => ([ToFeed(Feed.ConsumerGoodbye(reason))], sunk)
    case InvokeSink(_, p) => ([ToConsumer(Consumer.SinkDone(true))], sunk + [p])
    case Stop => ([], sunk)
  }

  function RouteConsumer<P>(out: seq<Consumer.Out<P>>, sunk: seq<P>): (seq<Delivery<P>>, seq<P>)
    decreases |out|
  {
    if |out| == 0 then ([], sunk)
    else
      var head := RouteConsumerOut(out[0], sunk);
      var rest := RouteConsumer(out[1..], head.1);
      (head.0 + rest.0, rest.1)
  }

  lemma RouteFeedOne<P>(feedRef: ActorRef, o: Feed.Out<P>, items: seq<P>)
    ensures RouteFeed(feedRef, [o], items) == RouteFeedOut(feedRef, o, items)
  {
    assert [o][1..] == [];
    var head := RouteFeedOut(feedRef, o, items);
    assert head.0 + [] == head.0;
  }

  lemma RouteFeedTwo<P>(feedRef: ActorRef, o1: Feed.Out<P>, o2: Feed.Out<P>, items: seq<P>)
    ensures var a := RouteFeedOut(feedRef, o1, items);
      var b := RouteFeedOut(feedRef, o2, a.1);
      RouteFeed(feedRef, [o1, o2], items) == (a.0 + b.0, b.1)
  {
    assert [o1, o2][1..] == [o2];
    RouteFeedOne(feedRef, o2, RouteFeedOut(feedRef, o1, items).1);
  }

  lemma RouteConsumerOne<P>(o: Consumer.Out<P>, sunk: seq<P>)
    ensures RouteConsumer([o], sunk) == RouteConsumerOut(o, sunk)
  {
    assert [o][1..] == [];
    var head := RouteConsumerOut(o, sunk);
    assert head.0 + [] == head.0;
  }

  lemma RouteConsumerTwo<P>(o1: Consumer.Out<P>, o2: Consumer.Out<P>, sunk: seq<P>)
    ensures var a := RouteConsumerOut(o1, sunk);
      var b := RouteConsumerOut(o2, a.1);
      RouteConsumer([o1, o2], sunk) == (a.0 + b.0, b.1)
  {
    assert [o1, o2][1..] == [o2];
    RouteConsumerOne(o2, RouteConsumerOut(o1, sunk).1);
  }

  /** Delivers the oldest message in flight and queues what it causes. */
  function Deliver<P>(w: World<P>): (r: World<P>)
    requires Valid(w) && |w.pending| > 0
    ensures Valid(r)
  {
    match w.pending[0]
    case ToFeed(m) =>
      var t := Feed.Step(w.feed, m);
      var routed := RouteFeed(w.feedRef, t.out, w.items);
      w.(feed := t.state, pending := w.pending[1..] + routed.0, items := routed.1)
    case ToConsumer(m) =>
      var t := Consumer.Step(w.consumer, m);
      var routed := RouteConsumer(t.out, w.sunk);
      w.(consumer := t.state, pending := w.pending[1..] + routed.0, sunk := routed.1)
  }

  /** One delivery, or nothing once the session is quiet. */
  ghost function Tick<P>(w: World<P>): World<P>
  {
    if Valid(w) && |w.pending| > 0 then Deliver(w) else w
  }

  /** Applies `tick` up to `fuel` times, stopping early once nothing is in
      flight. */
  function Iterate<P>(tick: World<P> -> World<P>, w: World<P>, fuel: nat): World<P>
    decreases fuel
  {
    if fuel == 0 || |w.pending| == 0 then w else Iterate(tick, tick(w), fuel - 1)
  }

  /** Delivers up to `fuel` messages. */
  ghost function Run<P>(w: World<P>, fuel: nat): World<P>
  {
    Iterate(Tick, w, fuel)
  }

  /** Running `a` then `b` steps is running `a + b` steps. */
  lemma {:induction false} IterateSplit<P>(tick: World<P> -> World<P>, w: World<P>, a: nat, b: nat)
    ensures Iterate(tick, w, a + b) == Iterate(tick, Iterate(tick, w, a), b)
    decreases a
  {
    if a > 0 && |w.pending| > 0 {
      IterateSplit(tick, tick(w), a - 1, b);
    }
  }

  /** A run of `fuel + 1` steps from a busy valid world starts with one
      delivery. */
  lemma RunStep<P>(w: World<P>, fuel: nat)
    requires Valid(w) && |w.pending| > 0
    ensures Run(w, fuel + 1) == Run(Deliver(w), fuel)
  {
  }

  /** A session just opened: the feed has started and its Hello is in
      flight to a fresh consumer. */
  function Open<P>(feedRef: ActorRef, config: Feed.Config, consumerModes: FeedMode, items: seq<P>): (w: World<P>)
    requires !config.continueTimeout || HasFlag(config.supported, Infinite)
    ensures Valid(w)
  {
    var t := Feed.Start<P>(config);
    var (msgs, rest) := RouteFeed(feedRef, t.out, items);
    World(feedRef, t.state, Consumer.Init(consumerModes), msgs, rest, [])
  }

  // ---------------------------------------------------------------------
  // The deliveries a session goes through, one lemma each.
  // ---------------------------------------------------------------------

  /** The consumer gets the feed's Hello: its own Hello and its first
      `Next` go to the feed. */
  lemma DeliverFeedHello<P>(w: World<P>, hello: Hello)
    requires Valid(w) && |w.pending| > 0
    requires w.pending[0] == ToConsumer(Consumer.FeedHello(w.feedRef, hello))
    requires w.consumer.phase == Consumer.WaitingForConnection
    ensures var choice := Consumer.Choose(w.consumer.supported, hello.mode);
      var r := Deliver(w);
      && r.pending == w.pending[1..] + [ToFeed(Feed.ConsumerHello(Hello(Receiver, choice))), ToFeed(Feed.Next)]
      && r.consumer.phase == Consumer.Ready && r.consumer.feed == Some(w.feedRef)
      && r.feed == w.feed && r.items == w.items && r.sunk == w.sunk
  {
    var choice := Consumer.Choose(w.consumer.supported, hello.mode);
    RouteConsumerTwo<P>(Consumer.ReplyHello(w.feedRef, Hello(Receiver, choice)), Consumer.SendNext(w.feedRef), w.sunk);
  }

  /** The feed gets the consumer's Hello. */
  lemma DeliverConsumerHello<P>(w: World<P>, hello: Hello)
    requires Valid(w) && |w.pending| > 0
    requires w.pending[0] == ToFeed(Feed.ConsumerHello(hello)) && w.feed.phase == Feed.Connecting
    ensures var r := Deliver(w);
      && r.feed == Feed.Step<P>(w.feed, Feed.ConsumerHello(hello)).state
      && r.pending == w.pending[1..] && r.consumer == w.consumer
      && r.items == w.items && r.sunk == w.sunk
  {
  }

  /** The feed gets a `Next` and calls its factory, which answers at once
      with the next item of the list or end of data. */
  lemma DeliverNext<P>(w: World<P>)
    requires Valid(w) && |w.pending| > 0
    requires w.pending[0] == ToFeed(Feed.Next) && w.feed.phase == Feed.Connected
    ensures var r := Deliver(w);
      && r.feed == w.feed.(phase := Feed.WaitForFactory)
      && r.consumer == w.consumer && r.sunk == w.sunk
      && (|w.items| == 0 ==>
            r.pending == w.pending[1..] + [ToFeed(Feed.FactoryDone(EndOfData))] && r.items == [])
      && (|w.items| > 0 ==>
            r.pending == w.pending[1..] + [ToFeed(Feed.FactoryDone(Item(w.items[0])))] && r.items == w.items[1..])
  {
    RouteFeedOne<P>(w.feedRef, Feed.InvokeFactory(w.feed.handshake), w.items);
  }

  /** The feed gets an item from its factory and passes it on. */
  lemma DeliverItem<P>(w: World<P>, x: P)
    requires Valid(w) && |w.pending| > 0
    requires w.pending[0] == ToFeed(Feed.FactoryDone(Item(x))) && w.feed.phase == Feed.WaitForFactory
    ensures var r := Deliver(w);
      && r.feed == w.feed.(phase := Feed.Connected, processed := w.feed.processed + 1)
      && r.pending == w.pending[1..] + [ToConsumer(Consumer.Payload(x))]
      && r.consumer == w.consumer && r.items == w.items && r.sunk == w.sunk
  {
    RouteFeedOne<P>(w.feedRef, Feed.SendPayload(w.feed.config.consumer, x), w.items);
  }

  /** The feed gets end of data: without the Infinite flag it says
      `Goodbye(Eof)` and closes, with it it waits for `Continue`. */
  lemma DeliverEndOfData<P>(w: World<P>)
    requires Valid(w) && |w.pending| > 0
    requires w.pending[0] == ToFeed(Feed.FactoryDone(EndOfData)) && w.feed.phase == Feed.WaitForFactory
    ensures var r := Deliver(w);
      && r.consumer == w.consumer && r.items == w.items && r.sunk == w.sunk
      && (!HasFlag(w.feed.negotiated.value, Infinite) ==>
            r.feed.phase == Feed.Closed && r.pending == w.pending[1..] + [ToConsumer(Consumer.FeedGoodbye(Eof))])
      && (HasFlag(w.feed.negotiated.value, Infinite) ==>
            r.feed.phase == Feed.WaitForContinue && r.pending == w.pending[1..])
  {
    if !HasFlag(w.feed.negotiated.value, Infinite) {
      RouteFeedTwo<P>(w.feedRef, Feed.SendGoodbye(w.feed.config.consumer, Eof), Feed.Stop, w.items);
    }
  }

  /** The consumer gets a payload and hands it to the sink, which takes it
      and answers `true`. */
  lemma DeliverPayload<P>(w: World<P>, x: P)
    requires Valid(w) && |w.pending| > 0
    requires w.pending[0] == ToConsumer(Consumer.Payload(x)) && w.consumer.phase == Consumer.Ready
    ensures var r := Deliver(w);
      && r.consumer == w.consumer.(phase := Consumer.WaitingForSink)
      && r.pending == w.pending[1..] + [ToConsumer(Consumer.SinkDone(true))]
      && r.sunk == w.sunk + [x] && r.feed == w.feed && r.items == w.items
  {
    RouteConsumerOne<P>(Consumer.InvokeSink(w.consumer.handshake, x), w.sunk);
  }

  /** The consumer gets the sink's `true` and asks for the next item. */
  lemma DeliverSinkDone<P>(w: World<P>)
    requires Valid(w) && |w.pending| > 0
    requires w.pending[0] == ToConsumer(Consumer.SinkDone(true)) && w.consumer.phase == Consumer.WaitingForSink
    ensures var r := Deliver(w);
      && r.consumer == w.consumer.(phase := Consumer.Ready)
      && r.pending == w.pending[1..] + [ToFeed(Feed.Next)]
      && r.sunk == w.sunk && r.feed == w.feed && r.items == w.items
  {
    RouteConsumerOne<P>(Consumer.SendNext(w.consumer.feed.value), w.sunk);
  }

  /** The consumer gets the feed's Goodbye and closes. */
  lemma DeliverFeedGoodbye<P>(w: World<P>, reason: GoodbyeReason)
    requires Valid(w) && |w.pending| > 0
    requires w.pending[0] == ToConsumer(Consumer.FeedGoodbye(reason)) && w.consumer.phase == Consumer.Ready
    ensures var r := Deliver(w);
      && r.consumer.phase == Consumer.Closed && r.pending == w.pending[1..]
      && r.sunk == w.sunk && r.feed == w.feed && r.items == w.items
  {
    RouteConsumerOne<P>(Consumer.Stop, w.sunk);
  }

  // ---------------------------------------------------------------------
  // Whole sessions.
  // ---------------------------------------------------------------------

  /** The point the session returns to between items: connected with the
      given negotiated mode, the consumer ready, and its `Next` in flight. */
  ghost predicate AtNext<P>(w: World<P>, mode: FeedMode)
  {
    && Valid(w)
    && w.feed.phase == Feed.Connected
    && w.feed.negotiated == Some(mode)
    && w.consumer.phase == Consumer.Ready
    && w.consumer.feed == Some(w.feedRef)
    && w.pending == [ToFeed(Feed.Next)]
  }

  /** The handshake succeeds exactly when the consumer's choice is a mode
      the feed offers: when the feed offers Finite, or both sides support
      Infinite. Otherwise the feed rejects the choice and fails. */
  lemma HandshakeSucceedsIff<P>(feedRef: ActorRef, config: Feed.Config, consumerModes: FeedMode, items: seq<P>)
    requires !config.continueTimeout || HasFlag(config.supported, Infinite)
    ensures var w := Run(Open(feedRef, config, consumerModes, items), 2);
      var choice := Consumer.Choose(consumerModes, config.supported);
      && ((w.feed.phase == Feed.Connected)
            <==> (HasFlag(config.supported, Finite)
                  || (HasFlag(consumerModes, Infinite) && HasFlag(config.supported, Infinite))))
      && (w.feed.phase == Feed.Connected ==>
            AtNext(w, choice) && w.items == items && w.sunk == [] && w.feed.processed == 0)
      && (w.feed.phase != Feed.Connected ==> w.feed.phase == Feed.Failed(Feed.ModeNotSupported))
  {
    var w0 := Open(feedRef, config, consumerModes, items);
    var hello := Hello(Sender, config.supported);
    RouteFeedOne<P>(feedRef, Feed.SendHello(config.consumer, hello), items);
    assert w0.pending == [ToConsumer(Consumer.FeedHello(feedRef, hello))];
    var choice := Consumer.Choose(consumerModes, config.supported);
    DeliverFeedHello(w0, hello);
    var w1 := Deliver(w0);
    assert w1.pending == [ToFeed(Feed.ConsumerHello(Hello(Receiver, choice))), ToFeed(Feed.Next)];
    DeliverConsumerHello(w1, Hello(Receiver, choice));
    var w2 := Deliver(w1);
    assert w2.pending == [ToFeed(Feed.Next)];
    RunStep(w0, 1);
    RunStep(w1, 0);
    assert Run(w0, 2) == w2;
    if w2.feed.phase != Feed.Connected {
      assert choice == Finite;
    }
  }

  /** One item: `Next`, the factory's answer, the payload and the sink's
      answer bring the session back to the same point with the item sunk,
      counted, and taken off the list. */
  lemma OneItem<P>(w: World<P>, mode: FeedMode)
    requires AtNext(w, mode) && |w.items| > 0
    ensures var w4 := Run(w, 4);
      && AtNext(w4, mode)
      && w4.items == w.items[1..]
      && w4.sunk == w.sunk + [w.items[0]]
      && w4.feed.processed == w.feed.processed + 1
  {
    var x := w.items[0];
    DeliverNext(w);
    var w1 := Deliver(w);
    DeliverItem(w1, x);
    var w2 := Deliver(w1);
    DeliverPayload(w2, x);
    var w3 := Deliver(w2);
    DeliverSinkDone(w3);
    var w4 := Deliver(w3);
    RunStep(w, 3);
    RunStep(w1, 2);
    RunStep(w2, 1);
    RunStep(w3, 0);
    assert Run(w, 4) == w4;
  }

  /** `tick` moves one item in four deliveries from the point between
      items, as `OneItem` shows of `Tick`. */
  ghost predicate MovesOneItem<P(!new)>(tick: World<P> -> World<P>, mode: FeedMode)
  {
    forall v: World<P> {:trigger Iterate(tick, v, 4)} :: AtNext(v, mode) && |v.items| > 0 ==>
      var v4 := Iterate(tick, v, 4);
      && AtNext(v4, mode)
      && v4.items == v.items[1..]
      && v4.sunk == v.sunk + [v.items[0]]
      && v4.feed.processed == v.feed.processed + 1
  }

  lemma TickMovesOneItem<P(!new)>(mode: FeedMode)
    ensures MovesOneItem<P>(Tick, mode)
  {
    forall v: World<P> | AtNext(v, mode) && |v.items| > 0
      ensures var v4 := Iterate(Tick, v, 4);
        && AtNext(v4, mode)
        && v4.items == v.items[1..]
        && v4.sunk == v.sunk + [v.items[0]]
        && v4.feed.processed == v.feed.processed + 1
    {
      OneItem(v, mode);
    }
  }

  /** Draining the list from the point between items: every item reaches
      the sink in list order and is counted by the feed. */
  lemma {:induction false} Drains<P(!new)>(tick: World<P> -> World<P>, w: World<P>, mode: FeedMode, fuel: nat)
    requires MovesOneItem(tick, mode) && AtNext(w, mode)
    ensures var r := Iterate(tick, w, 4 * |w.items|);
      && AtNext(r, mode)
      && r.items == []
      && r.sunk == w.sunk + w.items
      && r.feed.processed == w.feed.processed + |w.items|
      && Iterate(tick, w, 4 * |w.items| + fuel) == Iterate(tick, r, fuel)
    decreases |w.items|
  {
    var n := |w.items|;
    if n > 0 {
      var w4 := Iterate(tick, w, 4);
      assert AtNext(w4, mode) && w4.items == w.items[1..];
      IterateSplit(tick, w, 4, 4 * (n - 1));
      IterateSplit(tick, w, 4, 4 * (n - 1) + fuel);
      Drains(tick, w4, mode, fuel);
      assert 4 * (n - 1) + 4 == 4 * n;
      assert w.items == [w.items[0]] + w4.items;
    } else {
      assert Iterate(tick, w, 0 + fuel) == Iterate(tick, w, fuel);
    }
  }

  /** With a mode lacking the Infinite flag, end of data closes both ends:
      the feed says `Goodbye(Eof)` and the consumer closes on it. */
  lemma FiniteEnd<P>(w: World<P>, mode: FeedMode, fuel: nat)
    requires AtNext(w, mode) && w.items == [] && !HasFlag(mode, Infinite)
    ensures var r := Run(w, fuel + 3);
      && r.pending == []
      && r.feed.phase == Feed.Closed && r.consumer.phase == Consumer.Closed
      && r.sunk == w.sunk && r.feed.processed == w.feed.processed
  {
    DeliverNext(w);
    var w1 := Deliver(w);
    DeliverEndOfData(w1);
    var w2 := Deliver(w1);
    DeliverFeedGoodbye(w2, Eof);
    var w3 := Deliver(w2);
    RunStep(w, fuel + 2);
    RunStep(w1, fuel + 1);
    RunStep(w2, fuel);
    assert Run(w3, fuel) == w3;
  }

  /** With the Infinite flag negotiated, end of data leaves the feed waiting
      for a `Continue` that the consumer never sends: nothing is in flight
      and the consumer is still ready. Only the feed's continue timer, when
      one is configured, can move the session on (`ContinueTimerFires`). */
  lemma InfiniteEndWaits<P>(w: World<P>, mode: FeedMode, fuel: nat)
    requires AtNext(w, mode) && w.items == [] && HasFlag(mode, Infinite)
    ensures var r := Run(w, fuel + 2);
      && Valid(r) && r.pending == []
      && r.feed.phase == Feed.WaitForContinue && r.consumer.phase == Consumer.Ready
      && r.sunk == w.sunk
  {
    DeliverNext(w);
    var w1 := Deliver(w);
    DeliverEndOfData(w1);
    var w2 := Deliver(w1);
    RunStep(w, fuel + 1);
    RunStep(w1, fuel);
    assert Run(w2, fuel) == w2;
  }

  /** From between items in Finite mode: the whole list reaches the sink in
      order and is counted, and then both ends close. */
  lemma FiniteDrainThenClose<P(!new)>(w: World<P>, fuel: nat)
    requires AtNext(w, Finite) && fuel >= 4 * |w.items| + 3
    ensures var r := Run(w, fuel);
      && r.sunk == w.sunk + w.items
      && r.feed.processed == w.feed.processed + |w.items|
      && r.pending == []
      && r.feed.phase == Feed.Closed
      && r.consumer.phase == Consumer.Closed
  {
    var rest := fuel - 4 * |w.items| - 3;
    var w3 := Iterate(Tick, w, 4 * |w.items|);
    assert && AtNext(w3, Finite) && w3.sunk == w.sunk + w.items && w3.items == []
           && w3.feed.processed == w.feed.processed + |w.items|
           && Run(w, fuel) == Run(w3, rest + 3) by {
      TickMovesOneItem<P>(Finite);
      Drains(Tick, w, Finite, rest + 3);
    }
    assert !HasFlag(Finite, Infinite) by {
      assert InfiniteFlag in Infinite && InfiniteFlag !in Finite;
    }
    FiniteEnd(w3, Finite, rest);
  }

  /** From between items in Infinite mode: the whole list reaches the sink
      in order, and then the session goes quiet with the feed waiting. */
  lemma InfiniteDrainThenWait<P(!new)>(w: World<P>, fuel: nat)
    requires AtNext(w, Infinite) && fuel >= 4 * |w.items| + 2
    ensures var r := Run(w, fuel);
      && r.sunk == w.sunk + w.items
      && Valid(r) && r.pending == []
      && r.feed.phase == Feed.WaitForContinue
      && r.consumer.phase == Consumer.Ready
  {
    var rest := fuel - 4 * |w.items| - 2;
    var w3 := Iterate(Tick, w, 4 * |w.items|);
    assert && AtNext(w3, Infinite) && w3.sunk == w.sunk + w.items && w3.items == []
           && Run(w, fuel) == Run(w3, rest + 2) by {
      TickMovesOneItem<P>(Infinite);
      Drains(Tick, w, Infinite, rest + 2);
    }
    assert HasFlag(Infinite, Infinite);
    InfiniteEndWaits(w3, Infinite, rest);
  }

  /** A Finite session over a list: when the consumer answers Finite and
      the feed offers it, the consumer's sink receives exactly the list, in
      order, the feed counts every item, and both ends close. */
  lemma FiniteSessionDeliversAll<P(!new)>(feedRef: ActorRef, config: Feed.Config, consumerModes: FeedMode,
                                    items: seq<P>, fuel: nat)
    requires !config.continueTimeout || HasFlag(config.supported, Infinite)
    requires HasFlag(config.supported, Finite)
    requires !(HasFlag(consumerModes, Infinite) && HasFlag(config.supported, Infinite))
    requires fuel >= 4 * |items| + 5
    ensures var r := Run(Open(feedRef, config, consumerModes, items), fuel);
      && r.sunk == items
      && r.feed.processed == |items|
      && r.pending == []
      && r.feed.phase == Feed.Closed
      && r.consumer.phase == Consumer.Closed
  {
    var w0 := Open(feedRef, config, consumerModes, items);
    var w2 := Run(w0, 2);
    HandshakeSettles(feedRef, config, consumerModes, items, Finite);
    assert Run(w0, fuel) == Run(w2, fuel - 2) by {
      IterateSplit(Tick, w0, 2, fuel - 2);
    }
    FiniteDrainThenClose(w2, fuel - 2);
    assert [] + items == items;
  }

  /** A handshake that succeeds with the given mode leaves the session
      between items, with nothing sunk or counted yet. */
  lemma HandshakeSettles<P>(feedRef: ActorRef, config: Feed.Config, consumerModes: FeedMode, items: seq<P>,
                            mode: FeedMode)
    requires !config.continueTimeout || HasFlag(config.supported, Infinite)
    requires mode == Consumer.Choose(consumerModes, config.supported)
    requires HasFlag(config.supported, Finite) || HasFlag(config.supported, mode)
    ensures var w2 := Run(Open(feedRef, config, consumerModes, items), 2);
      && AtNext(w2, mode) && w2.items == items && w2.sunk == [] && w2.feed.processed == 0
  {
    HandshakeSucceedsIff(feedRef, config, consumerModes, items);
  }

  /** The continue timer firing while the feed waits, with nothing else in
      flight: the feed says `Goodbye(Error)` and fails, and the consumer
      closes on that goodbye. */
  lemma ContinueTimerFires<P>(r: World<P>, fuel: nat)
    requires Valid(r) && r.pending == []
    requires r.feed.phase == Feed.WaitForContinue && r.consumer.phase == Consumer.Ready
    ensures var f := Run(r.(pending := [ToFeed(Feed.ContinueTimeout)]), fuel + 2);
      && f.pending == []
      && f.feed.phase == Feed.Failed(Feed.ContinueTimedOut)
      && f.consumer.phase == Consumer.Closed
      && f.sunk == r.sunk && f.items == r.items
  {
    var w0 := r.(pending := [ToFeed(Feed.ContinueTimeout)]);
    RouteFeedOne<P>(r.feedRef, Feed.SendGoodbye(r.feed.config.consumer, Error), r.items);
    var w1 := Deliver(w0);
    assert w1.pending == [ToConsumer(Consumer.FeedGoodbye(Error))];
    DeliverFeedGoodbye(w1, Error);
    var w2 := Deliver(w1);
    RunStep(w0, fuel + 1);
    RunStep(w1, fuel);
    assert Run(w2, fuel) == w2;
  }

  /** With Infinite on both sides and no continue timeout (the buffer's
      feeds set none), the session delivers the list and then stalls for
      good: the consumer never sends the `Continue` an Infinite feed waits
      for, and no timer is armed. */
  lemma InfiniteSessionStalls<P(!new)>(feedRef: ActorRef, config: Feed.Config, consumerModes: FeedMode,
                                 items: seq<P>, fuel: nat)
    requires !config.continueTimeout
    requires HasFlag(consumerModes, Infinite) && HasFlag(config.supported, Infinite)
    requires fuel >= 4 * |items| + 4
    ensures var r := Run(Open(feedRef, config, consumerModes, items), fuel);
      && r.sunk == items
      && r.pending == []
      && r.feed.phase == Feed.WaitForContinue
      && r.consumer.phase == Consumer.Ready
  {
    var w0 := Open(feedRef, config, consumerModes, items);
    var w2 := Run(w0, 2);
    HandshakeSettles(feedRef, config, consumerModes, items, Infinite);
    assert Run(w0, fuel) == Run(w2, fuel - 2) by {
      IterateSplit(Tick, w0, 2, fuel - 2);
    }
    InfiniteDrainThenWait(w2, fuel - 2);
    assert [] + items == items;
  }

  /** With Infinite on both sides and a continue timeout, the session
      delivers the list and waits; when the timer fires the feed ends the
      session with `Goodbye(Error)` and fails, and the consumer closes,
      with every item already sunk. */
  lemma InfiniteSessionTimesOut<P(!new)>(feedRef: ActorRef, config: Feed.Config, consumerModes: FeedMode,
                                   items: seq<P>, fuel: nat)
    requires config.continueTimeout
    requires HasFlag(consumerModes, Infinite) && HasFlag(config.supported, Infinite)
    requires fuel >= 4 * |items| + 4
    ensures var r := Run(Open(feedRef, config, consumerModes, items), fuel);
      && r.sunk == items && r.pending == []
      && r.feed.phase == Feed.WaitForContinue
      && var f := Run(r.(pending := [ToFeed(Feed.ContinueTimeout)]), 2);
         && f.pending == []
         && f.feed.phase == Feed.Failed(Feed.ContinueTimedOut)
         && f.consumer.phase == Consumer.Closed
         && f.sunk == items
  {
    var w0 := Open(feedRef, config, consumerModes, items);
    var w2 := Run(w0, 2);
    HandshakeSettles(feedRef, config, consumerModes, items, Infinite);
    assert Run(w0, fuel) == Run(w2, fuel - 2) by {
      IterateSplit(Tick, w0, 2, fuel - 2);
    }
    InfiniteDrainThenWait(w2, fuel - 2);
    assert [] + items == items;
    ContinueTimerFires(Run(w0, fuel), 0);
  }
}

=== FILE: sorted_entries.dfy ===
/** The storage behind both event buffers: a `SortedList<TKey, TValue>` /
    `SortedDictionary` modelled as a sequence of entries whose keys strictly
    increase. The operations are the collection methods the buffers call:
    `ContainsKey`, `Add`, `Remove`, `IndexOfKey`, `First`, `Last`, `Values`. */
module SortedEntries {
  import opened Common

  datatype Entry<V> = Entry(key: Key, value: V)

  /** Keys strictly increase along the sequence, hence are pairwise distinct. */
  ghost predicate Sorted<V>(s: seq<Entry<V>>)
  {
    forall i, j :: 0 <= i < j < |s| ==> Less(s[i].key, s[j].key)
  }

  /** The stored keys (`ContainsKey(k)` is `k in KeySet(s)`). */
  function KeySet<V>(s: seq<Entry<V>>): set<Key>
  {
    set i | 0 <= i < |s| :: s[i].key
  }

  /** The key-to-value mapping the sequence represents. */
  function ToMap<V>(s: seq<Entry<V>>): map<Key, V>
  {
    if |s| == 0 then map[] else ToMap(s[1..])[s[0].key := s[0].value]
  }

  /** The values in key order (`SortedList.Values`, or enumerating the list). */
  function Values<V>(s: seq<Entry<V>>): (vs: seq<V>)
    ensures |vs| == |s|
  {
    if |s| == 0 then [] else [s[0].value] + Values(s[1..])
  }

  /** The `i`-th value is the `i`-th entry's value. */
  lemma {:induction false} ValuesAt<V>(s: seq<Entry<V>>, i: nat)
    requires i < |s|
    ensures Values(s)[i] == s[i].value
    decreases |s|
  {
    if i > 0 {
      ValuesAt(s[1..], i - 1);
    }
  }

  lemma KeySetCons<V>(s: seq<Entry<V>>)
    requires |s| > 0
    ensures KeySet(s) == {s[0].key} + KeySet(s[1..])
  {
    forall x | x in KeySet(s)
      ensures x in {s[0].key} + KeySet(s[1..])
    {
      var i :| 0 <= i < |s| && s[i].key == x;
      if i > 0 {
        assert s[1..][i - 1].key == x;
      }
    }
    forall x | x in KeySet(s[1..])
      ensures x in KeySet(s)
    {
      var i :| 0 <= i < |s[1..]| && s[1..][i].key == x;
      assert s[i + 1].key == x;
    }
  }

  /** In a sorted sequence the head key is below every key of the tail. */
  lemma HeadBelowTail<V>(s: seq<Entry<V>>, k: Key)
    requires Sorted(s) && |s| > 0
    requires k in KeySet(s[1..])
    ensures Less(s[0].key, k)
  {
    var i :| 0 <= i < |s[1..]| && s[1..][i].key == k;
    assert s[i + 1].key == k;
  }

  /** The map view has exactly the stored keys. */
  lemma {:induction false} ToMapKeys<V>(s: seq<Entry<V>>)
    ensures ToMap(s).Keys == KeySet(s)
    decreases |s|
  {
    if |s| > 0 {
      ToMapKeys(s[1..]);
      KeySetCons(s);
    }
  }

  /** In a sorted sequence each stored key maps to its own entry's value. */
  lemma {:induction false} ToMapAt<V>(s: seq<Entry<V>>, i: nat)
    requires Sorted(s) && i < |s|
    ensures s[i].key in ToMap(s) && ToMap(s)[s[i].key] == s[i].value
    decreases |s|
  {
    if i > 0 {
      ToMapAt(s[1..], i - 1);
      assert s[1..][i - 1] == s[i];
      assert Less(s[0].key, s[i].key);
    }
  }

  /** Distinct keys: a sorted sequence has as many keys as entries
      (`SortedList.Count` is the number of stored keys). */
  lemma {:induction false} CountIsKeyCount<V>(s: seq<Entry<V>>)
    requires Sorted(s)
    ensures |KeySet(s)| == |s|
    decreases |s|
  {
    if |s| > 0 {
      CountIsKeyCount(s[1..]);
      KeySetCons(s);
      if s[0].key in KeySet(s[1..]) {
        HeadBelowTail(s, s[0].key);
      }
    }
  }

  /** An entry below the head of a sorted sequence can go in front of it. */
  lemma PrependSorted<V>(e: Entry<V>, s: seq<Entry<V>>)
    requires Sorted(s) && (|s| == 0 || Less(e.key, s[0].key))
    ensures Sorted([e] + s)
  {
    var r := [e] + s;
    forall i, j | 0 <= i < j < |r|
      ensures Less(r[i].key, r[j].key)
    {
      assert r[j] == s[j - 1];
      if i == 0 {
        if j > 1 {
          LessIsStrictTotalOrder(e.key, s[0].key, s[j - 1].key);
        }
      } else {
        assert r[i] == s[i - 1];
      }
    }
  }

  /** `SortedList.Add(k, v)` for a key not yet stored: the new entry goes to
      the position that keeps the keys sorted. */
  function Insert<V>(s: seq<Entry<V>>, k: Key, v: V): (r: seq<Entry<V>>)
    requires Sorted(s) && k !in KeySet(s)
    ensures Sorted(r)
    ensures |r| == |s| + 1
    ensures KeySet(r) == KeySet(s) + {k}
    ensures ToMap(r) == ToMap(s)[k := v]
    decreases |s|
  {
    if |s| == 0 || Less(k, s[0].key) then
      InsertFront(s, k, v);
      [Entry(k, v)] + s
    else
      assert k !in KeySet(s[1..]) && Sorted(s[1..]) by { KeySetCons(s); }
      var tail := Insert(s[1..], k, v);
      InsertBehind(s, k, v, tail);
      [s[0]] + tail
  }

  /** A key below the head goes in front. */
  lemma InsertFront<V>(s: seq<Entry<V>>, k: Key, v: V)
    requires Sorted(s) && k !in KeySet(s) && (|s| == 0 || Less(k, s[0].key))
    ensures var r := [Entry(k, v)] + s;
      && Sorted(r)
      && KeySet(r) == KeySet(s) + {k}
      && ToMap(r) == ToMap(s)[k := v]
  {
    var r := [Entry(k, v)] + s;
    assert r[1..] == s;
    KeySetCons(r);
    PrependSorted(Entry(k, v), s);
  }

  /** A key above the head goes into the tail. */
  lemma InsertBehind<V>(s: seq<Entry<V>>, k: Key, v: V, tail: seq<Entry<V>>)
    requires Sorted(s) && |s| > 0 && !Less(k, s[0].key) && k !in KeySet(s)
    requires Sorted(tail) && |tail| > 0
    requires KeySet(tail) == KeySet(s[1..]) + {k}
    requires ToMap(tail) == ToMap(s[1..])[k := v]
    ensures var r := [s[0]] + tail;
      && Sorted(r)
      && KeySet(r) == KeySet(s) + {k}
      && ToMap(r) == ToMap(s)[k := v]
  {
    KeySetCons(s);
    InsertBehindSorted(s, k, tail);
    InsertBehindKeys(s, k, tail);
    InsertBehindMap(s, k, v, tail);
  }

  lemma InsertBehindSorted<V>(s: seq<Entry<V>>, k: Key, tail: seq<Entry<V>>)
    requires Sorted(s) && |s| > 0 && !Less(k, s[0].key) && k != s[0].key
    requires Sorted(tail) && |tail| > 0
    requires KeySet(tail) == KeySet(s[1..]) + {k}
    ensures Sorted([s[0]] + tail)
  {
    assert tail[0].key in KeySet(tail);
    if tail[0].key == k {
      LessIsStrictTotalOrder(k, s[0].key, k);
    } else {
      HeadBelowTail(s, tail[0].key);
    }
    PrependSorted(s[0], tail);
  }

  lemma InsertBehindKeys<V>(s: seq<Entry<V>>, k: Key, tail: seq<Entry<V>>)
    requires |s| > 0
    requires KeySet(tail) == KeySet(s[1..]) + {k}
    ensures KeySet([s[0]] + tail) == KeySet(s) + {k}
  {
    var r := [s[0]] + tail;
    assert r[1..] == tail;
    KeySetCons(s);
    KeySetCons(r);
  }

  lemma InsertBehindMap<V>(s: seq<Entry<V>>, k: Key, v: V, tail: seq<Entry<V>>)
    requires |s| > 0 && k != s[0].key
    requires ToMap(tail) == ToMap(s[1..])[k := v]
    ensures ToMap([s[0]] + tail) == ToMap(s)[k := v]
  {
    var r := [s[0]] + tail;
    assert r[1..] == tail;
    var m := ToMap(s[1..]);
    assert m[k := v][s[0].key := s[0].value] == m[s[0].key := s[0].value][k := v];
  }

  /** `SortedList.Remove(k)`: drops the entry with key `k`, if there is one;
      the order of the other entries is kept. */
  function RemoveKey<V>(s: seq<Entry<V>>, k: Key): (r: seq<Entry<V>>)
    requires Sorted(s)
    ensures Sorted(r)
    ensures k in KeySet(s) ==> |r| + 1 == |s|
    ensures k !in KeySet(s) ==> r == s
  {
    var i := IndexOf(s, k);
    if i < 0 then s
    else
      var r := s[..i] + s[i + 1..];
      assert Sorted(r) by {
        forall a, b | 0 <= a < b < |r|
          ensures Less(r[a].key, r[b].key)
        {
          var a' := if a < i then a else a + 1;
          var b' := if b < i then b else b + 1;
          assert r[a] == s[a'] && r[b] == s[b'];
        }
      }
      r
  }

  /** Removing the head key leaves the tail. */
  lemma RemoveHeadKey<V>(s: seq<Entry<V>>)
    requires Sorted(s) && |s| > 0
    ensures RemoveKey(s, s[0].key) == s[1..]
  {
    IndexOfSorted(s, 0);
  }

  /** Removing a key other than the head's removes it from the tail. */
  lemma RemoveKeyBelowHead<V>(s: seq<Entry<V>>, k: Key)
    requires Sorted(s) && |s| > 0 && k != s[0].key
    ensures Sorted(s[1..])
    ensures RemoveKey(s, k) == [s[0]] + RemoveKey(s[1..], k)
  {
    var i := IndexOf(s, k);
    if i >= 0 {
      IndexOfSorted(s, i);
      IndexOfSorted(s[1..], i - 1);
      assert s[1..][i - 1] == s[i];
      assert s[..i] + s[i + 1..] == [s[0]] + (s[1..][..i - 1] + s[1..][i..]);
    } else {
      KeySetCons(s);
    }
  }

  /** `Remove(k)` drops exactly the key `k` from the stored mapping. */
  lemma {:induction false} RemoveKeyMap<V>(s: seq<Entry<V>>, k: Key)
    requires Sorted(s)
    ensures ToMap(RemoveKey(s, k)) == ToMap(s) - {k}
    decreases |s|
  {
    if |s| > 0 {
      if s[0].key == k {
        RemoveHeadKeyMap(s);
      } else {
        var rest := RemoveKey(s[1..], k);
        assert RemoveKey(s, k) == [s[0]] + rest && ToMap(rest) == ToMap(s[1..]) - {k} by {
          RemoveKeyBelowHead(s, k);
          RemoveKeyMap(s[1..], k);
        }
        ConsMapRemove(s, k, rest);
      }
    }
  }

  /** Putting the head back in front of a tail without `k`. */
  lemma ConsMapRemove<V>(s: seq<Entry<V>>, k: Key, rest: seq<Entry<V>>)
    requires |s| > 0 && k != s[0].key
    requires ToMap(rest) == ToMap(s[1..]) - {k}
    ensures ToMap([s[0]] + rest) == ToMap(s) - {k}
  {
    var r := [s[0]] + rest;
    assert r[1..] == rest;
    var m := ToMap(s[1..]);
    assert (m - {k})[s[0].key := s[0].value] == m[s[0].key := s[0].value] - {k};
  }

  /** Removing the head key drops it from the mapping. */
  lemma RemoveHeadKeyMap<V>(s: seq<Entry<V>>)
    requires Sorted(s) && |s| > 0
    ensures ToMap(RemoveKey(s, s[0].key)) == ToMap(s) - {s[0].key}
  {
    var k := s[0].key;
    var m := ToMap(s[1..]);
    RemoveHeadKey(s);
    assert k !in m by {
      ToMapKeys(s[1..]);
      if k in KeySet(s[1..]) { HeadBelowTail(s, k); }
    }
    assert m[k := s[0].value] - {k} == m;
  }

  /** ... and exactly the key `k` from the stored keys. */
  lemma RemoveKeySet<V>(s: seq<Entry<V>>, k: Key)
    requires Sorted(s)
    ensures KeySet(RemoveKey(s, k)) == KeySet(s) - {k}
  {
    RemoveKeyMap(s, k);
    ToMapKeys(RemoveKey(s, k));
    ToMapKeys(s);
  }

  /** `SortedList.IndexOfKey(k)`, searching from position `from`: the index of
      the entry with key `k`, or -1 when there is none. */
  function IndexFrom<V>(s: seq<Entry<V>>, k: Key, from: nat): (i: int)
    requires from <= |s|
    ensures i == -1 || from <= i < |s|
    ensures 0 <= i ==> s[i].key == k
    ensures i == -1 <==> forall j :: from <= j < |s| ==> s[j].key != k
    decreases |s| - from
  {
    if from == |s| then -1
    else if s[from].key == k then from
    else IndexFrom(s, k, from + 1)
  }

  /** `SortedList.IndexOfKey(k)`. */
  function IndexOf<V>(s: seq<Entry<V>>, k: Key): (i: int)
    ensures -1 <= i < |s|
    ensures 0 <= i ==> s[i].key == k
    ensures i == -1 <==> k !in KeySet(s)
  {
    IndexFrom(s, k, 0)
  }

  /** In a sorted sequence the index of a key is unique. */
  lemma IndexOfSorted<V>(s: seq<Entry<V>>, i: nat)
    requires Sorted(s) && i < |s|
    ensures IndexOf(s, s[i].key) == i
  {
    assert s[i].key in KeySet(s);
  }
}
